=== FILE: README.md ===
# bbpc-admin core, modelled in Dafny

This project models the logic of the bbpc-admin Next.js admin app, a back
office for a podcast's movie-rating game. It covers two parts:

- The tRPC routers' domain rules:
  - ranked lists and their types;
  - placing, confirming and rejecting bets ("gambles");
  - the point balance `calculateUserPoints`;
  - host-rating guesses and seasons;
  - point updates and deletion;
  - linking syllabus entries to assignments;
  - url-keyed movie and show upserts.
- The client-side helpers:
  - the blob explorer's pagination stack;
  - the movie table's sort-header cycle, filter and comparator;
  - the user search and initials;
  - the review page's query-string filters;
  - the sidebar's active-route matching;
  - grouping of bets and guesses by user;
  - the bet-status menu;
  - the bonus-points popover;
  - the validators of the admin modals.

The database is one immutable `Schema.Db` value that holds every table as a
sequence of records in table order. Each router procedure is a pure function
from a `Db` to `Result<Db, ApiError>`. Prisma's `findFirst` returns the first
match in table order. Freshly generated ids are parameters (`newId`). The
current time is a parameter (`now`), and dates are integers. Each UI helper
is a pure function over a small datatype. The JavaScript string operations
the pages use live in `JsText`, each with its own lemmas:

- `trim`, `toLowerCase` and `toUpperCase`;
- `includes` and `startsWith`;
- `split` and `join`;
- `parseInt` and `toString`;
- `<` on strings.

Each operation is paired with a lemma that relates it to something else:
an inverse, a preserved invariant, an idempotence law, a second operation
or an independent characterisation. A few plain lookups and validators are
characterised by their contract alone.

## Model

| member | source | states |
|---|---|---|
| RankedLists.ParseTargetType | src/server/trpc/router/rankedListRouter.ts:18 | a target type is accepted exactly when it is MOVIE, SHOW or EPISODE |
| RankedLists.TargetTypeRoundTrip | src/server/trpc/router/rankedListRouter.ts:18 | every target type's wire name parses back to it, and it is the only name that does |
| RankedLists.CreateType | src/server/trpc/router/rankedListRouter.ts:12-36 | input outside the schema (empty name, `maxItems` outside 1..100, unknown target) is BAD_REQUEST; a valid request from a non-admin is FORBIDDEN; it succeeds exactly for a valid request from an admin, and then exactly one type is appended and nothing else changes |
| RankedLists.DeleteType | src/server/trpc/router/rankedListRouter.ts:38-55 | a non-admin gets FORBIDDEN; an admin deleting a missing type makes Prisma throw (INTERNAL_SERVER_ERROR); it succeeds exactly for an admin and an existing type, and then only that type is gone |
| RankedLists.ApplyTypePatch | src/server/trpc/router/rankedListRouter.ts:79-83 | a supplied field replaces the stored one, an omitted one is kept, the id never changes |
| RankedLists.UpdateType | src/server/trpc/router/rankedListRouter.ts:57-84 | schema violations are BAD_REQUEST, then a non-admin is FORBIDDEN, then a missing type makes Prisma throw; it succeeds exactly for a valid patch from an admin on an existing type, and then only that type changes, by the patch |
| RankedLists.TypeOperationsKeepTypesWellFormed | src/server/trpc/router/rankedListRouter.ts:14-65 | create, update and delete keep every stored type with a non-empty name and `maxItems` in 1..100 |
| RankedLists.ParseStatus | src/server/trpc/router/rankedListRouter.ts:139 | a list status is accepted exactly when it is DRAFT or PUBLISHED |
| RankedLists.UpsertList | src/server/trpc/router/rankedListRouter.ts:133-175 | with a truthy id: NOT_FOUND for a missing list, FORBIDDEN for a non-owner, and success for the owner, when only that list's title (when supplied) and status change; without one: a new list owned by the caller is appended |
| RankedLists.CreatedListIsOwned | src/server/trpc/router/rankedListRouter.ts:143-174 | a list created by one user is FORBIDDEN to every other user's `upsertList`, and its creator may update it |
| RankedLists.Occupy | src/server/trpc/router/rankedListRouter.ts:231-252 | the occupant of a rank keeps its id, list and rank; the same entity only gets the new comment, a different one gets the new entity ids and comment |
| RankedLists.UpsertItem | src/server/trpc/router/rankedListRouter.ts:184-265 | checks run in the order `upsertItem` makes them (rank at least 1, NOT_FOUND, FORBIDDEN, missing target id, rank above `maxItems`; a list whose type row is missing makes Prisma throw); it succeeds exactly when every check passes; an occupied rank is updated in place, a free one gets one new item |
| RankedLists.UpsertItemKeepsRanksDistinct | src/server/trpc/router/rankedListRouter.ts:222-265 | a successful `upsertItem` never puts two items of one list at the same rank |
| RankedLists.Shifted | src/server/trpc/router/rankedListRouter.ts:291-309 | moving up increments ranks in `[newRank, oldRank)` of the same list, moving down decrements ranks in `(oldRank, newRank]`, every other item keeps its rank |
| RankedLists.Renumber | src/server/trpc/router/rankedListRouter.ts:290-314 | the moved item gets `newRank` and every other item is shifted as above |
| RankedLists.ReorderItem | src/server/trpc/router/rankedListRouter.ts:268-315 | BAD_REQUEST for `newRank` below 1, NOT_FOUND for a missing item, FORBIDDEN, BAD_REQUEST above `maxItems`, a dangling list or type row throws; it succeeds exactly when every check passes; the same rank changes nothing; otherwise only ranks change |
| RankedLists.RenumberKeepsRanksDistinct | src/server/trpc/router/rankedListRouter.ts:290-314 | renumbering keeps the ranks within each list pairwise distinct |
| RankedLists.ReorderItemKeepsRanksDistinct | src/server/trpc/router/rankedListRouter.ts:268-315 | a successful `reorderItem` keeps ranks within each list pairwise distinct |
| RankedLists.ReorderRoundTrip | src/server/trpc/router/rankedListRouter.ts:285-314 | moving an item to a new rank and back restores every item |
| RankedLists.RemoveItem | src/server/trpc/router/rankedListRouter.ts:317-336 | NOT_FOUND for a missing item, then FORBIDDEN for a non-owner (a dangling list row throws); on success exactly that item is removed and no rank is renumbered |
| RankedLists.RemoveItemFreesRank | src/server/trpc/router/rankedListRouter.ts:333-335 | after removing an item no item of its list holds its rank, and ranks stay distinct |
| RankedLists.DeleteList | src/server/trpc/router/rankedListRouter.ts:338-356 | NOT_FOUND, then FORBIDDEN for a non-owner; it succeeds exactly for the owner of an existing list, and then the list is removed and the items are exactly those of other lists, in order |
| RankedLists.DeleteListTwiceNotFound | src/server/trpc/router/rankedListRouter.ts:184-356 | with unique list ids, a deleted list is NOT_FOUND to a second `deleteList` and to `upsertItem`, whoever calls |
| RankedLists.ChangeOwner | src/server/trpc/router/rankedListRouter.ts:358-376 | a non-admin gets FORBIDDEN; a missing list makes Prisma throw; it succeeds exactly for an admin and an existing list, and then only the list's owner changes |
| RankedLists.ChangeOwnerTransfersEditing | src/server/trpc/router/rankedListRouter.ts:372-375 | after `changeOwner` the new owner may update the list and a different former owner is FORBIDDEN |
| Points.GambleNet | src/server/trpc/utils/points.ts:35-43 | a bet adds its stake only when `successful` is true; false or pending subtracts it |
| Points.UserPointsIsMasked | src/server/trpc/utils/points.ts:8-47 | the balance equals the sum over whole tables of each row's contribution masked by user and season |
| Points.UserPointsOrderIndependent | src/server/trpc/utils/points.ts:8-47 | the balance does not depend on the order of rows in any table |
| Points.UserPointsWithoutRows | src/server/trpc/utils/points.ts:45-47 | a user with no matching rows has a balance of 0 |
| Points.UserPointsIgnoresOthers | src/server/trpc/utils/points.ts:12-32 | rows of other users or other seasons never change the balance |
| Points.UserPointsAfterNewGamble | src/server/trpc/utils/points.ts:35-43 | adding a pending bet of the user in the season lowers the balance by its stake |
| Seasons.OpenSeason | src/server/trpc/router/gamblingRouter.ts:29-34 | the open season (no `endedOn`) with the latest start, or none exactly when no season is open |
| Seasons.CurrentSeason | src/server/trpc/router/guessRouter.ts:274-292 | the season in progress at `now` with the latest start, or none exactly when none is in progress |
| Seasons.ResolveSeasonFilter | src/server/trpc/router/gamblingRouter.ts:25-46 | `"all"` gives no filter; a truthy id filters by it; otherwise the fallback season if truthy, else no filter |
| Seasons.EndSeason | src/server/trpc/router/guessRouter.ts:295-317 | the ended season gets `endedOn = now` and a new open season starting at `now` is appended; a missing season makes Prisma's update throw and nothing is created |
| Seasons.EndSeasonStartsNext | src/server/trpc/router/guessRouter.ts:294-316 | when every season started before `now`, after `endSeason` the new season is the current one |
| Gambling.GetForUser | src/server/trpc/router/gamblingRouter.ts:19-55 | the user's bets: all of them for `"all"` or when no season is open; for a named or open season exactly the user's bets in it |
| Gambling.SeasonViewNarrowsAll | src/server/trpc/router/gamblingRouter.ts:26-54 | a named season's view equals the `"all"` view filtered to that season, in the same order |
| Gambling.Add | src/server/trpc/router/gamblingRouter.ts:57-116 | as written: fails without a season and without an open one, then when bets are locked, then when the stake exceeds the balance for the destructured (possibly absent) season; on success exactly one bet is appended |
| Gambling.AddDeductsStake | src/server/trpc/router/gamblingRouter.ts:97-112 | after a successful bet the balance it was checked against drops by the stake and stays non-negative |
| Gambling.AddAsWrittenIgnoresOpenSeason | src/server/trpc/router/gamblingRouter.ts:67-107 | a concrete database where `add` without a season accepts a bet the open season cannot cover and stores it without a season |
| Gambling.AddIntended | src/server/trpc/router/gamblingRouter.ts:69-112 | the looked-up season is used for the balance check and stored on the bet |
| Gambling.AddIntendedUsesOpenSeason | src/server/trpc/router/gamblingRouter.ts:69-112 | a bet placed without a season is stored in the open season, whose balance stays non-negative |
| Gambling.Update | src/server/trpc/router/gamblingRouter.ts:118-132 | only the stake of the named bet changes; a missing bet makes Prisma throw |
| Gambling.UpdateUndo | src/server/trpc/router/gamblingRouter.ts:118-132 | setting the stake back to its old value restores the database |
| Gambling.Payout | src/server/trpc/router/gamblingRouter.ts:230 | the payout is the floor of stake times multiplier |
| Gambling.ConfirmSeason | src/server/trpc/router/gamblingRouter.ts:218-225 | the bet's own season, else the request's fallback, else the open season |
| Gambling.ConfirmGamble | src/server/trpc/router/gamblingRouter.ts:204-252 | checks in the order `confirmGamble` makes them: a missing bet or type is "Gamble not found", then a set `pointsId` is "Gamble already confirmed", then no season is "No season found"; it succeeds exactly when all three pass, appending one point with the payout as `adjustment` and marking the bet won, linked and given the season |
| Gambling.ConfirmTwiceFails | src/server/trpc/router/gamblingRouter.ts:216 | confirming the same bet a second time fails |
| Gambling.ConfirmGambleBalance | src/server/trpc/utils/points.ts:10-43 | confirming turns the bet's contribution from minus to plus the stake; the point's `adjustment` adds nothing to the balance |
| Gambling.RejectGamble | src/server/trpc/router/gamblingRouter.ts:254-266 | any existing bet becomes `successful = false` with no point, whatever its state; a missing bet makes Prisma throw |
| Gambling.RejectIdempotent | src/server/trpc/router/gamblingRouter.ts:259-265 | rejecting twice equals rejecting once |
| Gambling.RejectReopensConfirm | src/server/trpc/router/gamblingRouter.ts:216-265 | a rejected bet is no longer "already confirmed" |
| Gambling.RejectGambleBalance | src/server/trpc/utils/points.ts:35-43 | rejecting a won bet lowers the all-season balance by twice its stake, other bets unchanged |
| Guesses.AdminReview | src/server/trpc/router/guessRouter.ts:57-65 | the first assignment review on the assignment by the host for the movie, or none exactly when there is none |
| Guesses.UpsertGuess | src/server/trpc/router/guessRouter.ts:73-100 | an existing guess of the user on the review only gets the new rating; otherwise one guess is created in the season |
| Guesses.UpsertKeepsOneGuessPerReview | src/server/trpc/router/guessRouter.ts:73-100 | upserting keeps at most one guess per (user, review) |
| Guesses.UpsertOnlyRatings | src/server/trpc/router/guessRouter.ts:81-86 | existing rows stay in place, only the rating of the user's guesses may change |
| Guesses.Upserts | src/server/trpc/router/guessRouter.ts:50-103 | the fold of the upserts succeeds exactly when every guess has its review, and otherwise fails at the first guess without one |
| Guesses.UpsertsTable | src/server/trpc/router/guessRouter.ts:73-100 | after a successful fold existing rows keep their place and only the user's ratings change, every added row is the user's, in the season, with no score or point, and one guess per (user, review) is kept |
| Guesses.UpsertsResults | src/server/trpc/router/guessRouter.ts:50-103 | a successful fold has one result row per input guess, in input order: the user's, with the input's rating on the input's review |
| Guesses.UpsertsStoreLast | src/server/trpc/router/guessRouter.ts:73-100 | last write wins: the result row of an input whose review no later input names is in the final table |
| Guesses.ApplyGuesses | src/server/trpc/router/guessRouter.ts:50-103 | the loop computes the fold `Upserts`: one missing review fails the whole transaction with nothing written; otherwise one result per input guess, in input order, and at most one guess per (user, review) |
| Guesses.ReviewIds | src/server/trpc/router/guessRouter.ts:53-71 | each input guess maps to its review id exactly when the host's review exists |
| Guesses.AddOrUpdateGuesses | src/server/trpc/router/guessRouter.ts:17-104 | UNAUTHORIZED for a non-admin, then no current season, then unknown assignment, all before any write; success exactly when every guess has its review, and then the guesses table is the fold `Upserts` in the current season and every added row is in that season |
| Guesses.GetForUser | src/server/trpc/router/guessRouter.ts:215-264 | the user's guesses: all of them for `"all"` or without a current season; for a named or current season exactly the user's guesses in it |
| Guesses.SeasonViewNarrowsAll | src/server/trpc/router/guessRouter.ts:222-263 | a named season's view equals the `"all"` view filtered to that season, in the same order |
| Guesses.AddPointForGuess | src/server/trpc/router/guessRouter.ts:319-355 | without a truthy game point id the GUESS type is looked up and its absence is "Game point not found"; once the type resolves, connecting a missing guess makes Prisma throw; it succeeds exactly when the type resolves and the guess exists, appending one point linked to the guess |
| PointRouter.ApplyPatch | src/server/trpc/router/pointRouter.ts:55-67 | supplied fields replace the stored ones, omitted ones are kept, the id never changes |
| PointRouter.Update | src/server/trpc/router/pointRouter.ts:55-68 | admin only; it succeeds exactly for an admin and an existing point, and then only that point changes, by the patch; a missing point makes Prisma throw |
| PointRouter.UpdateNoChangeAndIdempotent | src/server/trpc/router/pointRouter.ts:63-67 | an all-omitted update changes nothing and applying the same patch twice equals once |
| PointRouter.Remove | src/server/trpc/router/pointRouter.ts:70-103 | admin only; it succeeds exactly for an admin and an existing point; the points are exactly the others, the assignment links exactly those to other points, other references are nulled; afterwards nothing refers to the point; a missing point makes the delete throw |
| PointRouter.RemoveKeepsOtherLinks | src/server/trpc/router/pointRouter.ts:85-97 | references to any other point survive a removal |
| PointRouter.RemoveUndoesAddPointForGuess | src/server/trpc/router/pointRouter.ts:83-101 | removing the point `addPointForGuess` just created restores the database |
| SyllabusRouter.EpisodeByNumber | src/server/trpc/router/syllabusRouter.ts:13-17 | the first episode with the number, or none exactly when there is none |
| SyllabusRouter.EpisodeByNumberIsFirst | src/server/trpc/router/syllabusRouter.ts:13-17 | when any episode has the number, one is found, and it comes no later in table order than any episode with that number |
| SyllabusRouter.AssignEpisode | src/server/trpc/router/syllabusRouter.ts:5-83 | "Episode not found", then "Syllabus item not found"; an existing (user, movie, episode) assignment is reused, otherwise exactly one is created; the entry then links to an assignment with its user and movie on that episode |
| SyllabusRouter.AssignEpisodeIdempotent | src/server/trpc/router/syllabusRouter.ts:38-55 | assigning the same episode again creates no second assignment and changes nothing |
| SyllabusRouter.RemoveEpisode | src/server/trpc/router/syllabusRouter.ts:84-97 | only the entry's `assignmentId` is cleared; a missing entry makes Prisma throw |
| SyllabusRouter.RemoveAfterAssignKeepsAssignment | src/server/trpc/router/syllabusRouter.ts:84-97 | unlinking after assigning leaves the entry unlinked and the assignment record in place |
| Catalog.Upsert | src/server/trpc/router/movieRouter.ts:44-69 | a row with the url gets the input's columns and keeps its id, other rows unchanged; otherwise one row is appended |
| Catalog.UpsertKeepsUrlsUnique | src/server/trpc/router/movieRouter.ts:44-61 | `add` never creates a second row with an existing url |
| Catalog.UpsertIdempotent | src/server/trpc/router/movieRouter.ts:44-69 | repeating the same `add` changes nothing |
| Catalog.Find | src/server/trpc/router/movieRouter.ts:8-20 | exactly the rows whose title contains the search term |
| Catalog.FindIdempotent | src/server/trpc/router/movieRouter.ts:8-20 | searching the results of a search again finds the same rows |
| Catalog.FindAfterUpsert | src/server/trpc/router/movieRouter.ts:8-69 | after an `add`, a search whose term the new title contains finds a row with the input's url and columns |
| Catalog.AddMovie | src/server/trpc/router/movieRouter.ts:36-70 | the movies table becomes the url upsert of the input, nothing else changes, url uniqueness is kept, and it grows only for a new url |
| Catalog.AddShow | src/server/trpc/router/showRouter.ts:42-67 | the shows table becomes the url upsert of the input, nothing else changes, url uniqueness is kept, and it grows only for a new url |
| AssignmentBets.StatusBadge | src/components/Assignment/AssignmentBets.tsx:41-46 | Won, Lost and Locked for exactly their statuses, Pending for any other |
| AssignmentBets.Menu | src/components/Assignment/AssignmentBets.tsx:103-161 | confirm and reject are offered exactly for `pending` and `locked` |
| AssignmentBets.StatusTransitions | src/components/Assignment/AssignmentBets.tsx:125-161 | the only status changes are pending to locked, locked to pending, and won or lost to pending |
| AssignmentBets.UnknownStatusHasNoActions | src/components/Assignment/AssignmentBets.tsx:41-161 | an unknown status shows Pending but offers no button |
| AssignmentBets.Enabled | src/components/Assignment/AssignmentBets.tsx:39-120 | no button is clickable while any of the three mutations is in flight |
| AssignmentBets.GroupedByUser | src/components/Assignment/AssignmentBets.tsx:48-68 | one group per user in order of first appearance, each holding that user's bets in order, every bet once; no groups exactly when there are no bets |
| BonusPoints.RowControlsExclusive | src/components/ManageBonusPointsPopover.tsx:164-189 | WON and LOST never show together, and Confirm/Reject rule out both |
| BonusPoints.ConfirmedRowShowsWon | src/components/ManageBonusPointsPopover.tsx:164-184 | once a bet is linked to a point its row shows WON and no buttons |
| BonusPoints.RowTotal | src/components/ManageBonusPointsPopover.tsx:206 | the type's points plus the adjustment, a missing part counting as 0 |
| BonusPoints.RowTotalSplits | src/components/ManageBonusPointsPopover.tsx:206 | the total is the type-only total plus the adjustment-only total |
| BonusPoints.RowLabel | src/components/ManageBonusPointsPopover.tsx:203 | the type's title, else the reason, else "Adjustment" |
| BonusPoints.AdjustmentInput | src/components/ManageBonusPointsPopover.tsx:139 | an unparsable value is 0, otherwise the parsed integer |
| BonusPoints.AdjustmentInputRoundTrip | src/components/ManageBonusPointsPopover.tsx:138-139 | the field reads back the integer it displays |
| BonusPoints.AddRequest | src/components/ManageBonusPointsPopover.tsx:90-98 | the request always uses the `bonus` lookup and carries the form's reason and adjustment |
| BonusPoints.AfterAdd | src/components/ManageBonusPointsPopover.tsx:57-59 | after success the form is closed and cleared |
| BonusPoints.AddDisabledAfterSuccess | src/components/ManageBonusPointsPopover.tsx:57-147 | a cleared form cannot be submitted, and a typed reason re-enables it |
| EditAssignment.Entries | src/components/Assignment/EditAssignment.tsx:177-182 | as many entries as there are guesses over all reviews |
| EditAssignment.EntriesFromReviews | src/components/Assignment/EditAssignment.tsx:177-182 | every entry is a guess of some review, paired with that review's id |
| EditAssignment.EntriesAppend | src/components/Assignment/EditAssignment.tsx:177-182 | the entries of two runs of reviews are those of the first run followed by those of the second |
| EditAssignment.EntriesInTraversalOrder | src/components/Assignment/EditAssignment.tsx:177-182 | guess `i` of review `k` is entry number (guesses of the reviews before `k`) + `i`: reviews in order, guesses in order within each |
| EditAssignment.GuessesByUser | src/components/Assignment/EditAssignment.tsx:175-185 | one group per guessing user in first-appearance order, each holding that user's entries in order |
| EditAssignment.GroupedCountIsGuessCount | src/components/Assignment/EditAssignment.tsx:177-182 | the groups hold as many entries as there are guesses; no groups exactly when there are no guesses |
| EditAssignment.RowGamble | src/components/Assignment/EditAssignment.tsx:268 | the first bet of the row's user, or none |
| EditAssignment.ShownPoints | src/components/Assignment/EditAssignment.tsx:276 | that bet's points, or 0 |
| EditAssignment.RowActions | src/components/Assignment/EditAssignment.tsx:281-297 | with a bet: +1, -1 and remove on it; without: add a bet of 0 points |
| EditAssignment.StepChangesShownPointsByOne | src/components/Assignment/EditAssignment.tsx:265-286 | for rows read from the assignment's bets, sending +1 or -1 to `update` succeeds, moves the row's shown points by exactly one and leaves other users' rows unchanged, and the refetched list is the assignment's bets in the updated table |
| EditAssignment.UpdateKeepsListing | src/server/trpc/router/gamblingRouter.ts:169-183 | after a stake update, the previous listing of an assignment's bets with that stake changed, rows in place, is exactly the assignment's bets in the updated table |
| EditAssignment.UpdatedListingSound | src/server/trpc/router/gamblingRouter.ts:169-183 | every row of the refetched list is a bet of the assignment in the updated table |
| EditAssignment.UpdatedListingComplete | src/server/trpc/router/gamblingRouter.ts:169-183 | every bet of the assignment in the updated table is in the refetched list |
| BlobExplorer.ChangeContainer | src/pages/azure-blobs.tsx:38-42 | a new container starts at page one with no token and no history |
| BlobExplorer.NextPage | src/pages/azure-blobs.tsx:44-49 | only with a next token: push the current token (absent stored as "") and move to the next token |
| BlobExplorer.PrevPage | src/pages/azure-blobs.tsx:51-57 | only with history: pop the last entry, "" read back as no token |
| BlobExplorer.PageNumber | src/pages/azure-blobs.tsx:263 | the page shown is at least 1 |
| BlobExplorer.PageNumberSteps | src/pages/azure-blobs.tsx:44-57 | Next adds one to the page number and Prev subtracts one, when they act |
| BlobExplorer.ButtonsMatchHandlers | src/pages/azure-blobs.tsx:270-280 | a button is enabled (not loading) exactly when its handler changes the state |
| BlobExplorer.NextThenPrev | src/pages/azure-blobs.tsx:44-57 | Next then Prev restores the state, except that a "" token comes back as no token |
| BlobExplorer.WalkBackRestores | src/pages/azure-blobs.tsx:44-57 | any number of Next steps followed by as many Prev steps restores the state |
| BlobExplorer.DefaultContainer | src/pages/azure-blobs.tsx:108-113 | with no container chosen and a non-empty list, the first container is chosen |
| BlobExplorer.ListRequest | src/pages/azure-blobs.tsx:25-35 | the listing is requested exactly when a container is chosen, with the current token |
| MovieTable.HandleSort | src/pages/movie/index.tsx:49-57 | the same key goes asc to desc to none to asc; a different key starts at asc |
| MovieTable.HandleSortCycle | src/pages/movie/index.tsx:49-57 | three clicks on the current key return to the start, and one click always changes the state |
| MovieTable.SortValue | src/pages/movie/index.tsx:71-77 | title sorts by the title string, year by the year, reviews by the count with a missing count as 0, any other key is undefined |
| MovieTable.Compare | src/pages/movie/index.tsx:67-86 | the comparator returns -1, 0 or 1, and 0 exactly when neither value is smaller |
| MovieTable.CompareAntisymmetric | src/pages/movie/index.tsx:79-85 | swapping the rows negates the comparator |
| MovieTable.InOrderTotal | src/pages/movie/index.tsx:79-85 | any two rows are in order one way or the other |
| MovieTable.InOrderTransitive | src/pages/movie/index.tsx:79-85 | the comparator's order is transitive |
| MovieTable.TitleInOrder | src/pages/movie/index.tsx:79-85 | by title, `a` may precede `b` exactly when `b`'s title is not smaller (not larger, descending) |
| MovieTable.NumInOrder | src/pages/movie/index.tsx:71-85 | by year or reviews, `a` may precede `b` exactly when its number is at most (at least, descending) `b`'s |
| MovieTable.OtherKeyInOrder | src/pages/movie/index.tsx:74-86 | for any other key every pair compares equal |
| MovieTable.LeTotalPreorder | src/pages/movie/index.tsx:67-86 | the comparator orders any two rows one way or the other, and transitively, so sorting by it is well defined |
| MovieTable.SortRows | src/pages/movie/index.tsx:66-87 | the sorted rows are a permutation of the input in comparator order |
| MovieTable.FilterRows | src/pages/movie/index.tsx:62-64 | exactly the rows whose lower-cased title includes the lower-cased filter |
| MovieTable.EmptyFilterKeepsAll | src/pages/movie/index.tsx:62-64 | an empty filter keeps every row in order |
| MovieTable.SortedMovies | src/pages/movie/index.tsx:59-90 | without a direction the filtered order is kept; with one the filtered rows are permuted into comparator order |
| MovieTable.NumericOrder | src/pages/movie/index.tsx:71-85 | ascending by year or reviews is non-decreasing, descending is non-increasing |
| MovieTable.DescIsReverseOfAsc | src/pages/movie/index.tsx:79-85 | sorting the same rows by year or review count, the value at position i ascending is the value at position n-1-i descending |
| MovieTable.SortNumeric | src/pages/movie/index.tsx:67-86 | for year or review count the sort keeps the same rows and orders their values non-decreasing ascending and non-increasing descending |
| MovieTable.AddPayload | src/pages/movie/index.tsx:107-114 | year 0 without a release date, poster "" without a poster path, url built from the TMDB id |
| MovieTable.AddPayloadUrlIdentifiesFilm | src/pages/movie/index.tsx:112 | two results get the same url exactly when they have the same TMDB id |
| UserList.FilterUsers | src/pages/user/index.tsx:66-81 | a user is kept exactly when the lower-cased name or email includes the lower-cased query and, unless "all", some role id string equals the selection |
| UserList.FilterUsersIsOneFilter | src/pages/user/index.tsx:68-77 | the two filters in a row are one filter by both conditions |
| UserList.NamelessUserHidden | src/pages/user/index.tsx:69-70 | a user with neither name nor email is never listed |
| UserList.EmptyQueryKeepsNamedUsers | src/pages/user/index.tsx:68-71 | with the empty query and all roles, exactly the users with a name or email are kept |
| UserList.RoleSelectionIsExact | src/pages/user/index.tsx:75 | selecting a role's id string matches exactly the users holding that role |
| UserList.Initials | src/pages/user/index.tsx:83-86 | at most two characters; "U" for a missing or empty name |
| UserList.InitialsOfWords | src/pages/user/index.tsx:85 | for space-separated words, the upper-cased first letters of the first two words |
| UserList.BlankNameHasNoInitials | src/pages/user/index.tsx:84-85 | a name of spaces has empty initials, not "U" |
| ReviewFilters.ReadFilter | src/pages/review/index.tsx:90-91 | a missing or empty parameter reads as "all", any other value reads as itself |
| ReviewFilters.SetFilter | src/pages/review/index.tsx:93-105 | "all" deletes the key, any other value sets it, and other keys are kept |
| ReviewFilters.SetThenRead | src/pages/review/index.tsx:90-105 | reading back a set filter gives the value (or "all"), and other filters are unchanged |
| ReviewFilters.SetFilterIdempotent | src/pages/review/index.tsx:93-105 | setting twice equals once, and "all" undoes any earlier value |
| ReviewFilters.RatingArg | src/pages/review/index.tsx:117 | undefined for "all", null for "none", else the id |
| ReviewFilters.UserArg | src/pages/review/index.tsx:118 | undefined for "all", else the id, never null |
| ReviewFilters.QueryArgs | src/pages/review/index.tsx:90-118 | a missing, empty or "all" parameter leaves its argument out; rating "none" asks for `null`; any other rating or user value is sent as that id |
| ReviewFilters.PickRating | src/pages/review/index.tsx:93-118 | picking a rating changes only the rating argument, to what was picked |
| ReviewFilters.PickUser | src/pages/review/index.tsx:100-118 | picking a user changes only the user argument, to what was picked |
| ReviewFilters.RowSelectValue | src/pages/review/index.tsx:252 | a row shows "none" exactly when it has no rating |
| ReviewFilters.RowRatingArg | src/pages/review/index.tsx:253 | choosing "none" sends a null rating, anything else sends itself |
| ReviewFilters.RowSelectRoundTrip | src/pages/review/index.tsx:252-253 | re-selecting what a row shows sends its rating back unchanged |
| Sidebar.ActiveIndices | src/components/layout/Sidebar.tsx:36-177 | an entry is highlighted exactly when the path equals its href (exact entries) or starts with it (prefix entries) |
| Sidebar.RoutesUnambiguous | src/components/layout/Sidebar.tsx:46-175 | exact hrefs are distinct and no prefix href is a prefix of another href |
| Sidebar.AtMostOneActive | src/components/layout/Sidebar.tsx:47-175 | with unambiguous hrefs at most one entry is active for any path |
| Sidebar.SidebarHighlightsAtMostOne | src/components/layout/Sidebar.tsx:47-175 | the sidebar never highlights two entries |
| Sidebar.ExamplePaths | src/components/layout/Sidebar.tsx:47-175 | "/episode/42" highlights Episodes, "/users" Users, "/test-audio" only Test Audio, "/" only Dashboard |
| FormFields.RequiredError | src/components/Game/GameTypeModal.tsx:69-81 | a required field's error is empty exactly when its trimmed value is non-empty |
| FormFields.OptionalText | src/components/Game/GameTypeModal.tsx:87 | a blank description becomes undefined, otherwise its non-empty trim |
| FormFields.LoadSaveText | src/components/Game/GameTypeModal.tsx:49-87 | loading a stored trimmed description and saving it unchanged gives it back |
| FormFields.OptionalTextStable | src/components/Game/GameTypeModal.tsx:87 | re-saving a saved description gives the same value |
| FormFields.Decide | src/components/Game/GameTypeModal.tsx:83-95 | nothing is sent when invalid; an update of the edited item or an add otherwise |
| GameTypeForm.Reset | src/components/Game/GameTypeModal.tsx:56-62 | empty fields and no errors |
| GameTypeForm.Load | src/components/Game/GameTypeModal.tsx:46-54 | the item's fields, with a missing description as "" |
| GameTypeForm.Check | src/components/Game/GameTypeModal.tsx:64-81 | each blank field gets its own error, both checked |
| GameTypeForm.HandleSave | src/components/Game/GameTypeModal.tsx:64-96 | no mutation unless both trimmed fields are non-empty; the payload carries the trimmed values; edit or add by `editingItem` |
| GameTypeForm.DisabledIffNothingSent | src/components/Game/GameTypeModal.tsx:99-135 | `isFormInvalid` holds exactly when saving sends nothing |
| GameTypeForm.EditUnchangedRoundTrip | src/components/Game/GameTypeModal.tsx:46-96 | opening a stored type and saving it untouched updates it with its own values |
| GamblingTypeForm.Reset | src/components/Game/GamblingTypeModal.tsx:61-69 | empty text, multiplier 1.5, active, no errors |
| GamblingTypeForm.Load | src/components/Game/GamblingTypeModal.tsx:49-59 | the item's fields, with a missing description as "" |
| GamblingTypeForm.Check | src/components/Game/GamblingTypeModal.tsx:71-88 | each blank field gets its own error, both checked |
| GamblingTypeForm.HandleSave | src/components/Game/GamblingTypeModal.tsx:71-105 | no mutation unless both trimmed fields are non-empty; trimmed payload with multiplier and flag as they are; edit or add by `editingItem` |
| GamblingTypeForm.DisabledIffNothingSent | src/components/Game/GamblingTypeModal.tsx:108-162 | `isFormInvalid` holds exactly when saving sends nothing |
| GamblingTypeForm.ResetFormBlocksSave | src/components/Game/GamblingTypeModal.tsx:61-90 | a reset form cannot be saved and shows both errors |
| GamblingTypeForm.EditUnchangedRoundTrip | src/components/Game/GamblingTypeModal.tsx:49-105 | opening a stored type and saving it untouched updates it with its own values |
| TagForm.Reset | src/components/Tag/TagModal.tsx:56-60 | empty name and description, no error |
| TagForm.Load | src/components/Tag/TagModal.tsx:47-54 | the item's name, with a missing description as "" |
| TagForm.HandleSave | src/components/Tag/TagModal.tsx:62-80 | a blank name sets "Tag name is required" and sends nothing; otherwise the trimmed payload, edit or add by `editingItem` |
| TagForm.PaddingIgnored | src/components/Tag/TagModal.tsx:63 | padding the name with whitespace changes nothing that is sent |
| TagForm.EditUnchangedRoundTrip | src/components/Tag/TagModal.tsx:47-80 | opening a stored tag and saving it untouched updates it with its own values |
| GamePointTypeForm.Reset | src/components/Game/GamePointTypeModal.tsx:66-75 | empty text, 0 points, the default game type or 0, no errors |
| GamePointTypeForm.PointsInput | src/components/Game/GamePointTypeModal.tsx:176-184 | "" and unparsable text are 0, otherwise the parsed integer |
| GamePointTypeForm.PointsInputRoundTrip | src/components/Game/GamePointTypeModal.tsx:175-184 | typing an integer's decimal form sets exactly that integer |
| GamePointTypeForm.SelectValue | src/components/Game/GamePointTypeModal.tsx:129 | the select shows "" exactly for game type 0 |
| GamePointTypeForm.SelectGameType | src/components/Game/GamePointTypeModal.tsx:130-137 | an unparsable choice is 0, otherwise the parsed id |
| GamePointTypeForm.SelectRoundTrip | src/components/Game/GamePointTypeModal.tsx:129-137 | choosing the shown value keeps the game type |
| GamePointTypeForm.Check | src/components/Game/GamePointTypeModal.tsx:77-98 | blank title, blank lookup id and game type 0 each get their own error |
| GamePointTypeForm.HandleSave | src/components/Game/GamePointTypeModal.tsx:77-115 | nothing is sent exactly when a check fails; trimmed payload; edit or add by `editingItem` |
| GamePointTypeForm.NoDefaultTypeBlocksSave | src/components/Game/GamePointTypeModal.tsx:71-100 | a form reset without a default game type cannot be saved, whatever its text |
| BangerForm.Reset | src/components/Banger/BangerModal.tsx:68-77 | empty text, both ids null, no errors |
| BangerForm.NullIfEmpty | src/components/Banger/BangerModal.tsx:118-119 | "" and null become null, other ids are kept |
| BangerForm.UrlError | src/components/Banger/BangerModal.tsx:99-110 | a blank url is required, a non-blank url that does not parse is "Invalid URL format", otherwise no error |
| BangerForm.Check | src/components/Banger/BangerModal.tsx:79-110 | title, artist and url each get their own error, all checked |
| BangerForm.HandleSave | src/components/Banger/BangerModal.tsx:79-127 | nothing is sent exactly when a check fails; trimmed payload with null-normalised ids; edit or add by `editingItem` |
| BangerForm.Load | src/components/Banger/BangerModal.tsx:56-66 | the item's fields, with empty optional ids as null |
| BangerForm.EditUnchangedRoundTrip | src/components/Banger/BangerModal.tsx:56-127 | opening a stored banger and saving it untouched updates it with its own values |
| BangerForm.MalformedUrlBlocks | src/components/Banger/BangerModal.tsx:102-112 | a malformed url blocks saving and shows "Invalid URL format" |
| Grouping.Insert | src/components/Assignment/AssignmentBets.tsx:52-53 | a new key gets a group at the end; an existing key's group gets the element appended; one more element in total |
| Grouping.GroupBy | src/components/Assignment/AssignmentBets.tsx:48-56 | keys in first-appearance order, each group exactly the elements with its key in order, every element counted once |
| Grouping.EachInOneGroup | src/components/Assignment/EditAssignment.tsx:175-185 | every element lands in exactly one group, the one for its key |
| Grouping.NoGroupsIffEmpty | src/components/Assignment/AssignmentBets.tsx:68 | there are no groups exactly when there is nothing to group |
| JsText.Trim | src/components/Game/GameTypeModal.tsx:65-66 | the trim has no whitespace at either end and is empty exactly when the input is blank |
| JsText.TrimOfPadded | src/components/Tag/TagModal.tsx:63 | trimming a trimmed core surrounded by whitespace gives the core |
| JsText.TrimIdempotent | src/components/Game/GameTypeModal.tsx:65-66 | trimming twice is trimming once |
| JsText.IncludesIffOccurs | src/pages/movie/index.tsx:63 | `includes` holds exactly when the needle occurs at some position |
| JsText.StrLessStrictTotal | src/pages/movie/index.tsx:79-85 | string `<` never holds both ways and orders any two different strings |
| JsText.StrLessTransitive | src/pages/movie/index.tsx:79-85 | string `<` is transitive |
| JsText.JoinSplit | src/pages/user/index.tsx:85 | splitting and re-joining on one separator gives the string back |
| JsText.SplitJoin | src/pages/user/index.tsx:85 | joining separator-free pieces and splitting gives the pieces back |
| JsText.ParseIntOfDecimal | src/components/Game/GamePointTypeModal.tsx:181-182 | `parseInt` reads back exactly what `toString` wrote, with or without a minus sign |

## Left out

- The browser-verification scripts (`verification/*.py`), `fetch_user.mjs` and the seed script. They drive a headless browser or a live database and state nothing beyond "navigate and look".
- Prisma client construction, `getServerSideProps` admin redirects and router composition in `_app.ts`. These are wiring with no logic of their own.
- Realtime and network code: `useAudioSession.ts`, the Pusher endpoints, uploadthing webhooks, the Azure router and the TMDB client. The blob explorer's listing call is a request value (`BlobExplorer.ListRequest`), not a call.
- Rendering, toasts, `alert`/`confirm` dialogs and debounce timers.
- `formatBytes` in the blob explorer. It is floating point (`log`, `pow`, `toFixed`).
- The `updateStatus` mutation the bet menu calls. Its server code is not part of this model, so only the client-side menu is modelled.
- Router procedures outside the named operations: plain reads (`getAll`, `getById`, ...) and the gambling type management procedures.
- `DeleteType` and `DeleteList` cascades: the schema's `onDelete` rules are not part of this model. `DeleteList` removes the list's items with it, and `DeleteType` removes only the type.
- Gambling.Payout: the multiplier is an exact `real`, not an IEEE double. So `Math.floor(points * multiplier)` is exact here, and rounding of binary fractions is not modelled.
- GamblingTypeForm.Load: the `parseFloat` of the multiplier input is not modelled. The form holds the multiplier as a `real`.
- MovieTable.AddPayload: the year of a release date (`new Date(...).getFullYear()`) is the parameter `yearOf`. Date parsing is not modelled.
- Seasons.CurrentSeason: `now` and the season dates are integers supplied by the caller. The clock is not modelled.
- Seasons.EndSeason: both writes use one `now`. `endSeason` calls `new Date()` twice, which may give two slightly different instants.
- Catalog.Find: the database's `contains` (and its collation) is the parameter `contains`. Its case and collation rules are not modelled.
- BangerForm.UrlError: `new URL(...)` succeeding is the parameter `isUrl`. The WHATWG URL parser is not modelled.
- JsText.ToLower: only ASCII letters change case. JavaScript's full Unicode case mapping is not modelled, and neither is `ToUpper`'s.
- JsText.StrLess: compares characters by code point. JavaScript compares UTF-16 code units, so the two differ only for characters outside the Basic Multilingual Plane.
- JsText.ParseInt: only decimal digits after optional whitespace and sign are read. Radix prefixes, `Infinity` and values beyond 2^53 are not modelled.
- MovieTable.SortRows: proves a permutation in comparator order. Stability (equal rows keep their filtered order, which `Array.prototype.sort` guarantees) is not stated.
- MovieTable.SortValue: only `title`, `year` and `reviews` have values. Any other key sorts as `undefined`, so every row compares equal.
- Guesses.AddOrUpdateGuesses: `getCurrentSeasonID` is not part of this model. The current season's id is a parameter.
- RankedLists.UpsertItem: the zod rule `rank >= 1` is checked before the handler, as zod does. Non-integer ranks are not modelled, because ranks are integers here.
- RankedLists.ReorderItem: `newRank` is `z.number().min(1)`, which also accepts fractions such as 1.5. Such a rank passes the `maxItems` check and then reaches `updateMany` as a filter on the integer `rank` column, which Prisma rejects. The model's ranks are integers, so that path is not modelled.
- PointRouter.Update: `adminProcedure` is defined in `src/server/trpc/trpc.ts`, which is not part of this model. Its guard is modelled as "the caller holds an admin role", failing with UNAUTHORIZED; the exact error code and the session lookup are assumed.
- PointRouter.Remove: guarded the same way as `PointRouter.Update`, with the same assumption about `adminProcedure`.
- RankedLists.CreateType: `maxItems` is `z.number()`, which also accepts fractions such as 2.5 that the integer column then rejects. The model's numbers are integers, so that path is not modelled.
- RankedLists.UpdateType: the same `z.number()` gap for the optional `maxItems`.
- Gambling.Add: the stake is `z.number()`; fractional stakes are not modelled, because stakes are integers here.
- Gambling.Update: the same `z.number()` gap for the new stake.
- PointRouter.ApplyPatch: `adjustment` and `gamePointTypeId` are `z.number()`; fractional values are not modelled.
- Guesses.AddPointForGuess: the same `z.number()` gap for `adjustment` and `gamePointId`.
- Seasons.EndSeason: the same `z.number()` gap for `newSeasonGameTypeId`.
- Missing rows: Prisma's "record not found" from `update`, `delete` or `connect`, and a read through a missing required relation, are the single error `Internal`. Prisma's error codes and messages are not modelled.
- Missing related rows on writes: a create or update that names a related row that does not exist is accepted by the model. This applies to the list type of `RankedLists.UpsertList`, the new owner of `RankedLists.ChangeOwner`, the gambling type of `Gambling.Add`, the game point type of `Guesses.AddPointForGuess` and `PointRouter.Update`, and the game type of `Seasons.EndSeason`. The database schema is not part of this model, so its foreign-key checks, which would make Prisma throw, are not modelled.
- Seasons.EndSeason: the update of the old season and the create of the new one are not one transaction in `endSeason`. A failing create would leave the old season ended with no successor; the model has no such path.
- AssignEpisode: `episodeNumber` is `z.number()`; fractional numbers are not modelled, because episode numbers are integers here.
- AddMovie: the `year` input is `z.number()`; fractional years are not modelled, because years are integers here.
- AddShow: the same `z.number()` gap for `year`.
- ReviewFilters.Query: a url parameter holds one string. Next.js gives a repeated parameter (`?rating=a&rating=b`) as an array, which `as string` and `|| "all"` pass through unchanged to the query; that case is not modelled.
- GamePointTypeForm.HandleSave: the modal has no `isFormInvalid`, and its Save button is disabled only while loading. So no enabled/disabled lemma is stated for it.

## Findings

| source | as written | input that shows it | evidently intended | confidence | as-written member | corrected member |
|---|---|---|---|---|---|---|
| src/server/trpc/router/gamblingRouter.ts:67-107 | `add` without a `seasonId` looks up the open season but writes it only to `input.seasonId`. The balance check and the stored bet use the destructured `seasonId`, which stays undefined, so the balance is summed over all seasons and the bet is stored without a season. | user `u` has a 10-point row in ended season `s0` and nothing in open season `s1`, and bets 10 with no season: accepted, stored with no season | check the balance of, and store the bet in, the looked-up open season (here: rejected with "Not enough points") | not executed | Gambling.Add, Gambling.AddAsWrittenIgnoresOpenSeason | Gambling.AddIntended, Gambling.AddIntendedUsesOpenSeason |

=== FILE: assignment_bets.dfy ===
/** The bets card of an assignment: the status badge, the per-status action
    menu, and the grouping of bets by user. */
module AssignmentBets {
  import opened Grouping

  /** A bet as the card receives it; `status` is a free-form string. */
  datatype BetRow = BetRow(id: string, userId: string, status: string)

  datatype Badge = WonBadge | LostBadge | LockedBadge | PendingBadge

  /** `getStatusBadge`: the three known final or locked states, and Pending
      for everything else. */
  function StatusBadge(status: string): (r: Badge)
    ensures r == WonBadge <==> status == "won"
    ensures r == LostBadge <==> status == "lost"
    ensures r == LockedBadge <==> status == "locked"
    ensures r == PendingBadge <==> status !in {"won", "lost", "locked"}
  {
    if status == "won" then WonBadge
    else if status == "lost" then LostBadge
    else if status == "locked" then LockedBadge
    else PendingBadge
  }

  /** A button of a bet row: confirm the win, confirm the loss, or ask for a
      new status. */
  datatype Action = ConfirmWin | ConfirmLoss | SetStatus(status: string)

  /** The buttons a bet row offers for its status. */
  function Menu(status: string): (r: seq<Action>)
    ensures (ConfirmWin in r) <==> status in {"pending", "locked"}
    ensures (ConfirmLoss in r) <==> status in {"pending", "locked"}
    ensures |r| <= 3
  {
    if status == "pending" then [ConfirmWin, ConfirmLoss, SetStatus("locked")]
    else if status == "locked" then [ConfirmWin, ConfirmLoss, SetStatus("pending")]
    else if status == "won" || status == "lost" then [SetStatus("pending")]
    else []
  }

  /** The menu allows exactly four status changes: lock, unlock, and reset
      of a won or lost bet to pending. */
  lemma StatusTransitions(from: string, to: string)
    ensures SetStatus(to) in Menu(from) <==>
              || (from == "pending" && to == "locked")
              || (from == "locked" && to == "pending")
              || (from == "won" && to == "pending")
              || (from == "lost" && to == "pending")
  {
  }

  /** A status the card does not know shows a Pending badge but offers no
      button at all, not even confirm or reject. */
  lemma UnknownStatusHasNoActions(status: string)
    requires status !in {"pending", "locked", "won", "lost"}
    ensures StatusBadge(status) == PendingBadge && Menu(status) == []
  {
  }

  /** The buttons that can be clicked: none while any of the three
      mutations is in flight, otherwise the whole menu. */
  function Enabled(status: string, isConfirming: bool, isRejecting: bool, isUpdatingStatus: bool): (r: seq<Action>)
    ensures forall a :: a in r ==> a in Menu(status)
    ensures r == [] <==> isConfirming || isRejecting || isUpdatingStatus || Menu(status) == []
  {
    if isConfirming || isRejecting || isUpdatingStatus then [] else Menu(status)
  }

  function BetUser(b: BetRow): string {
    b.userId
  }

  /** `groupedByUser`: one group per user in order of first appearance,
      each holding that user's bets in list order. */
  function GroupedByUser(bets: seq<BetRow>): (r: seq<Group<string, BetRow>>)
    ensures Keys(r) == FirstAppearances(KeyList(bets, BetUser))
    ensures forall i :: 0 <= i < |r| ==> r[i].items == WithKey(bets, BetUser, r[i].key)
    ensures Total(r) == |bets|
    ensures |r| == 0 <==> |bets| == 0
  {
    NoGroupsIffEmpty(bets, BetUser);
    GroupBy(bets, BetUser)
  }
}

=== FILE: banger_form.dfy ===
/** The banger modal: title, artist and url are required, the url must
    parse as a URL, and the optional episode and user ids are sent as null
    when empty. Whether a string parses as a URL (`new URL`) is the
    parameter `isUrl`. */
module BangerForm {
  import opened Wrappers
  import opened FormFields
  import JsText

  const TitleRequired := "Title is required"
  const ArtistRequired := "Artist is required"
  const UrlRequired := "URL is required"
  const InvalidUrl := "Invalid URL format"

  datatype Form = Form(title: string, artist: string, url: string, episodeId: Option<string>, userId: Option<string>)
  datatype Errors = Errors(title: string, artist: string, url: string)
  datatype Payload = Payload(title: string, artist: string, url: string, episodeId: Option<string>, userId: Option<string>)
  datatype Banger = Banger(id: string, title: string, artist: string, url: string, episodeId: Option<string>, userId: Option<string>)

  const NoErrors := Errors("", "", "")

  /** `resetForm`: empty text, both ids null, no errors. */
  function Reset(): (r: (Form, Errors))
    ensures r.0 == Form("", "", "", None, None) && r.1 == NoErrors
  {
    (Form("", "", "", None, None), NoErrors)
  }

  /** `(id === "" || id === null) ? null : id`. */
  function NullIfEmpty(id: Option<string>): (r: Option<string>)
    ensures r.None? <==> id.None? || id == Some("")
    ensures r.Some? ==> r == id
  {
    if id.None? || id.value == "" then None else id
  }

  /** The url's error: required first, then well-formedness of the trimmed
      text. */
  function UrlError(url: string, isUrl: string -> bool): (r: string)
    ensures JsText.IsBlank(url) ==> r == UrlRequired
    ensures !JsText.IsBlank(url) && !isUrl(JsText.Trim(url)) ==> r == InvalidUrl
    ensures !JsText.IsBlank(url) && isUrl(JsText.Trim(url)) ==> r == ""
  {
    var t := JsText.Trim(url);
    if t == "" then UrlRequired else if isUrl(t) then "" else InvalidUrl
  }

  function Check(f: Form, isUrl: string -> bool): (r: Errors)
    ensures r.title == "" <==> !JsText.IsBlank(f.title)
    ensures r.artist == "" <==> !JsText.IsBlank(f.artist)
    ensures r.url == "" <==> !JsText.IsBlank(f.url) && isUrl(JsText.Trim(f.url))
    ensures r.title != "" ==> r.title == TitleRequired
    ensures r.artist != "" ==> r.artist == ArtistRequired
  {
    Errors(RequiredError(f.title, TitleRequired), RequiredError(f.artist, ArtistRequired), UrlError(f.url, isUrl))
  }

  /** `handleSave`: every check runs, and a mutation is sent only when all
      three fields pass. */
  function HandleSave(f: Form, editing: Option<string>, isUrl: string -> bool): (r: (Errors, Save<string, Payload>))
    ensures r.0 == Check(f, isUrl)
    ensures r.1.Nothing? <==>
              JsText.IsBlank(f.title) || JsText.IsBlank(f.artist) || JsText.IsBlank(f.url) || !isUrl(JsText.Trim(f.url))
    ensures r.1.Add? <==> r.0 == NoErrors && editing.None?
    ensures r.1.Update? ==> editing == Some(r.1.id)
    ensures !r.1.Nothing? ==>
              && r.1.payload.title == JsText.Trim(f.title) != ""
              && r.1.payload.artist == JsText.Trim(f.artist) != ""
              && r.1.payload.url == JsText.Trim(f.url) && isUrl(r.1.payload.url)
              && r.1.payload.episodeId == NullIfEmpty(f.episodeId)
              && r.1.payload.userId == NullIfEmpty(f.userId)
  {
    var errors := Check(f, isUrl);
    var payload := Payload(JsText.Trim(f.title), JsText.Trim(f.artist), JsText.Trim(f.url),
                           NullIfEmpty(f.episodeId), NullIfEmpty(f.userId));
    (errors, Decide(errors == NoErrors, editing, payload))
  }

  /** The edit effect: `id || null` for the optional ids. */
  function Load(item: Banger): (r: Form)
    ensures r.title == item.title && r.artist == item.artist && r.url == item.url
    ensures r.episodeId == NullIfEmpty(item.episodeId) && r.userId == NullIfEmpty(item.userId)
  {
    Form(item.title, item.artist, item.url, NullIfEmpty(item.episodeId), NullIfEmpty(item.userId))
  }

  /** Opening a stored banger and saving it untouched updates it with its
      own values, empty ids becoming null. */
  lemma EditUnchangedRoundTrip(item: Banger, isUrl: string -> bool)
    requires item.title != "" && JsText.IsTrimmed(item.title)
    requires item.artist != "" && JsText.IsTrimmed(item.artist)
    requires item.url != "" && JsText.IsTrimmed(item.url) && isUrl(item.url)
    ensures HandleSave(Load(item), Some(item.id), isUrl).1 ==
            Update(item.id, Payload(item.title, item.artist, item.url, NullIfEmpty(item.episodeId), NullIfEmpty(item.userId)))
  {
    var f := Load(item);
    TrimmedKept(item.title);
    TrimmedKept(item.artist);
    TrimmedKept(item.url);
    assert Check(f, isUrl) == NoErrors;
  }

  /** A malformed url blocks saving however the other fields look, and its
      error names the format, not a missing value. */
  lemma MalformedUrlBlocks(f: Form, editing: Option<string>, isUrl: string -> bool)
    requires !JsText.IsBlank(f.url) && !isUrl(JsText.Trim(f.url))
    ensures HandleSave(f, editing, isUrl).1.Nothing?
    ensures HandleSave(f, editing, isUrl).0.url == InvalidUrl
  {
  }
}

=== FILE: blob_explorer.dfy ===
/** The storage explorer's pagination: the current continuation token and
    the stack of tokens of the pages before it. */
module BlobExplorer {
  import opened Wrappers
  import opened Schema

  /** `selectedContainer`, `continuationToken` and `tokenHistory`. The
      history stores a missing token (the first page) as `""`. */
  datatype Pager = Pager(container: Option<string>, token: Option<string>, history: seq<string>)

  const Initial := Pager(None, None, [])

  /** `handleContainerChange`: a new container starts again at page one. */
  function ChangeContainer(p: Pager, value: string): (r: Pager)
    ensures r.container == Some(value) && r.token.None? && r.history == []
    ensures PageNumber(r) == 1
  {
    Pager(Some(value), None, [])
  }

  /** `handleNextPage`: only when the listing returned a next token, push
      the current token (a missing one as `""`) and move to the next. */
  function NextPage(p: Pager, next: Option<string>): (r: Pager)
    ensures !Truthy(next) ==> r == p
    ensures Truthy(next) ==>
              && r.container == p.container
              && r.token == next
              && r.history == p.history + [if Truthy(p.token) then p.token.value else ""]
  {
    if Truthy(next) then p.(history := p.history + [if Truthy(p.token) then p.token.value else ""], token := next)
    else p
  }

  /** `handlePrevPage`: only with a non-empty history, pop its last entry
      and make it the token, `""` meaning none. */
  function PrevPage(p: Pager): (r: Pager)
    ensures |p.history| == 0 ==> r == p
    ensures |p.history| > 0 ==>
              var last := p.history[|p.history| - 1];
              && r.container == p.container
              && r.history == p.history[..|p.history| - 1]
              && r.token == (if last == "" then None else Some(last))
  {
    if |p.history| > 0 then
      var last := p.history[|p.history| - 1];
      p.(token := if last == "" then None else Some(last), history := p.history[..|p.history| - 1])
    else p
  }

  /** The page number shown in the footer. */
  function PageNumber(p: Pager): (r: nat)
    ensures r >= 1
  {
    |p.history| + 1
  }

  /** Next goes one page forward and Prev one page back, when they act. */
  lemma PageNumberSteps(p: Pager, next: Option<string>)
    ensures Truthy(next) ==> PageNumber(NextPage(p, next)) == PageNumber(p) + 1
    ensures |p.history| > 0 ==> PageNumber(PrevPage(p)) == PageNumber(p) - 1
  {
  }

  /** Prev is disabled on the first page and while loading. */
  predicate PrevDisabled(p: Pager, isLoading: bool) {
    |p.history| == 0 || isLoading
  }

  /** Next is disabled without a next token and while loading. */
  predicate NextDisabled(next: Option<string>, isLoading: bool) {
    !Truthy(next) || isLoading
  }

  /** An enabled button always changes the page; a disabled one, when
      clicked anyway, is a no-op except for the loading state. */
  lemma ButtonsMatchHandlers(p: Pager, next: Option<string>)
    ensures !PrevDisabled(p, false) <==> PrevPage(p) != p
    ensures !NextDisabled(next, false) <==> NextPage(p, next) != p
  {
    if |p.history| > 0 {
      assert |PrevPage(p).history| < |p.history|;
    }
    if Truthy(next) {
      assert |NextPage(p, next).history| > |p.history|;
    }
  }

  /** Next followed by Prev restores the page, unless the current token is
      the empty string, which comes back as no token. */
  lemma NextThenPrev(p: Pager, next: Option<string>)
    requires Truthy(next)
    ensures p.token != Some("") ==> PrevPage(NextPage(p, next)) == p
    ensures p.token == Some("") ==> PrevPage(NextPage(p, next)) == p.(token := None)
  {
    var q := NextPage(p, next);
    assert q.history[..|q.history| - 1] == p.history;
  }

  /** Following next tokens from page to page. */
  function NextAll(p: Pager, tokens: seq<string>): Pager
    decreases |tokens|
  {
    if |tokens| == 0 then p else NextAll(NextPage(p, Some(tokens[0])), tokens[1..])
  }

  function PrevTimes(p: Pager, n: nat): Pager {
    if n == 0 then p else PrevPage(PrevTimes(p, n - 1))
  }

  /** Walking forward over any number of pages and back as many times
      returns to the page the walk started from. */
  lemma {:induction false} WalkBackRestores(p: Pager, tokens: seq<string>)
    requires forall i :: 0 <= i < |tokens| ==> tokens[i] != ""
    requires p.token != Some("")
    ensures PrevTimes(NextAll(p, tokens), |tokens|) == p
    decreases |tokens|
  {
    if |tokens| > 0 {
      var q := NextPage(p, Some(tokens[0]));
      WalkBackRestores(q, tokens[1..]);
      NextThenPrev(p, Some(tokens[0]));
    }
  }

  /** With no container chosen, the first listed container is chosen. */
  function DefaultContainer(selected: Option<string>, containers: seq<string>): (r: Option<string>)
    ensures Truthy(selected) ==> r == selected
    ensures !Truthy(selected) && |containers| > 0 ==> r == Some(containers[0])
    ensures !Truthy(selected) && |containers| == 0 ==> r == selected
  {
    if !Truthy(selected) && |containers| > 0 then Some(containers[0]) else selected
  }

  /** The listing request, sent only once a container is chosen. */
  function ListRequest(p: Pager): (r: Option<(string, Option<string>)>)
    ensures r.Some? <==> Truthy(p.container)
    ensures r.Some? ==> r.value == (p.container.value, p.token)
  {
    if Truthy(p.container) then Some((p.container.value, p.token)) else None
  }
}

=== FILE: bonus_points.dfy ===
/** The bonus-points popover of a user's assignment: which controls each
    bet row shows, the total shown for each point, and the add form. */
module BonusPoints {
  import opened Wrappers
  import opened Schema
  import JsText

  /** A bet as the popover receives it. */
  datatype GambleRow = GambleRow(id: Id, pointsId: Option<Id>, status: string)

  /** Confirm and Reject are shown for an unpaid bet that is still open. */
  predicate Actionable(g: GambleRow) {
    !Truthy(g.pointsId) && (g.status == "pending" || g.status == "locked")
  }

  /** The WON label: the bet has been paid a point. */
  predicate ShowsWon(g: GambleRow) {
    Truthy(g.pointsId)
  }

  /** The LOST label: an unpaid bet whose status is `lost`. */
  predicate ShowsLost(g: GambleRow) {
    !Truthy(g.pointsId) && g.status == "lost"
  }

  /** A row shows at most one of the three: the buttons, WON, or LOST. */
  lemma RowControlsExclusive(g: GambleRow)
    ensures !(ShowsWon(g) && ShowsLost(g))
    ensures Actionable(g) ==> !ShowsWon(g) && !ShowsLost(g)
  {
  }

  /** Confirming a bet through the server links it to a point, so its row
      turns from the buttons to WON. */
  lemma ConfirmedRowShowsWon(g: GambleRow, pointId: Id)
    requires pointId != ""
    ensures var after := g.(pointsId := Some(pointId));
            ShowsWon(after) && !Actionable(after) && !ShowsLost(after)
  {
  }

  /** The points shown for one assignment point:
      `(gamePointType?.points || 0) + (adjustment || 0)`. */
  function RowTotal(gamePointTypePoints: Option<int>, adjustment: Option<int>): (r: int)
    ensures gamePointTypePoints.None? && adjustment.Some? ==> r == adjustment.value
    ensures gamePointTypePoints.Some? && adjustment.None? ==> r == gamePointTypePoints.value
    ensures gamePointTypePoints.None? && adjustment.None? ==> r == 0
    ensures gamePointTypePoints.Some? && adjustment.Some? ==> r == gamePointTypePoints.value + adjustment.value
  {
    gamePointTypePoints.GetOr(0) + adjustment.GetOr(0)
  }

  /** The total is the type's part plus the adjustment's part, each shown
      alone when the other is missing. */
  lemma RowTotalSplits(gamePointTypePoints: Option<int>, adjustment: Option<int>)
    ensures RowTotal(gamePointTypePoints, adjustment) == RowTotal(gamePointTypePoints, None) + RowTotal(None, adjustment)
  {
  }

  /** The title of a point row: the game point type's title, else the
      reason, else "Adjustment"; a blank value falls through. */
  function RowLabel(typeTitle: Option<string>, reason: Option<string>): (r: string)
    ensures r != ""
    ensures Truthy(typeTitle) ==> r == typeTitle.value
    ensures !Truthy(typeTitle) && Truthy(reason) ==> r == reason.value
    ensures !Truthy(typeTitle) && !Truthy(reason) ==> r == "Adjustment"
  {
    if Truthy(typeTitle) then typeTitle.value
    else if Truthy(reason) then reason.value
    else "Adjustment"
  }

  /** The points field: `parseInt(value) || 0`, so anything that does not
      start with a number is 0. */
  function AdjustmentInput(text: string): (r: int)
    ensures JsText.ParseInt(text).None? ==> r == 0
    ensures JsText.ParseInt(text).Some? ==> r == JsText.ParseInt(text).value
  {
    JsText.ParseInt(text).GetOr(0)
  }

  /** `n.toString()` for any integer. */
  function IntString(n: int): string {
    if n < 0 then "-" + JsText.DecimalString(-n) else JsText.DecimalString(n)
  }

  /** The field reads back the number it displays. */
  lemma AdjustmentInputRoundTrip(n: int)
    ensures AdjustmentInput(IntString(n)) == n
  {
    if n < 0 {
      NegativeRoundTrip(n);
    } else {
      NonNegativeRoundTrip(n);
    }
  }

  lemma NonNegativeRoundTrip(n: nat)
    ensures AdjustmentInput(IntString(n)) == n
  {
    JsText.ParseIntOfDecimal(n);
  }

  lemma NegativeRoundTrip(n: int)
    requires n < 0
    ensures AdjustmentInput(IntString(n)) == n
  {
    JsText.ParseIntOfDecimal(-n);
  }

  /** The add form's state. */
  datatype AddForm = AddForm(isAdding: bool, reason: string, adjustment: int)

  /** The request the Add button sends: always the `bonus` point type. */
  datatype BonusRequest = BonusRequest(userId: Id, assignmentId: Id, gamePointLookupId: string, reason: string, adjustment: int)

  const BonusLookup := "bonus"

  /** Add is enabled unless the mutation is in flight or the reason is empty. */
  predicate AddEnabled(form: AddForm, isAddingLoading: bool) {
    !isAddingLoading && form.reason != ""
  }

  function AddRequest(form: AddForm, userId: Id, assignmentId: Id): (r: BonusRequest)
    ensures r.gamePointLookupId == BonusLookup
    ensures r.reason == form.reason && r.adjustment == form.adjustment
    ensures r.userId == userId && r.assignmentId == assignmentId
  {
    BonusRequest(userId, assignmentId, BonusLookup, form.reason, form.adjustment)
  }

  /** After a successful add the form is closed and cleared. */
  function AfterAdd(form: AddForm): (r: AddForm)
    ensures !r.isAdding && r.reason == "" && r.adjustment == 0
  {
    AddForm(false, "", 0)
  }

  /** A cleared form cannot be submitted again until a reason is typed, so
      one click adds one bonus. */
  lemma AddDisabledAfterSuccess(form: AddForm, isAddingLoading: bool)
    ensures !AddEnabled(AfterAdd(form), isAddingLoading)
    ensures AddEnabled(form.(reason := "x"), false)
  {
  }
}

=== FILE: catalog.dfy ===
/** The movie and show routers' `add` (an upsert keyed by url) and `find`
    (a title search). Both tables have the same columns and the same code,
    so one definition over a table of `Title`s serves both. */
module Catalog {
  import opened Schema
  import opened Seqs

  datatype TitleInput = TitleInput(title: string, year: int, poster: string, url: string)

  function UrlIndex(ts: seq<Title>, url: string): (r: int)
    ensures -1 <= r < |ts|
    ensures r >= 0 ==> ts[r].url == url
    ensures r >= 0 ==> forall j :: 0 <= j < r ==> ts[j].url != url
    ensures r < 0 <==> forall j :: 0 <= j < |ts| ==> ts[j].url != url
  {
    FirstIndex(ts, (t: Title) => t.url == url)
  }

  /** The row `add` writes: the input's columns under the given id. */
  function Row(id: Id, input: TitleInput): Title {
    Title(id, input.title, input.year, input.poster, input.url)
  }

  /** No two rows share a url. */
  predicate UniqueUrls(ts: seq<Title>) {
    forall i, j :: 0 <= i < j < |ts| ==> ts[i].url != ts[j].url
  }

  /** `add`: the first row with the input's url gets the input's columns and
      keeps its id; when there is none, a row is created. */
  function Upsert(ts: seq<Title>, input: TitleInput, newId: Id): (r: seq<Title>)
    ensures UrlIndex(ts, input.url) >= 0 ==>
              var k := UrlIndex(ts, input.url);
              && |r| == |ts|
              && r[k] == Row(ts[k].id, input)
              && forall j :: 0 <= j < |ts| && j != k ==> r[j] == ts[j]
    ensures UrlIndex(ts, input.url) < 0 ==> r == ts + [Row(newId, input)]
    ensures exists j :: 0 <= j < |r| && r[j].url == input.url && r[j].title == input.title &&
                        r[j].year == input.year && r[j].poster == input.poster
  {
    var k := UrlIndex(ts, input.url);
    if k >= 0 then
      var r := ts[k := Row(ts[k].id, input)];
      assert r[k].url == input.url;
      r
    else
      var r := ts + [Row(newId, input)];
      assert r[|ts|] == Row(newId, input);
      r
  }

  /** `add` never creates a second row with an existing url. */
  lemma UpsertKeepsUrlsUnique(ts: seq<Title>, input: TitleInput, newId: Id)
    ensures UniqueUrls(ts) ==> UniqueUrls(Upsert(ts, input, newId))
  {
    var r := Upsert(ts, input, newId);
    if UniqueUrls(ts) && UrlIndex(ts, input.url) < 0 {
      assert forall j :: 0 <= j < |ts| ==> r[j] == ts[j];
    }
  }

  /** Repeating the same `add` changes nothing, whatever id the second call
      would have used for a new row. */
  lemma UpsertIdempotent(ts: seq<Title>, input: TitleInput, newId: Id, newId': Id)
    ensures Upsert(Upsert(ts, input, newId), input, newId') == Upsert(ts, input, newId)
  {
    var once := Upsert(ts, input, newId);
    var k := UrlIndex(ts, input.url);
    if k >= 0 {
      assert forall j :: 0 <= j < k ==> once[j] == ts[j];
      assert UrlIndex(once, input.url) == k;
      assert once[k := Row(once[k].id, input)] == once;
    } else {
      assert forall j :: 0 <= j < |ts| ==> once[j] == ts[j];
      assert UrlIndex(once, input.url) == |ts|;
      assert once[|ts| := Row(once[|ts|].id, input)] == once;
    }
  }

  /** `find`: the rows whose title contains the search term. The database's
      `contains` (and its collation) is the parameter `contains`. */
  function Find(ts: seq<Title>, term: string, contains: (string, string) -> bool): (r: seq<Title>)
    ensures forall i :: 0 <= i < |r| ==> r[i] in ts && contains(r[i].title, term)
    ensures forall i :: 0 <= i < |ts| && contains(ts[i].title, term) ==> ts[i] in r
  {
    Filter(ts, TitleHas(term, contains))
  }

  function TitleHas(term: string, contains: (string, string) -> bool): Title -> bool {
    (t: Title) => contains(t.title, term)
  }

  /** Searching the results of a search again finds the same rows. */
  lemma FindIdempotent(ts: seq<Title>, term: string, contains: (string, string) -> bool)
    ensures Find(Find(ts, term, contains), term, contains) == Find(ts, term, contains)
  {
    var p := TitleHas(term, contains);
    FilterFilter(ts, p, p, p);
  }

  /** After an `add`, a search whose term the new title contains finds the
      row with the input's url and columns. */
  lemma FindAfterUpsert(ts: seq<Title>, input: TitleInput, newId: Id, term: string, contains: (string, string) -> bool)
    requires contains(input.title, term)
    ensures exists i :: 0 <= i < |Find(Upsert(ts, input, newId), term, contains)| &&
              var t := Find(Upsert(ts, input, newId), term, contains)[i];
              t.url == input.url && t.title == input.title && t.year == input.year && t.poster == input.poster
  {
    var after := Upsert(ts, input, newId);
    var j :| 0 <= j < |after| && after[j].url == input.url && after[j].title == input.title &&
             after[j].year == input.year && after[j].poster == input.poster;
    var found := Find(after, term, contains);
    assert after[j] in found;
    var i :| 0 <= i < |found| && found[i] == after[j];
  }

  /** The movie router's `add`: only the movies table changes. */
  function AddMovie(db: Db, input: TitleInput, newId: Id): (r: Db)
    ensures r == db.(movies := Upsert(db.movies, input, newId))
    ensures UniqueUrls(db.movies) ==> UniqueUrls(r.movies)
    ensures |r.movies| == |db.movies| + (if UrlIndex(db.movies, input.url) >= 0 then 0 else 1)
  {
    UpsertKeepsUrlsUnique(db.movies, input, newId);
    db.(movies := Upsert(db.movies, input, newId))
  }

  /** The show router's `add`: only the shows table changes. */
  function AddShow(db: Db, input: TitleInput, newId: Id): (r: Db)
    ensures r == db.(shows := Upsert(db.shows, input, newId))
    ensures UniqueUrls(db.shows) ==> UniqueUrls(r.shows)
    ensures |r.shows| == |db.shows| + (if UrlIndex(db.shows, input.url) >= 0 then 0 else 1)
  {
    UpsertKeepsUrlsUnique(db.shows, input, newId);
    db.(shows := Upsert(db.shows, input, newId))
  }
}

=== FILE: edit_assignment.dfy ===
/** The assignment editor's reviews panel: guesses grouped by the user who
    made them, and the gambling controls of each user's row. */
module EditAssignment {
  import opened Wrappers
  import opened Schema
  import opened Seqs
  import opened Grouping
  import Gambling

  /** An assignment review as the panel receives it, with its guesses. */
  datatype ReviewRow = ReviewRow(id: Id, guesses: seq<Guess>)

  /** One entry of a user's group: the guess and the review it was made on. */
  datatype Entry = Entry(guess: Guess, reviewId: Id)

  function GuessCount(ar: ReviewRow): int {
    |ar.guesses|
  }

  function EntriesOf(ar: ReviewRow): (r: seq<Entry>)
    ensures |r| == |ar.guesses|
    ensures forall i :: 0 <= i < |r| ==> r[i] == Entry(ar.guesses[i], ar.id)
  {
    seq(|ar.guesses|, i requires 0 <= i < |ar.guesses| => Entry(ar.guesses[i], ar.id))
  }

  /** Every guess of every review, reviews in order and guesses in order
      within a review: the traversal of the nested `forEach`. Where each
      entry comes from is `EntriesFromReviews`, and its position
      `EntriesInTraversalOrder`. */
  function Entries(ars: seq<ReviewRow>): (r: seq<Entry>)
    ensures |r| == SumBy(ars, GuessCount)
    decreases |ars|
  {
    if |ars| == 0 then [] else EntriesOf(ars[0]) + Entries(ars[1..])
  }

  /** Every entry is a guess of some review, paired with that review. */
  lemma {:induction false} EntriesFromReviews(ars: seq<ReviewRow>)
    ensures forall i :: 0 <= i < |Entries(ars)| ==>
              exists k :: 0 <= k < |ars| && Entries(ars)[i].reviewId == ars[k].id && Entries(ars)[i].guess in ars[k].guesses
    decreases |ars|
  {
    if |ars| > 0 {
      EntriesFromReviews(ars[1..]);
      var head := EntriesOf(ars[0]);
      var tail := Entries(ars[1..]);
      var r := Entries(ars);
      assert r == head + tail;
      forall i | 0 <= i < |r|
        ensures exists k :: 0 <= k < |ars| && r[i].reviewId == ars[k].id && r[i].guess in ars[k].guesses
      {
        if i < |head| {
          assert r[i].reviewId == ars[0].id && r[i].guess == ars[0].guesses[i];
        } else {
          assert r[i] == tail[i - |head|];
          var k :| 0 <= k < |ars[1..]| && tail[i - |head|].reviewId == ars[1..][k].id && tail[i - |head|].guess in ars[1..][k].guesses;
          assert ars[1..][k] == ars[k + 1];
        }
      }
    } else {
      assert Entries(ars) == [];
    }
  }

  /** The entries of two runs of reviews are those of the first run, then
      those of the second. */
  lemma {:induction false} EntriesAppend(a: seq<ReviewRow>, b: seq<ReviewRow>)
    ensures Entries(a + b) == Entries(a) + Entries(b)
    decreases |a|
  {
    if |a| == 0 {
      assert a + b == b;
    } else {
      EntriesAppend(a[1..], b);
      assert (a + b)[0] == a[0];
      assert (a + b)[1..] == a[1..] + b;
      calc {
        Entries(a + b);
        EntriesOf(a[0]) + Entries(a[1..] + b);
        EntriesOf(a[0]) + (Entries(a[1..]) + Entries(b));
        (EntriesOf(a[0]) + Entries(a[1..])) + Entries(b);
        Entries(a) + Entries(b);
      }
    }
  }

  /** Guess `i` of review `k` comes right after the guesses of the reviews
      before `k`: the order of the nested `forEach`. */
  lemma EntriesInTraversalOrder(ars: seq<ReviewRow>, k: nat, i: nat)
    requires k < |ars| && i < |ars[k].guesses|
    ensures 0 <= SumBy(ars[..k], GuessCount) + i < |Entries(ars)|
    ensures Entries(ars)[SumBy(ars[..k], GuessCount) + i] == Entry(ars[k].guesses[i], ars[k].id)
  {
    assert ars == ars[..k] + ars[k..];
    EntriesAppend(ars[..k], ars[k..]);
    var before := Entries(ars[..k]);
    var rest := Entries(ars[k..]);
    assert ars[k..][0] == ars[k];
    assert rest == EntriesOf(ars[k]) + Entries(ars[k..][1..]);
    assert rest[i] == Entry(ars[k].guesses[i], ars[k].id);
    assert (before + rest)[|before| + i] == rest[i];
  }

  function EntryUser(e: Entry): Id {
    e.guess.userId
  }

  /** `guessesByUser`: one group per user in order of first appearance. */
  function GuessesByUser(ars: seq<ReviewRow>): (r: seq<Group<Id, Entry>>)
    ensures Keys(r) == FirstAppearances(KeyList(Entries(ars), EntryUser))
    ensures forall i :: 0 <= i < |r| ==> r[i].items == WithKey(Entries(ars), EntryUser, r[i].key)
  {
    GroupBy(Entries(ars), EntryUser)
  }

  /** The groups hold as many entries as there are guesses over all reviews,
      and the "No guesses recorded." row shows exactly when there are none. */
  lemma GroupedCountIsGuessCount(ars: seq<ReviewRow>)
    ensures Total(GuessesByUser(ars)) == SumBy(ars, GuessCount)
    ensures |GuessesByUser(ars)| == 0 <==> SumBy(ars, GuessCount) == 0
  {
    NoGroupsIffEmpty(Entries(ars), EntryUser);
  }

  /** The bet of a row's user, found by user id among the assignment's bets. */
  function RowGamble(gambles: seq<Gamble>, userId: Id): (r: int)
    ensures -1 <= r < |gambles|
    ensures r >= 0 ==> gambles[r].userId == userId
    ensures r >= 0 ==> forall j :: 0 <= j < r ==> gambles[j].userId != userId
    ensures r < 0 <==> forall j :: 0 <= j < |gambles| ==> gambles[j].userId != userId
  {
    FirstIndex(gambles, (g: Gamble) => g.userId == userId)
  }

  /** `gp?.points ?? 0`. */
  function ShownPoints(gambles: seq<Gamble>, userId: Id): (r: int)
    ensures RowGamble(gambles, userId) < 0 ==> r == 0
    ensures RowGamble(gambles, userId) >= 0 ==> r == gambles[RowGamble(gambles, userId)].points
  {
    var k := RowGamble(gambles, userId);
    if k < 0 then 0 else gambles[k].points
  }

  /** The buttons of a row: +1, -1 and remove for a user with a bet; a
      single "Add Points" with stake 0 otherwise. */
  datatype GambleAction =
    | SetPoints(id: Id, points: int)
    | RemoveGamble(id: Id)
    | AddGamble(userId: Id, assignmentId: Id, points: int)

  function RowActions(gambles: seq<Gamble>, userId: Id, assignmentId: Id): (r: seq<GambleAction>)
    ensures RowGamble(gambles, userId) < 0 ==> r == [AddGamble(userId, assignmentId, 0)]
    ensures RowGamble(gambles, userId) >= 0 ==>
              var g := gambles[RowGamble(gambles, userId)];
              r == [SetPoints(g.id, ShownPoints(gambles, userId) + 1), SetPoints(g.id, ShownPoints(gambles, userId) - 1),
                    RemoveGamble(g.id)]
  {
    var k := RowGamble(gambles, userId);
    if k < 0 then [AddGamble(userId, assignmentId, 0)]
    else [SetPoints(gambles[k].id, gambles[k].points + 1), SetPoints(gambles[k].id, gambles[k].points - 1),
          RemoveGamble(gambles[k].id)]
  }

  predicate UniqueIds(gambles: seq<Gamble>) {
    forall i, j :: 0 <= i < j < |gambles| ==> gambles[i].id != gambles[j].id
  }

  /** `getForAssignment`: `shown` holds exactly the assignment's bets, each
      once. `getForAssignment` orders by `createdAt` descending; that order
      is left open here. */
  predicate ListsAssignmentBets(shown: seq<Gamble>, gambles: seq<Gamble>, assignmentId: Id) {
    && UniqueIds(shown)
    && (forall g :: g in shown ==> g in gambles && g.assignmentId == Some(assignmentId))
    && (forall g :: g in gambles && g.assignmentId == Some(assignmentId) ==> g in shown)
  }

  /** The panel's list refetched after bet `id`'s stake became `p`: the
      query orders by `createdAt`, which `update` leaves alone, so the rows
      keep their places. */
  function WithStake(shown: seq<Gamble>, id: Id, p: int): seq<Gamble> {
    seq(|shown|, j requires 0 <= j < |shown| => if shown[j].id == id then shown[j].(points := p) else shown[j])
  }

  /** After the server's `update`, the refetched list is again exactly the
      assignment's bets, now read from the updated table. */
  lemma UpdateKeepsListing(db: Db, shown: seq<Gamble>, assignmentId: Id, id: Id, p: int)
    requires UniqueIds(db.gambles)
    requires ListsAssignmentBets(shown, db.gambles, assignmentId)
    requires Gambling.Update(db, id, p).Success?
    ensures ListsAssignmentBets(WithStake(shown, id, p), Gambling.Update(db, id, p).value.gambles, assignmentId)
  {
    var shown' := WithStake(shown, id, p);
    assert forall j :: 0 <= j < |shown'| ==> shown'[j].id == shown[j].id;
    UpdatedListingSound(db, shown, assignmentId, id, p);
    UpdatedListingComplete(db, shown, assignmentId, id, p);
  }

  /** Every refetched row is a bet of the assignment in the updated table. */
  lemma UpdatedListingSound(db: Db, shown: seq<Gamble>, assignmentId: Id, id: Id, p: int)
    requires UniqueIds(db.gambles)
    requires forall g :: g in shown ==> g in db.gambles && g.assignmentId == Some(assignmentId)
    requires Gambling.Update(db, id, p).Success?
    ensures var after := Gambling.Update(db, id, p).value.gambles;
            forall x :: x in WithStake(shown, id, p) ==> x in after && x.assignmentId == Some(assignmentId)
  {
  }

  /** Every bet of the assignment in the updated table is refetched. */
  lemma UpdatedListingComplete(db: Db, shown: seq<Gamble>, assignmentId: Id, id: Id, p: int)
    requires UniqueIds(db.gambles)
    requires forall g :: g in db.gambles && g.assignmentId == Some(assignmentId) ==> g in shown
    requires Gambling.Update(db, id, p).Success?
    ensures var after := Gambling.Update(db, id, p).value.gambles;
            forall x :: x in after && x.assignmentId == Some(assignmentId) ==> x in WithStake(shown, id, p)
  {
    var after := Gambling.Update(db, id, p).value.gambles;
    var shown' := WithStake(shown, id, p);
    var k := Gambling.GambleIndex(db, id);
    forall x | x in after && x.assignmentId == Some(assignmentId)
      ensures x in shown'
    {
      var m :| 0 <= m < |after| && after[m] == x;
      var y := db.gambles[m];
      assert y in shown;
      var j :| 0 <= j < |shown| && shown[j] == y;
      if m == k {
        assert shown'[j] == x;
      } else {
        assert y.id != id;
        assert shown'[j] == x;
      }
    }
  }

  /** Sending a row's `+1` (or `-1`) to the server's `update` moves the
      shown points by exactly one and leaves every other row's points as
      they were; the rows read the assignment's bets, and the refetched
      list reads them from the updated table. */
  lemma StepChangesShownPointsByOne(db: Db, shown: seq<Gamble>, userId: Id, assignmentId: Id, i: nat, other: Id)
    requires UniqueIds(db.gambles)
    requires ListsAssignmentBets(shown, db.gambles, assignmentId)
    requires RowGamble(shown, userId) >= 0
    requires i < 2
    requires other != userId
    ensures var a := RowActions(shown, userId, assignmentId)[i];
            var after := Gambling.Update(db, a.id, a.points);
            var shown' := WithStake(shown, a.id, a.points);
            && after.Success?
            && ListsAssignmentBets(shown', after.value.gambles, assignmentId)
            && ShownPoints(shown', userId) == ShownPoints(shown, userId) + (if i == 0 then 1 else -1)
            && ShownPoints(shown', other) == ShownPoints(shown, other)
  {
    var k := RowGamble(shown, userId);
    var g := shown[k];
    var a := RowActions(shown, userId, assignmentId)[i];
    assert a == SetPoints(g.id, g.points + (if i == 0 then 1 else -1));
    assert g in db.gambles;
    var m :| 0 <= m < |db.gambles| && db.gambles[m] == g;
    UniqueIdIndex(db, m);
    var shown' := WithStake(shown, g.id, a.points);
    ShownAfterSet(shown, shown', k, a.points, userId);
    ShownAfterSet(shown, shown', k, a.points, other);
    UpdateKeepsListing(db, shown, assignmentId, g.id, a.points);
  }

  /** With unique ids, looking a bet up by its id finds its own position. */
  lemma UniqueIdIndex(db: Db, k: nat)
    requires UniqueIds(db.gambles) && k < |db.gambles|
    ensures Gambling.GambleIndex(db, db.gambles[k].id) == k
  {
  }

  /** Changing the points of the bet at `k` changes what a row shows only
      for the row that finds that bet. */
  lemma ShownAfterSet(xs: seq<Gamble>, ys: seq<Gamble>, k: nat, p: int, u: Id)
    requires k < |xs| == |ys|
    requires ys[k] == xs[k].(points := p)
    requires forall j :: 0 <= j < |xs| && j != k ==> ys[j] == xs[j]
    ensures RowGamble(ys, u) == RowGamble(xs, u)
    ensures ShownPoints(ys, u) == if RowGamble(xs, u) == k then p else ShownPoints(xs, u)
  {
    assert forall j :: 0 <= j < |xs| ==> ys[j].userId == xs[j].userId;
  }
}

=== FILE: forms.dfy ===
/** What the admin modals share: trimmed required fields with their own
    error messages, optional text that becomes `undefined` when blank, and
    the choice between adding and updating. */
module FormFields {
  import opened Wrappers
  import JsText

  /** The error a required field shows: its message when the trimmed value
      is empty, otherwise none (""). */
  function RequiredError(value: string, message: string): (r: string)
    requires message != ""
    ensures r == "" <==> !JsText.IsBlank(value)
    ensures r != "" ==> r == message
  {
    if JsText.Trim(value) == "" then message else ""
  }

  /** `value.trim() || undefined`. */
  function OptionalText(value: string): (r: Option<string>)
    ensures r.None? <==> JsText.IsBlank(value)
    ensures r.Some? ==> r.value == JsText.Trim(value) && r.value != "" && JsText.IsTrimmed(r.value)
  {
    var t := JsText.Trim(value);
    if t == "" then None else Some(t)
  }

  /** What the form shows for a stored optional text: `stored || ""`. */
  function LoadText(stored: Option<string>): (r: string)
    ensures stored.Some? ==> r == stored.value
    ensures stored.None? ==> r == ""
  {
    if stored.Some? then stored.value else ""
  }

  /** Opening a stored item and saving it unchanged writes back the same
      optional text, provided it was stored trimmed and non-empty (as the
      form itself stores it). */
  lemma LoadSaveText(stored: Option<string>)
    requires stored.Some? ==> stored.value != "" && JsText.IsTrimmed(stored.value)
    ensures OptionalText(LoadText(stored)) == stored
  {
    if stored.Some? {
      TrimmedKept(stored.value);
    } else {
      assert JsText.IsBlank("");
    }
  }

  /** Saving what was saved: the optional text of a trimmed value is the
      optional text of the original. */
  lemma OptionalTextStable(value: string)
    ensures OptionalText(JsText.Trim(value)) == OptionalText(value)
  {
    JsText.TrimIdempotent(value);
  }

  /** A value stored trimmed and non-empty passes the required check and
      is sent as it is. */
  lemma TrimmedKept(value: string)
    requires value != "" && JsText.IsTrimmed(value)
    ensures JsText.Trim(value) == value
    ensures !JsText.IsBlank(value)
  {
    assert !JsText.IsBlank(value) by {
      assert value[0] in value && !JsText.IsWhitespace(value[0]);
    }
    assert [] + value + [] == value;
    JsText.TrimOfPadded([], value, []);
  }

  /** What `handleSave` sends: nothing, an add, or an update of the item
      being edited. */
  datatype Save<I, P> = Nothing | Add(payload: P) | Update(id: I, payload: P)

  /** `if (!isValid) return; if (editingItem) update else add`. */
  function Decide<I, P>(valid: bool, editing: Option<I>, payload: P): (r: Save<I, P>)
    ensures r.Nothing? <==> !valid
    ensures r.Add? <==> valid && editing.None?
    ensures r.Update? ==> editing == Some(r.id)
    ensures !r.Nothing? ==> r.payload == payload
  {
    if !valid then Nothing
    else if editing.Some? then Update(editing.value, payload)
    else Add(payload)
  }
}

=== FILE: gambling.dfy ===
/** The gambling router: listing a user's bets, placing a bet against the
    user's balance, changing a stake, and confirming or rejecting a bet. */
module Gambling {
  import opened Wrappers
  import opened Schema
  import opened Seqs
  import opened Seasons
  import opened Points

  const NoActiveSeason := "No active season found to add gambling points"
  const BetsAreLocked := "Bets are locked for this episode"
  const NotEnoughPoints := "Not enough points to gamble"
  const GambleNotFound := "Gamble not found"
  const AlreadyConfirmed := "Gamble already confirmed"
  const NoSeasonForPoint := "No season found for point creation"

  function GambleIndex(db: Db, id: Id): (r: int)
    ensures -1 <= r < |db.gambles|
    ensures r >= 0 ==> db.gambles[r].id == id
    ensures r >= 0 ==> forall j :: 0 <= j < r ==> db.gambles[j].id != id
    ensures r < 0 <==> forall j :: 0 <= j < |db.gambles| ==> db.gambles[j].id != id
  {
    FirstIndex(db.gambles, (g: Gamble) => g.id == id)
  }

  // ---------------------------------------------------------------------
  // getForUser

  /** The rows `getForUser` keeps: the user's, in the season `filter`
      names (any season when it names none). */
  function InView(userId: Id, filter: Option<Id>): Gamble -> bool {
    (g: Gamble) => g.userId == userId && PassesSeasonFilter(g.seasonId, filter)
  }

  /** The user's bets, restricted to the season the `seasonId` argument
      resolves to (the open season when it is omitted). */
  function GetForUser(db: Db, userId: Id, seasonId: Option<string>): (r: seq<Gamble>)
    ensures forall i :: 0 <= i < |r| ==> r[i] in db.gambles && r[i].userId == userId
    ensures seasonId == Some("all") || (!Truthy(seasonId) && !Truthy(IdOf(OpenSeason(db.seasons)))) ==>
              forall j :: 0 <= j < |db.gambles| && db.gambles[j].userId == userId ==> db.gambles[j] in r
    ensures Truthy(seasonId) && seasonId != Some("all") ==>
              forall g :: g in r <==> g in db.gambles && g.userId == userId && g.seasonId == seasonId
    ensures !Truthy(seasonId) && Truthy(IdOf(OpenSeason(db.seasons))) ==>
              forall g :: g in r <==> g in db.gambles && g.userId == userId && g.seasonId == IdOf(OpenSeason(db.seasons))
  {
    Filter(db.gambles, InView(userId, ResolveSeasonFilter(seasonId, IdOf(OpenSeason(db.seasons)))))
  }

  /** A named season's view is the `"all"` view narrowed to that season,
      in the same order. */
  lemma SeasonViewNarrowsAll(db: Db, userId: Id, season: string)
    requires season != "" && season != "all"
    ensures GetForUser(db, userId, Some(season))
            == Filter(GetForUser(db, userId, Some("all")), (g: Gamble) => g.seasonId == Some(season))
  {
    var all := InView(userId, None);
    var one := InView(userId, Some(season));
    assert GetForUser(db, userId, Some("all")) == Filter(db.gambles, all);
    assert GetForUser(db, userId, Some(season)) == Filter(db.gambles, one);
    FilterFilter(db.gambles, all, (g: Gamble) => g.seasonId == Some(season), one);
  }

  // ---------------------------------------------------------------------
  // add

  datatype Bet = Bet(
    userId: Id,
    gamblingTypeId: Id,
    points: int,
    seasonId: Option<Id>,
    assignmentId: Option<Id>,
    targetUserId: Option<Id>)

  predicate LockedStatus(status: string) {
    status == "recording" || status == "published"
  }

  /** `assignment?.episode?.status` is `recording` or `published`; a falsy
      assignment id, a missing assignment or a missing episode leaves bets
      open. */
  predicate BetsLocked(db: Db, assignmentId: Option<Id>) {
    && Truthy(assignmentId)
    && FindAssignment(db, assignmentId.value).Some?
    && FindAssignment(db, assignmentId.value).value.episodeId.Some?
    && FindEpisode(db, FindAssignment(db, assignmentId.value).value.episodeId.value).Some?
    && LockedStatus(FindEpisode(db, FindAssignment(db, assignmentId.value).value.episodeId.value).value.status)
  }

  function NewGamble(bet: Bet, season: Option<Id>, newId: Id): Gamble {
    Gamble(newId, bet.userId, Some(bet.gamblingTypeId), bet.points, season,
           bet.assignmentId, bet.targetUserId, None, None)
  }

  /** `add` as written. A missing season is looked up only to fail when
      there is none: the looked-up id is written to `input.seasonId`, while
      the balance check and the stored row use the destructured `seasonId`,
      which stays absent. */
  function Add(db: Db, bet: Bet, newId: Id): (r: Result<Db, ApiError>)
    ensures !Truthy(bet.seasonId) && OpenSeason(db.seasons).None? ==> r == Failure(Failed(NoActiveSeason))
    ensures (Truthy(bet.seasonId) || OpenSeason(db.seasons).Some?) && BetsLocked(db, bet.assignmentId) ==>
              r == Failure(Failed(BetsAreLocked))
    ensures r.Success? <==>
              && (Truthy(bet.seasonId) || OpenSeason(db.seasons).Some?)
              && !BetsLocked(db, bet.assignmentId)
              && bet.points <= UserPoints(db, bet.userId, bet.seasonId)
    ensures r.Failure? && !(!Truthy(bet.seasonId) && OpenSeason(db.seasons).None?) && !BetsLocked(db, bet.assignmentId) ==>
              r.error == Failed(NotEnoughPoints)
    ensures r.Success? ==> r.value == db.(gambles := db.gambles + [NewGamble(bet, bet.seasonId, newId)])
  {
    if !Truthy(bet.seasonId) && OpenSeason(db.seasons).None? then Failure(Failed(NoActiveSeason))
    else if BetsLocked(db, bet.assignmentId) then Failure(Failed(BetsAreLocked))
    else if UserPoints(db, bet.userId, bet.seasonId) < bet.points then Failure(Failed(NotEnoughPoints))
    else Success(db.(gambles := db.gambles + [NewGamble(bet, bet.seasonId, newId)]))
  }

  /** A stake is never larger than the balance it is checked against, so
      that balance stays non-negative after the bet. */
  lemma AddDeductsStake(db: Db, bet: Bet, newId: Id)
    requires Add(db, bet, newId).Success?
    ensures UserPoints(Add(db, bet, newId).value, bet.userId, bet.seasonId)
         == UserPoints(db, bet.userId, bet.seasonId) - bet.points >= 0
  {
    UserPointsAfterNewGamble(db, bet.userId, bet.seasonId, NewGamble(bet, bet.seasonId, newId));
  }

  /** The season a bet is meant to count in: the given one, or else the
      open season. */
  function BetSeason(db: Db, bet: Bet): Option<Id> {
    if Truthy(bet.seasonId) then bet.seasonId else IdOf(OpenSeason(db.seasons))
  }

  /** `add` with the looked-up season used for both the balance check and
      the stored row. */
  function AddIntended(db: Db, bet: Bet, newId: Id): (r: Result<Db, ApiError>)
    ensures !Truthy(bet.seasonId) && OpenSeason(db.seasons).None? ==> r == Failure(Failed(NoActiveSeason))
    ensures r.Success? <==>
              && (Truthy(bet.seasonId) || OpenSeason(db.seasons).Some?)
              && !BetsLocked(db, bet.assignmentId)
              && bet.points <= UserPoints(db, bet.userId, BetSeason(db, bet))
    ensures r.Success? ==> r.value == db.(gambles := db.gambles + [NewGamble(bet, BetSeason(db, bet), newId)])
  {
    if !Truthy(bet.seasonId) && OpenSeason(db.seasons).None? then Failure(Failed(NoActiveSeason))
    else
      var season := BetSeason(db, bet);
      if BetsLocked(db, bet.assignmentId) then Failure(Failed(BetsAreLocked))
      else if UserPoints(db, bet.userId, season) < bet.points then Failure(Failed(NotEnoughPoints))
      else Success(db.(gambles := db.gambles + [NewGamble(bet, season, newId)]))
  }

  /** With the intended definition a bet placed without a season is stored
      in the open season, and that season's balance stays non-negative. */
  lemma AddIntendedUsesOpenSeason(db: Db, bet: Bet, newId: Id)
    requires !Truthy(bet.seasonId)
    requires AddIntended(db, bet, newId).Success?
    ensures OpenSeason(db.seasons).Some?
    ensures var season := Some(OpenSeason(db.seasons).value.id);
            var after := AddIntended(db, bet, newId).value;
            && after.gambles[|db.gambles|].seasonId == season
            && UserPoints(after, bet.userId, season) == UserPoints(db, bet.userId, season) - bet.points >= 0
  {
    var season := BetSeason(db, bet);
    UserPointsAfterNewGamble(db, bet.userId, season, NewGamble(bet, season, newId));
  }

  /** A user with 10 points in an ended season and none in the open one
      bets 10 without naming a season. As written the bet is accepted,
      because the balance is summed over every season, and it is stored
      with no season at all; the intended definition rejects it. */
  lemma AddAsWrittenIgnoresOpenSeason()
    ensures var db := Db([], [Season("s0", "", "", 1, 0, Some(1)), Season("s1", "", "", 1, 2, None)],
                         [Point("p0", "u", Some("s0"), Some(10), None, None, None, 0)],
                         [], [], [], [], [], [], [], [], [], [], [], [], [], [], [], []);
            var bet := Bet("u", "t", 10, None, None, None);
            && Add(db, bet, "g0").Success?
            && Add(db, bet, "g0").value.gambles[0].seasonId == None
            && UserPoints(db, "u", Some("s1")) == 0
            && AddIntended(db, bet, "g0") == Failure(Failed(NotEnoughPoints))
  {
    var s0 := Season("s0", "", "", 1, 0, Some(1));
    var s1 := Season("s1", "", "", 1, 2, None);
    var p0 := Point("p0", "u", Some("s0"), Some(10), None, None, None, 0);
    var db := Db([], [s0, s1], [p0], [], [], [], [], [], [], [], [], [], [], [], [], [], [], [], []);
    var bet := Bet("u", "t", 10, None, None, None);
    assert [s0, s1][..1] == [s0];
    assert OpenSeason(db.seasons) == Some(s1);
    assert Filter([p0], PointMatch("u", None)) == [p0];
    assert [p0][1..] == [];
    assert SumBy([p0], PointValue) == 10;
    assert UserPoints(db, "u", None) == 10;
    assert Filter([p0], PointMatch("u", Some("s1"))) == [];
    assert UserPoints(db, "u", Some("s1")) == 0;
    assert BetSeason(db, bet) == Some("s1");
  }

  // ---------------------------------------------------------------------
  // update

  /** `update` changes the stake of one bet and nothing else; Prisma throws
      on a missing bet. */
  function Update(db: Db, id: Id, points: int): (r: Result<Db, ApiError>)
    ensures r.Failure? <==> forall j :: 0 <= j < |db.gambles| ==> db.gambles[j].id != id
    ensures r.Failure? ==> r.error == Internal
    ensures r.Success? ==> r.value == db.(gambles := r.value.gambles)
    ensures r.Success? ==> |r.value.gambles| == |db.gambles|
    ensures r.Success? ==> forall j :: 0 <= j < |db.gambles| ==>
              r.value.gambles[j] == if j == GambleIndex(db, id) then db.gambles[j].(points := points) else db.gambles[j]
  {
    var k := GambleIndex(db, id);
    if k < 0 then Failure(Internal)
    else Success(db.(gambles := ReplaceAt(db.gambles, k, db.gambles[k].(points := points))))
  }

  /** Setting the stake back to its old value undoes an update. */
  lemma UpdateUndo(db: Db, id: Id, points: int)
    requires Update(db, id, points).Success?
    ensures var before := db.gambles[GambleIndex(db, id)].points;
            Update(Update(db, id, points).value, id, before) == Success(db)
  {
    var after := Update(db, id, points).value;
    var k := GambleIndex(db, id);
    assert after.gambles[k].id == id;
    assert forall j :: 0 <= j < k ==> after.gambles[j] == db.gambles[j];
    assert GambleIndex(after, id) == k;
    assert ReplaceAt(after.gambles, k, after.gambles[k].(points := db.gambles[k].points)) == db.gambles;
  }

  // ---------------------------------------------------------------------
  // confirmGamble and rejectGamble

  /** `Math.floor(points * multiplier)`, with the multiplier as an exact
      rational. */
  function Payout(points: int, multiplier: real): (r: int)
    ensures r as real <= points as real * multiplier < r as real + 1.0
  {
    (points as real * multiplier).Floor
  }

  /** The season a confirmed bet's point goes to: the bet's own season,
      else the caller's fallback, else the open season. */
  function ConfirmSeason(db: Db, g: Gamble, fallback: Option<Id>): (r: Option<Id>)
    ensures Truthy(g.seasonId) ==> r == g.seasonId
    ensures !Truthy(g.seasonId) && Truthy(fallback) ==> r == fallback
    ensures !Truthy(g.seasonId) && !Truthy(fallback) ==> r == IdOf(OpenSeason(db.seasons))
  {
    var s := if Truthy(g.seasonId) then g.seasonId else fallback;
    if !Truthy(s) then IdOf(OpenSeason(db.seasons)) else s
  }

  /** The bet's gambling type is set and present (`gamble.gamblingType`). */
  predicate HasGamblingType(db: Db, g: Gamble) {
    g.gamblingTypeId.Some? && FindGamblingType(db, g.gamblingTypeId.value).Some?
  }

  /** `confirmGamble`: a won bet gets a new point whose `adjustment` is the
      payout, and the bet is marked successful and linked to that point.
      The checks run in the order `confirmGamble` checks them: the bet and
      its type, then an earlier confirmation, then a season for the point. */
  function ConfirmGamble(db: Db, gambleId: Id, fallback: Option<Id>, now: int, newPointId: Id): (r: Result<Db, ApiError>)
    ensures GambleIndex(db, gambleId) < 0 ==> r == Failure(Failed(GambleNotFound))
    ensures var k := GambleIndex(db, gambleId);
            k >= 0 && !HasGamblingType(db, db.gambles[k]) ==> r == Failure(Failed(GambleNotFound))
    ensures var k := GambleIndex(db, gambleId);
            k >= 0 && HasGamblingType(db, db.gambles[k]) && Truthy(db.gambles[k].pointsId) ==>
              r == Failure(Failed(AlreadyConfirmed))
    ensures var k := GambleIndex(db, gambleId);
            k >= 0 && HasGamblingType(db, db.gambles[k]) && !Truthy(db.gambles[k].pointsId)
            && !Truthy(ConfirmSeason(db, db.gambles[k], fallback)) ==>
              r == Failure(Failed(NoSeasonForPoint))
    ensures var k := GambleIndex(db, gambleId);
            r.Success? <==>
              && k >= 0
              && HasGamblingType(db, db.gambles[k])
              && !Truthy(db.gambles[k].pointsId)
              && Truthy(ConfirmSeason(db, db.gambles[k], fallback))
    ensures r.Success? ==>
              var k := GambleIndex(db, gambleId);
              var g := db.gambles[k];
              && k >= 0
              && !Truthy(g.pointsId)
              && g.gamblingTypeId.Some?
              && FindGamblingType(db, g.gamblingTypeId.value).Some?
              && Truthy(ConfirmSeason(db, g, fallback))
    ensures r.Success? ==>
              var k := GambleIndex(db, gambleId);
              var g := db.gambles[k];
              var t := FindGamblingType(db, g.gamblingTypeId.value).value;
              var season := ConfirmSeason(db, g, fallback);
              && r.value.points == db.points + [Point(newPointId, g.userId, season, None,
                                                      Some(Payout(g.points, t.multiplier)),
                                                      Some("Gamble win: " + t.title), None, now)]
              && r.value.gambles == db.gambles[k := g.(successful := Some(true), pointsId := Some(newPointId), seasonId := season)]
              && r.value == db.(points := r.value.points, gambles := r.value.gambles)
    ensures GambleIndex(db, gambleId) >= 0 && Truthy(db.gambles[GambleIndex(db, gambleId)].pointsId) ==>
              r.Failure?
  {
    var k := GambleIndex(db, gambleId);
    if k < 0 then Failure(Failed(GambleNotFound))
    else
      var g := db.gambles[k];
      if !HasGamblingType(db, g) then Failure(Failed(GambleNotFound))
      else if Truthy(g.pointsId) then Failure(Failed(AlreadyConfirmed))
      else
        var t := FindGamblingType(db, g.gamblingTypeId.value).value;
        var season := ConfirmSeason(db, g, fallback);
        if !Truthy(season) then Failure(Failed(NoSeasonForPoint))
        else
          var point := Point(newPointId, g.userId, season, None, Some(Payout(g.points, t.multiplier)),
                             Some("Gamble win: " + t.title), None, now);
          Success(db.(points := db.points + [point],
                      gambles := db.gambles[k := g.(successful := Some(true), pointsId := Some(newPointId),
                                                     seasonId := season)]))
  }

  /** Confirming the same bet a second time fails. */
  lemma ConfirmTwiceFails(db: Db, gambleId: Id, fallback: Option<Id>, now: int, newPointId: Id,
                          fallback': Option<Id>, now': int, newPointId': Id)
    requires newPointId != ""
    requires ConfirmGamble(db, gambleId, fallback, now, newPointId).Success?
    ensures ConfirmGamble(ConfirmGamble(db, gambleId, fallback, now, newPointId).value,
                          gambleId, fallback', now', newPointId') == Failure(Failed(AlreadyConfirmed))
  {
    var after := ConfirmGamble(db, gambleId, fallback, now, newPointId).value;
    var k := GambleIndex(db, gambleId);
    assert after.gambles[k].id == gambleId;
    assert forall j :: 0 <= j < k ==> after.gambles[j] == db.gambles[j];
    assert GambleIndex(after, gambleId) == k;
    assert after.gamblingTypes == db.gamblingTypes;
  }

  /** The payout is written to `adjustment`, which the balance does not
      read: confirming changes the user's all-season balance only through
      the bet's own `successful` flag, by twice the stake for a bet that was
      not already marked won. */
  lemma ConfirmGambleBalance(db: Db, gambleId: Id, fallback: Option<Id>, now: int, newPointId: Id)
    requires ConfirmGamble(db, gambleId, fallback, now, newPointId).Success?
    ensures var g := db.gambles[GambleIndex(db, gambleId)];
            UserPoints(ConfirmGamble(db, gambleId, fallback, now, newPointId).value, g.userId, None)
            == UserPoints(db, g.userId, None) + (if g.successful == Some(true) then 0 else 2 * g.points)
  {
    var after := ConfirmGamble(db, gambleId, fallback, now, newPointId).value;
    var k := GambleIndex(db, gambleId);
    var g := db.gambles[k];
    UserPointsIsMasked(db, g.userId, None);
    UserPointsIsMasked(after, g.userId, None);
    SumByAppend(db.points, [after.points[|db.points|]], MaskedPoint(g.userId, None));
    assert after.points == db.points + [after.points[|db.points|]];
    SumByReplace(db.gambles, k, after.gambles[k], MaskedGamble(g.userId, None));
  }

  /** `rejectGamble` marks the bet lost and unlinks its point, whatever its
      previous state; the point row itself is kept. Prisma throws on a
      missing bet. */
  function RejectGamble(db: Db, gambleId: Id): (r: Result<Db, ApiError>)
    ensures r.Failure? <==> forall j :: 0 <= j < |db.gambles| ==> db.gambles[j].id != gambleId
    ensures r.Failure? ==> r.error == Internal
    ensures r.Success? ==>
              var k := GambleIndex(db, gambleId);
              && r.value.gambles == db.gambles[k := db.gambles[k].(successful := Some(false), pointsId := None)]
              && r.value == db.(gambles := r.value.gambles)
  {
    var k := GambleIndex(db, gambleId);
    if k < 0 then Failure(Internal)
    else Success(db.(gambles := db.gambles[k := db.gambles[k].(successful := Some(false), pointsId := None)]))
  }

  /** Rejecting twice is the same as rejecting once. */
  lemma RejectIdempotent(db: Db, gambleId: Id)
    requires RejectGamble(db, gambleId).Success?
    ensures RejectGamble(RejectGamble(db, gambleId).value, gambleId) == RejectGamble(db, gambleId)
  {
    var after := RejectGamble(db, gambleId).value;
    var k := GambleIndex(db, gambleId);
    assert after.gambles[k].id == gambleId;
    assert forall j :: 0 <= j < k ==> after.gambles[j] == db.gambles[j];
    assert GambleIndex(after, gambleId) == k;
    assert after.gambles[k := after.gambles[k].(successful := Some(false), pointsId := None)] == after.gambles;
  }

  /** A rejected bet is no longer "already confirmed", so it can be
      confirmed again. */
  lemma RejectReopensConfirm(db: Db, gambleId: Id, fallback: Option<Id>, now: int, newPointId: Id)
    requires RejectGamble(db, gambleId).Success?
    ensures ConfirmGamble(RejectGamble(db, gambleId).value, gambleId, fallback, now, newPointId)
            != Failure(Failed(AlreadyConfirmed))
  {
    var after := RejectGamble(db, gambleId).value;
    var k := GambleIndex(db, gambleId);
    assert after.gambles[k].id == gambleId;
    assert forall j :: 0 <= j < k ==> after.gambles[j] == db.gambles[j];
    assert GambleIndex(after, gambleId) == k;
  }

  /** Rejecting lowers the user's all-season balance by twice the stake of
      a bet that was marked won, and leaves it alone otherwise. */
  lemma RejectGambleBalance(db: Db, gambleId: Id)
    requires RejectGamble(db, gambleId).Success?
    ensures var g := db.gambles[GambleIndex(db, gambleId)];
            UserPoints(RejectGamble(db, gambleId).value, g.userId, None)
            == UserPoints(db, g.userId, None) - (if g.successful == Some(true) then 2 * g.points else 0)
  {
    var after := RejectGamble(db, gambleId).value;
    var k := GambleIndex(db, gambleId);
    var g := db.gambles[k];
    UserPointsIsMasked(db, g.userId, None);
    UserPointsIsMasked(after, g.userId, None);
    SumByReplace(db.gambles, k, after.gambles[k], MaskedGamble(g.userId, None));
  }
}

=== FILE: gambling_type_form.dfy ===
/** The gambling type modal: title and lookup id required, optional
    description, a multiplier starting at 1.5 and an active flag. */
module GamblingTypeForm {
  import opened Wrappers
  import opened FormFields
  import JsText

  const TitleRequired := "Title is required"
  const LookupRequired := "Lookup ID is required"
  const DefaultMultiplier: real := 1.5

  datatype Form = Form(title: string, description: string, lookupId: string, multiplier: real, isActive: bool)
  datatype Errors = Errors(title: string, lookupId: string)
  datatype Payload = Payload(title: string, description: Option<string>, lookupId: string, multiplier: real, isActive: bool)
  datatype GamblingKind = GamblingKind(
    id: string, title: string, description: Option<string>, lookupId: string, multiplier: real, isActive: bool)

  const NoErrors := Errors("", "")

  /** `resetForm`: empty text, multiplier 1.5, active, no errors. */
  function Reset(): (r: (Form, Errors))
    ensures r.0.title == "" && r.0.description == "" && r.0.lookupId == ""
    ensures r.0.multiplier == 1.5 && r.0.isActive
    ensures r.1 == NoErrors
  {
    (Form("", "", "", DefaultMultiplier, true), NoErrors)
  }

  function Load(item: GamblingKind): (r: Form)
    ensures r.title == item.title && r.lookupId == item.lookupId
    ensures r.multiplier == item.multiplier && r.isActive == item.isActive
    ensures r.description == LoadText(item.description)
  {
    Form(item.title, LoadText(item.description), item.lookupId, item.multiplier, item.isActive)
  }

  function Check(f: Form): (r: Errors)
    ensures r.title == "" <==> !JsText.IsBlank(f.title)
    ensures r.lookupId == "" <==> !JsText.IsBlank(f.lookupId)
    ensures r.title != "" ==> r.title == TitleRequired
    ensures r.lookupId != "" ==> r.lookupId == LookupRequired
  {
    Errors(RequiredError(f.title, TitleRequired), RequiredError(f.lookupId, LookupRequired))
  }

  /** `isFormInvalid`. */
  predicate Invalid(f: Form) {
    JsText.Trim(f.title) == "" || JsText.Trim(f.lookupId) == ""
  }

  /** `handleSave`: multiplier and active flag go through as they are. */
  function HandleSave(f: Form, editing: Option<string>): (r: (Errors, Save<string, Payload>))
    ensures r.0 == Check(f)
    ensures r.1.Nothing? <==> r.0 != NoErrors
    ensures r.1.Add? <==> r.0 == NoErrors && editing.None?
    ensures r.1.Update? ==> editing == Some(r.1.id)
    ensures !r.1.Nothing? ==>
              && r.1.payload.title == JsText.Trim(f.title) != ""
              && r.1.payload.lookupId == JsText.Trim(f.lookupId) != ""
              && r.1.payload.description == OptionalText(f.description)
              && r.1.payload.multiplier == f.multiplier
              && r.1.payload.isActive == f.isActive
  {
    var errors := Check(f);
    var payload := Payload(JsText.Trim(f.title), OptionalText(f.description), JsText.Trim(f.lookupId),
                           f.multiplier, f.isActive);
    (errors, Decide(errors == NoErrors, editing, payload))
  }

  lemma DisabledIffNothingSent(f: Form, editing: Option<string>)
    ensures Invalid(f) <==> HandleSave(f, editing).1.Nothing?
  {
  }

  /** A freshly reset form cannot be saved: both required errors show. */
  lemma ResetFormBlocksSave(editing: Option<string>)
    ensures HandleSave(Reset().0, editing) == (Errors(TitleRequired, LookupRequired), Nothing)
  {
    assert JsText.IsBlank("");
  }

  /** Opening a stored type and saving it untouched updates it with its own
      values. */
  lemma EditUnchangedRoundTrip(item: GamblingKind)
    requires item.title != "" && JsText.IsTrimmed(item.title)
    requires item.lookupId != "" && JsText.IsTrimmed(item.lookupId)
    requires item.description.Some? ==> item.description.value != "" && JsText.IsTrimmed(item.description.value)
    ensures HandleSave(Load(item), Some(item.id)).1 ==
            Update(item.id, Payload(item.title, item.description, item.lookupId, item.multiplier, item.isActive))
  {
    TrimmedKept(item.title);
    TrimmedKept(item.lookupId);
    LoadSaveText(item.description);
    SaveKept(item);
  }

  /** Saving the loaded form of an item whose fields are already trimmed
      and normalised sends exactly those fields. */
  lemma SaveKept(item: GamblingKind)
    requires JsText.Trim(item.title) == item.title && !JsText.IsBlank(item.title)
    requires JsText.Trim(item.lookupId) == item.lookupId && !JsText.IsBlank(item.lookupId)
    requires OptionalText(LoadText(item.description)) == item.description
    ensures HandleSave(Load(item), Some(item.id)).1 == Update(item.id, Payload(item.title, item.description, item.lookupId, item.multiplier, item.isActive))
  {
    var f := Load(item);
    assert Check(f) == NoErrors;
    var payload := Payload(JsText.Trim(f.title), OptionalText(f.description), JsText.Trim(f.lookupId),
                           f.multiplier, f.isActive);
    assert payload == Payload(item.title, item.description, item.lookupId, item.multiplier, item.isActive);
    assert HandleSave(f, Some(item.id)).1 == Decide(true, Some(item.id), payload);
  }
}

=== FILE: game_point_type_form.dfy ===
/** The game point type modal: title, lookup id and a game type are
    required; the points field and the game type select parse their text
    with `parseInt`, reading anything unparsable as 0. */
module GamePointTypeForm {
  import opened Wrappers
  import opened FormFields
  import JsText

  const TitleRequired := "Title is required"
  const LookupRequired := "Lookup ID is required"
  const GameTypeRequired := "Please select a game type"

  /** `gameTypeId` 0 means no game type is selected. */
  datatype Form = Form(title: string, description: string, lookupID: string, points: int, gameTypeId: int)
  datatype Errors = Errors(title: string, lookupID: string, gameTypeId: string)
  datatype Payload = Payload(title: string, description: Option<string>, lookupID: string, points: int, gameTypeId: int)

  const NoErrors := Errors("", "", "")

  /** `resetForm`: empty text, 0 points, the default game type (0 when
      there is none), no errors. */
  function Reset(defaultGameTypeId: Option<int>): (r: (Form, Errors))
    ensures r.0.title == "" && r.0.description == "" && r.0.lookupID == "" && r.0.points == 0
    ensures r.0.gameTypeId == (if defaultGameTypeId.Some? then defaultGameTypeId.value else 0)
    ensures r.1 == NoErrors
  {
    (Form("", "", "", 0, defaultGameTypeId.GetOr(0)), NoErrors)
  }

  /** The points input: "" is 0, unparsable text is 0, otherwise the
      integer `parseInt` reads. */
  function PointsInput(value: string): (r: int)
    ensures value == "" ==> r == 0
    ensures JsText.ParseInt(value).None? ==> r == 0
    ensures JsText.ParseInt(value).Some? ==> r == JsText.ParseInt(value).value
  {
    if value == "" then 0
    else
      var parsed := JsText.ParseInt(value);
      if parsed.None? then 0 else parsed.value
  }

  /** Typing a number's decimal form, with or without a minus sign, sets
      that number. */
  lemma PointsInputRoundTrip(n: nat)
    ensures PointsInput(JsText.DecimalString(n)) == n
    ensures PointsInput("-" + JsText.DecimalString(n)) == -(n as int)
  {
    JsText.ParseIntOfDecimal(n);
  }

  /** The game type select's value: "" for none, else the id's digits. */
  function SelectValue(gameTypeId: nat): (r: string)
    ensures r == "" <==> gameTypeId == 0
  {
    if gameTypeId == 0 then "" else JsText.DecimalString(gameTypeId)
  }

  /** Choosing in the game type select: the parsed id, or 0 when the value
      does not parse. */
  function SelectGameType(value: string): (r: int)
    ensures JsText.ParseInt(value).None? ==> r == 0
    ensures JsText.ParseInt(value).Some? ==> r == JsText.ParseInt(value).value
  {
    JsText.ParseInt(value).GetOr(0)
  }

  /** The select shows the current game type and choosing it again keeps
      it, including "none selected". */
  lemma SelectRoundTrip(gameTypeId: nat)
    ensures SelectGameType(SelectValue(gameTypeId)) == gameTypeId
  {
    if gameTypeId != 0 {
      JsText.ParseIntOfDecimal(gameTypeId);
    }
  }

  /** All three checks run; each field shows only its own error. */
  function Check(f: Form): (r: Errors)
    ensures r.title == "" <==> !JsText.IsBlank(f.title)
    ensures r.lookupID == "" <==> !JsText.IsBlank(f.lookupID)
    ensures r.gameTypeId == "" <==> f.gameTypeId != 0
    ensures r.title != "" ==> r.title == TitleRequired
    ensures r.lookupID != "" ==> r.lookupID == LookupRequired
    ensures r.gameTypeId != "" ==> r.gameTypeId == GameTypeRequired
  {
    Errors(RequiredError(f.title, TitleRequired), RequiredError(f.lookupID, LookupRequired),
           if f.gameTypeId == 0 then GameTypeRequired else "")
  }

  /** `handleSave`. The modal has no separate `isFormInvalid`: its Save
      button is disabled only while loading. */
  function HandleSave(f: Form, editing: Option<int>): (r: (Errors, Save<int, Payload>))
    ensures r.0 == Check(f)
    ensures r.1.Nothing? <==> JsText.IsBlank(f.title) || JsText.IsBlank(f.lookupID) || f.gameTypeId == 0
    ensures r.1.Add? <==> r.0 == NoErrors && editing.None?
    ensures r.1.Update? ==> editing == Some(r.1.id)
    ensures !r.1.Nothing? ==>
              && r.1.payload.title == JsText.Trim(f.title) != ""
              && r.1.payload.lookupID == JsText.Trim(f.lookupID) != ""
              && r.1.payload.description == OptionalText(f.description)
              && r.1.payload.points == f.points
              && r.1.payload.gameTypeId == f.gameTypeId != 0
  {
    var errors := Check(f);
    var payload := Payload(JsText.Trim(f.title), OptionalText(f.description), JsText.Trim(f.lookupID),
                           f.points, f.gameTypeId);
    (errors, Decide(errors == NoErrors, editing, payload))
  }

  /** A form reset without a default game type cannot be saved even with
      title and lookup id filled in: the game type error shows. */
  lemma NoDefaultTypeBlocksSave(title: string, lookupID: string, editing: Option<int>)
    ensures var f := Reset(None).0.(title := title, lookupID := lookupID);
            && HandleSave(f, editing).1.Nothing?
            && HandleSave(f, editing).0.gameTypeId == GameTypeRequired
  {
  }
}

=== FILE: game_type_form.dfy ===
/** The game type modal: title and lookup id are required, description is
    optional. */
module GameTypeForm {
  import opened Wrappers
  import opened FormFields
  import JsText

  const TitleRequired := "Title is required"
  const LookupRequired := "Lookup ID is required"

  datatype Form = Form(title: string, description: string, lookupID: string)
  datatype Errors = Errors(title: string, lookupID: string)
  datatype Payload = Payload(title: string, description: Option<string>, lookupID: string)
  /** A stored game type, as the modal receives it for editing. */
  datatype GameType = GameType(id: int, title: string, description: Option<string>, lookupID: string)

  const Blank := Form("", "", "")
  const NoErrors := Errors("", "")

  /** `resetForm`. */
  function Reset(): (r: (Form, Errors))
    ensures r.0 == Blank && r.1 == NoErrors
  {
    (Blank, NoErrors)
  }

  /** The edit effect: load the item, with a missing description as "". */
  function Load(item: GameType): (r: Form)
    ensures r.title == item.title && r.lookupID == item.lookupID
    ensures r.description == LoadText(item.description)
  {
    Form(item.title, LoadText(item.description), item.lookupID)
  }

  /** Both checks run; each field shows only its own error. */
  function Check(f: Form): (r: Errors)
    ensures r.title == "" <==> !JsText.IsBlank(f.title)
    ensures r.lookupID == "" <==> !JsText.IsBlank(f.lookupID)
    ensures r.title != "" ==> r.title == TitleRequired
    ensures r.lookupID != "" ==> r.lookupID == LookupRequired
  {
    Errors(RequiredError(f.title, TitleRequired), RequiredError(f.lookupID, LookupRequired))
  }

  /** `isFormInvalid`: either required field blank once trimmed. */
  predicate Invalid(f: Form) {
    JsText.Trim(f.title) == "" || JsText.Trim(f.lookupID) == ""
  }

  /** `handleSave`: the errors it sets and the mutation it sends. */
  function HandleSave(f: Form, editing: Option<int>): (r: (Errors, Save<int, Payload>))
    ensures r.0 == Check(f)
    ensures r.1.Nothing? <==> r.0 != NoErrors
    ensures r.1.Add? <==> r.0 == NoErrors && editing.None?
    ensures r.1.Update? ==> editing == Some(r.1.id)
    ensures !r.1.Nothing? ==>
              && r.1.payload.title == JsText.Trim(f.title) != ""
              && r.1.payload.lookupID == JsText.Trim(f.lookupID) != ""
              && r.1.payload.description == OptionalText(f.description)
  {
    var errors := Check(f);
    var payload := Payload(JsText.Trim(f.title), OptionalText(f.description), JsText.Trim(f.lookupID));
    (errors, Decide(errors == NoErrors, editing, payload))
  }

  /** The Save button is enabled (not loading) exactly when saving sends a
      mutation. */
  lemma DisabledIffNothingSent(f: Form, editing: Option<int>)
    ensures Invalid(f) <==> HandleSave(f, editing).1.Nothing?
  {
  }

  /** Opening a stored game type and saving it untouched updates it with
      its own values, when it was stored as the form stores it. */
  lemma EditUnchangedRoundTrip(item: GameType)
    requires item.title != "" && JsText.IsTrimmed(item.title)
    requires item.lookupID != "" && JsText.IsTrimmed(item.lookupID)
    requires item.description.Some? ==> item.description.value != "" && JsText.IsTrimmed(item.description.value)
    ensures HandleSave(Load(item), Some(item.id)).1 ==
            Update(item.id, Payload(item.title, item.description, item.lookupID))
  {
    TrimmedKept(item.title);
    TrimmedKept(item.lookupID);
    LoadSaveText(item.description);
    SaveKept(item);
  }

  /** Saving the loaded form of an item whose fields are already trimmed
      and normalised sends exactly those fields. */
  lemma SaveKept(item: GameType)
    requires JsText.Trim(item.title) == item.title && !JsText.IsBlank(item.title)
    requires JsText.Trim(item.lookupID) == item.lookupID && !JsText.IsBlank(item.lookupID)
    requires OptionalText(LoadText(item.description)) == item.description
    ensures HandleSave(Load(item), Some(item.id)).1 == Update(item.id, Payload(item.title, item.description, item.lookupID))
  {
  }
}

=== FILE: grouping.dfy ===
/** Grouping a list by a key into a JavaScript `Map`, whose iteration order
    is the order in which keys were first inserted. Both the bets panel and
    the assignment editor group records by user this way. */
module Grouping {

  datatype Group<K, T> = Group(key: K, items: seq<T>)

  predicate Distinct<K(==)>(ks: seq<K>) {
    forall i, j :: 0 <= i < j < |ks| ==> ks[i] != ks[j]
  }

  function Keys<K, T>(gs: seq<Group<K, T>>): (r: seq<K>)
    ensures |r| == |gs|
    ensures forall i :: 0 <= i < |gs| ==> r[i] == gs[i].key
  {
    seq(|gs|, i requires 0 <= i < |gs| => gs[i].key)
  }

  /** The key of every element, in list order. */
  function KeyList<K, T>(xs: seq<T>, key: T -> K): (r: seq<K>)
    ensures |r| == |xs|
    ensures forall i :: 0 <= i < |xs| ==> r[i] == key(xs[i])
  {
    seq(|xs|, i requires 0 <= i < |xs| => key(xs[i]))
  }

  /** Each key once, at the position of its first occurrence. */
  function FirstAppearances<K(==)>(ks: seq<K>): (r: seq<K>)
    ensures forall i :: 0 <= i < |r| ==> r[i] in ks
    ensures forall i :: 0 <= i < |ks| ==> ks[i] in r
    ensures Distinct(r)
    decreases |ks|
  {
    if |ks| == 0 then []
    else
      var d := FirstAppearances(ks[..|ks| - 1]);
      var k := ks[|ks| - 1];
      assert ks == ks[..|ks| - 1] + [k];
      if k in d then d else d + [k]
  }

  /** The elements of `xs` whose key is `k`, in list order. */
  function WithKey<K(==), T>(xs: seq<T>, key: T -> K, k: K): seq<T>
    decreases |xs|
  {
    if |xs| == 0 then []
    else
      var x := xs[|xs| - 1];
      WithKey(xs[..|xs| - 1], key, k) + (if key(x) == k then [x] else [])
  }

  /** The number of items over all groups. */
  function Total<K, T>(gs: seq<Group<K, T>>): nat
    decreases |gs|
  {
    if |gs| == 0 then 0 else Total(gs[..|gs| - 1]) + |gs[|gs| - 1].items|
  }

  /** Adding `d` items to one group adds `d` to the total. */
  lemma {:induction false} TotalGrow<K, T>(gs: seq<Group<K, T>>, i: nat, g: Group<K, T>)
    requires i < |gs| && |g.items| >= |gs[i].items|
    ensures Total(gs[i := g]) == Total(gs) + |g.items| - |gs[i].items|
    decreases |gs|
  {
    var n := |gs|;
    var r := gs[i := g];
    if i < n - 1 {
      assert r[..n - 1] == gs[..n - 1][i := g];
      TotalGrow(gs[..n - 1], i, g);
    } else {
      assert r[..n - 1] == gs[..n - 1];
    }
  }

  /** The position of the group for `k`, or -1. */
  function KeyIndex<K(==), T>(gs: seq<Group<K, T>>, k: K): (i: int)
    ensures -1 <= i < |gs|
    ensures i >= 0 ==> gs[i].key == k
    ensures i < 0 <==> k !in Keys(gs)
    decreases |gs|
  {
    if |gs| == 0 then -1
    else if gs[|gs| - 1].key == k then |gs| - 1
    else
      var i := KeyIndex(gs[..|gs| - 1], k);
      assert Keys(gs) == Keys(gs[..|gs| - 1]) + [gs[|gs| - 1].key];
      i
  }

  /** `if (!map.has(k)) map.set(k, []); map.get(k).push(x)`. */
  function Insert<K(==), T>(gs: seq<Group<K, T>>, k: K, x: T): (r: seq<Group<K, T>>)
    requires Distinct(Keys(gs))
    ensures Keys(r) == if k in Keys(gs) then Keys(gs) else Keys(gs) + [k]
    ensures forall i :: 0 <= i < |gs| ==>
              r[i].items == gs[i].items + (if gs[i].key == k then [x] else [])
    ensures k !in Keys(gs) ==> r[|gs|].items == [x]
    ensures Total(r) == Total(gs) + 1
  {
    var i := KeyIndex(gs, k);
    if i >= 0 then
      var r := gs[i := Group(k, gs[i].items + [x])];
      assert Keys(r) == Keys(gs);
      assert forall j :: 0 <= j < |gs| && j != i ==> gs[j].key != k by {
        forall j | 0 <= j < |gs| && j != i ensures gs[j].key != k {
          assert Keys(gs)[j] != Keys(gs)[i];
        }
      }
      TotalGrow(gs, i, Group(k, gs[i].items + [x]));
      r
    else
      var r := gs + [Group(k, [x])];
      assert Keys(r) == Keys(gs) + [k];
      assert r[..|r| - 1] == gs;
      r
  }

  /** The key list of `xs` without its last element. */
  lemma KeyListInit<K, T>(xs: seq<T>, key: T -> K)
    requires |xs| > 0
    ensures KeyList(xs[..|xs| - 1], key) == KeyList(xs, key)[..|xs| - 1]
    ensures KeyList(xs, key)[|xs| - 1] == key(xs[|xs| - 1])
  {
  }

  /** Each group after the insertion holds exactly its key's elements. */
  lemma InsertKeepsItems<K, T>(xs: seq<T>, key: T -> K, gs: seq<Group<K, T>>)
    requires |xs| > 0
    requires Keys(gs) == FirstAppearances(KeyList(xs[..|xs| - 1], key))
    requires forall i :: 0 <= i < |gs| ==> gs[i].items == WithKey(xs[..|xs| - 1], key, gs[i].key)
    ensures Distinct(Keys(gs))
    ensures var r := Insert(gs, key(xs[|xs| - 1]), xs[|xs| - 1]);
            forall i :: 0 <= i < |r| ==> r[i].items == WithKey(xs, key, r[i].key)
  {
    var init := xs[..|xs| - 1];
    var x := xs[|xs| - 1];
    var r := Insert(gs, key(x), x);
    forall i | 0 <= i < |r| ensures r[i].items == WithKey(xs, key, r[i].key) {
      if i == |gs| {
        KeyListInit(xs, key);
        assert key(x) !in KeyList(init, key);
        WithKeyAbsent(init, key, key(x));
      }
    }
  }

  /** Inserting the last element of `xs` into the grouping of the rest
      groups all of `xs`: the keys in first-appearance order, each group
      exactly its key's elements, every element counted once. */
  lemma InsertKeepsGrouping<K, T>(xs: seq<T>, key: T -> K, gs: seq<Group<K, T>>)
    requires |xs| > 0
    requires Keys(gs) == FirstAppearances(KeyList(xs[..|xs| - 1], key))
    requires forall i :: 0 <= i < |gs| ==> gs[i].items == WithKey(xs[..|xs| - 1], key, gs[i].key)
    requires Total(gs) == |xs| - 1
    ensures Distinct(Keys(gs))
    ensures var r := Insert(gs, key(xs[|xs| - 1]), xs[|xs| - 1]);
            && Keys(r) == FirstAppearances(KeyList(xs, key))
            && (forall i :: 0 <= i < |r| ==> r[i].items == WithKey(xs, key, r[i].key))
            && Total(r) == |xs|
  {
    InsertKeepsItems(xs, key, gs);
    KeyListInit(xs, key);
  }

  /** Grouping `xs` by `key`: one group per distinct key in first-appearance
      order, each holding exactly the elements with that key in list order,
      and together holding every element once. */
  function GroupBy<K(==), T>(xs: seq<T>, key: T -> K): (r: seq<Group<K, T>>)
    ensures Keys(r) == FirstAppearances(KeyList(xs, key))
    ensures forall i :: 0 <= i < |r| ==> r[i].items == WithKey(xs, key, r[i].key)
    ensures Total(r) == |xs|
    decreases |xs|
  {
    if |xs| == 0 then []
    else
      var gs := GroupBy(xs[..|xs| - 1], key);
      InsertKeepsGrouping(xs, key, gs);
      Insert(gs, key(xs[|xs| - 1]), xs[|xs| - 1])
  }

  lemma {:induction false} WithKeyAbsent<K, T>(xs: seq<T>, key: T -> K, k: K)
    requires k !in KeyList(xs, key)
    ensures WithKey(xs, key, k) == []
    decreases |xs|
  {
    if |xs| > 0 {
      var init := xs[..|xs| - 1];
      assert KeyList(init, key) == KeyList(xs, key)[..|xs| - 1];
      WithKeyAbsent(init, key, k);
    }
  }

  /** Every element lands in exactly one group: the one for its key. */
  lemma EachInOneGroup<K, T>(xs: seq<T>, key: T -> K, j: nat) returns (i: nat)
    requires j < |xs|
    ensures i < |GroupBy(xs, key)| && GroupBy(xs, key)[i].key == key(xs[j])
    ensures forall i' :: 0 <= i' < |GroupBy(xs, key)| && GroupBy(xs, key)[i'].key == key(xs[j]) ==> i' == i
  {
    var r := GroupBy(xs, key);
    var ks := KeyList(xs, key);
    assert ks[j] == key(xs[j]);
    assert key(xs[j]) in FirstAppearances(ks);
    assert key(xs[j]) in Keys(r);
    i :| 0 <= i < |r| && Keys(r)[i] == key(xs[j]);
    forall i' | 0 <= i' < |r| && r[i'].key == key(xs[j]) ensures i' == i {
      assert Keys(r)[i'] == Keys(r)[i];
    }
  }

  /** There are no groups exactly when there is nothing to group. */
  lemma NoGroupsIffEmpty<K, T>(xs: seq<T>, key: T -> K)
    ensures |GroupBy(xs, key)| == 0 <==> |xs| == 0
  {
    if |xs| > 0 {
      var i := EachInOneGroup(xs, key, 0);
    }
  }
}

=== FILE: guesses.dfy ===
/** The guess router: recording a user's guesses of the hosts' ratings for
    an assignment, listing a user's guesses by season, and awarding a point
    for a guess. */
module Guesses {
  import opened Wrappers
  import opened Schema
  import opened Seqs
  import opened Seasons

  const NoActiveSeason := "No active season found"
  const AssignmentNotFound := "Assignment not found"
  const GamePointNotFound := "Game point not found"

  /** `GamePointLookup.GUESS` in src/utils/enums.ts. */
  const GuessLookup := "guess"

  function MissingReview(adminId: Id): string {
    "Could not find review by admin " + adminId + " for this assignment."
  }

  /** One entry of the `guesses` argument: the host whose rating is
      guessed, and the guessed rating. */
  datatype GuessInput = GuessInput(adminId: Id, ratingId: Id)

  function FindReview(db: Db, id: Id): Option<Review> {
    First(db.reviews, (v: Review) => v.id == id)
  }

  /** The assignment review on `assignmentId` whose review was written by
      `adminId` about `movieId`. */
  predicate ByAdminOnMovie(db: Db, ar: AssignmentReview, assignmentId: Id, adminId: Id, movieId: Id) {
    && ar.assignmentId == assignmentId
    && FindReview(db, ar.reviewId).Some?
    && FindReview(db, ar.reviewId).value.userId == adminId
    && FindReview(db, ar.reviewId).value.movieId == movieId
  }

  function AdminReview(db: Db, assignmentId: Id, adminId: Id, movieId: Id): (r: Option<AssignmentReview>)
    ensures r.Some? ==> r.value in db.assignmentReviews && ByAdminOnMovie(db, r.value, assignmentId, adminId, movieId)
    ensures r.None? <==> forall j :: 0 <= j < |db.assignmentReviews| ==>
              !ByAdminOnMovie(db, db.assignmentReviews[j], assignmentId, adminId, movieId)
  {
    First(db.assignmentReviews, (ar: AssignmentReview) => ByAdminOnMovie(db, ar, assignmentId, adminId, movieId))
  }

  /** At most one guess per (user, assignment review). */
  predicate OneGuessPerReview(gs: seq<Guess>) {
    forall i, j :: 0 <= i < j < |gs| ==>
      gs[i].userId != gs[j].userId || gs[i].assignmentReviewId != gs[j].assignmentReviewId
  }

  function GuessIndex(gs: seq<Guess>, userId: Id, reviewId: Id): (r: int)
    ensures -1 <= r < |gs|
    ensures r >= 0 ==> gs[r].userId == userId && gs[r].assignmentReviewId == reviewId
    ensures r < 0 <==> forall j :: 0 <= j < |gs| ==> gs[j].userId != userId || gs[j].assignmentReviewId != reviewId
  {
    FirstIndex(gs, (g: Guess) => g.userId == userId && g.assignmentReviewId == reviewId)
  }

  /** One iteration: update the rating of the user's existing guess on the
      review, or create a guess in the season. Returns the new table and the
      written row. */
  function UpsertGuess(gs: seq<Guess>, userId: Id, reviewId: Id, ratingId: Id, seasonId: Id, newId: Id): (r: (seq<Guess>, Guess))
    ensures r.1.userId == userId && r.1.assignmentReviewId == reviewId && r.1.ratingId == ratingId
    ensures GuessIndex(gs, userId, reviewId) >= 0 ==>
              && r.0 == gs[GuessIndex(gs, userId, reviewId) := r.1]
              && r.1 == gs[GuessIndex(gs, userId, reviewId)].(ratingId := ratingId)
    ensures GuessIndex(gs, userId, reviewId) < 0 ==>
              r.0 == gs + [r.1] && r.1 == Guess(newId, userId, reviewId, ratingId, Some(seasonId), None, None)
  {
    var k := GuessIndex(gs, userId, reviewId);
    if k >= 0 then
      var g := gs[k].(ratingId := ratingId);
      (gs[k := g], g)
    else
      var g := Guess(newId, userId, reviewId, ratingId, Some(seasonId), None, None);
      (gs + [g], g)
  }

  /** An upsert never creates a second guess for a (user, review) pair. */
  lemma UpsertKeepsOneGuessPerReview(gs: seq<Guess>, userId: Id, reviewId: Id, ratingId: Id, seasonId: Id, newId: Id)
    requires OneGuessPerReview(gs)
    ensures OneGuessPerReview(UpsertGuess(gs, userId, reviewId, ratingId, seasonId, newId).0)
  {
    var r := UpsertGuess(gs, userId, reviewId, ratingId, seasonId, newId).0;
    var k := GuessIndex(gs, userId, reviewId);
    if k < 0 {
      forall i, j | 0 <= i < j < |r|
        ensures r[i].userId != r[j].userId || r[i].assignmentReviewId != r[j].assignmentReviewId
      {
        if j == |gs| {
          assert r[i] == gs[i];
        }
      }
    }
  }

  /** Every row of `before` is still in place in `after`, possibly with a
      new rating if it is one of `userId`'s guesses; rows after it are new. */
  predicate OnlyRatingsOf(before: seq<Guess>, after: seq<Guess>, userId: Id) {
    && |before| <= |after|
    && forall j :: 0 <= j < |before| ==>
         after[j] == before[j] || (before[j].userId == userId && after[j] == before[j].(ratingId := after[j].ratingId))
  }

  lemma UpsertOnlyRatings(before: seq<Guess>, gs: seq<Guess>, userId: Id, reviewId: Id, ratingId: Id, seasonId: Id, newId: Id)
    requires OnlyRatingsOf(before, gs, userId)
    ensures OnlyRatingsOf(before, UpsertGuess(gs, userId, reviewId, ratingId, seasonId, newId).0, userId)
  {
  }

  /** A row the upserts created: the user's, in the season, with no score
      and no point yet. */
  predicate NewGuessIn(g: Guess, userId: Id, seasonId: Id) {
    g.userId == userId && g.seasonId == Some(seasonId) && g.points.None? && g.pointsId.None?
  }

  /** The upserts of the transaction as a fold over the inputs: each input
      guess, in order, is upserted on the review it resolved to
      (`reviewIds[i]`, `None` when the host has no review of the movie on
      the assignment). The first guess without a review aborts; the failure
      carries its index. On success: the final table and the row written
      for each input. */
  function Upserts(
    gs: seq<Guess>, userId: Id, seasonId: Id,
    reviewIds: seq<Option<Id>>, ratings: seq<Id>, newIds: seq<Id>): (r: Result<(seq<Guess>, seq<Guess>), nat>)
    requires |reviewIds| == |ratings| == |newIds|
    ensures r.Success? <==> forall i :: 0 <= i < |reviewIds| ==> reviewIds[i].Some?
    ensures r.Failure? ==>
              && r.error < |reviewIds| && reviewIds[r.error].None?
              && forall i :: 0 <= i < r.error ==> reviewIds[i].Some?
    decreases |reviewIds|
  {
    if |reviewIds| == 0 then Success((gs, []))
    else
      var n := |reviewIds| - 1;
      var prev := Upserts(gs, userId, seasonId, reviewIds[..n], ratings[..n], newIds[..n]);
      if prev.Failure? then prev
      else if reviewIds[n].None? then Failure(n)
      else
        var step := UpsertGuess(prev.value.0, userId, reviewIds[n].value, ratings[n], seasonId, newIds[n]);
        Success((step.0, prev.value.1 + [step.1]))
  }

  /** A successful fold over a non-empty input is the fold over all but
      the last input, then one upsert. */
  lemma UpsertsUnfold(
    gs: seq<Guess>, userId: Id, seasonId: Id,
    reviewIds: seq<Option<Id>>, ratings: seq<Id>, newIds: seq<Id>)
    requires |reviewIds| == |ratings| == |newIds| > 0
    requires Upserts(gs, userId, seasonId, reviewIds, ratings, newIds).Success?
    ensures var n := |reviewIds| - 1;
            var prev := Upserts(gs, userId, seasonId, reviewIds[..n], ratings[..n], newIds[..n]);
            && prev.Success?
            && reviewIds[n].Some?
            && var step := UpsertGuess(prev.value.0, userId, reviewIds[n].value, ratings[n], seasonId, newIds[n]);
               Upserts(gs, userId, seasonId, reviewIds, ratings, newIds).value == (step.0, prev.value.1 + [step.1])
  {
  }

  /** What a successful fold does to the table: existing rows keep their
      place and only the user's ratings change, every added row is a new
      row of the user in the season, and at most one guess per (user,
      review) is kept. */
  lemma {:induction false} UpsertsTable(
    gs: seq<Guess>, userId: Id, seasonId: Id,
    reviewIds: seq<Option<Id>>, ratings: seq<Id>, newIds: seq<Id>)
    requires |reviewIds| == |ratings| == |newIds|
    requires Upserts(gs, userId, seasonId, reviewIds, ratings, newIds).Success?
    ensures var t := Upserts(gs, userId, seasonId, reviewIds, ratings, newIds).value.0;
            && OnlyRatingsOf(gs, t, userId)
            && (OneGuessPerReview(gs) ==> OneGuessPerReview(t))
            && forall j :: |gs| <= j < |t| ==> NewGuessIn(t[j], userId, seasonId)
    decreases |reviewIds|
  {
    if |reviewIds| > 0 {
      var n := |reviewIds| - 1;
      UpsertsUnfold(gs, userId, seasonId, reviewIds, ratings, newIds);
      UpsertsTable(gs, userId, seasonId, reviewIds[..n], ratings[..n], newIds[..n]);
      var table := Upserts(gs, userId, seasonId, reviewIds[..n], ratings[..n], newIds[..n]).value.0;
      UpsertOnlyRatings(gs, table, userId, reviewIds[n].value, ratings[n], seasonId, newIds[n]);
      UpsertKeepsNew(gs, table, userId, reviewIds[n].value, ratings[n], seasonId, newIds[n]);
      if OneGuessPerReview(gs) {
        UpsertKeepsOneGuessPerReview(table, userId, reviewIds[n].value, ratings[n], seasonId, newIds[n]);
      }
    }
  }

  /** A successful fold has one result row per input, the user's, with the
      input's rating on the input's review. */
  lemma {:induction false} UpsertsResults(
    gs: seq<Guess>, userId: Id, seasonId: Id,
    reviewIds: seq<Option<Id>>, ratings: seq<Id>, newIds: seq<Id>)
    requires |reviewIds| == |ratings| == |newIds|
    requires Upserts(gs, userId, seasonId, reviewIds, ratings, newIds).Success?
    ensures var rs := Upserts(gs, userId, seasonId, reviewIds, ratings, newIds).value.1;
            && |rs| == |reviewIds|
            && forall i :: 0 <= i < |reviewIds| ==>
                 && rs[i].userId == userId
                 && rs[i].ratingId == ratings[i]
                 && Some(rs[i].assignmentReviewId) == reviewIds[i]
    decreases |reviewIds|
  {
    if |reviewIds| > 0 {
      var n := |reviewIds| - 1;
      UpsertsUnfold(gs, userId, seasonId, reviewIds, ratings, newIds);
      UpsertsResults(gs, userId, seasonId, reviewIds[..n], ratings[..n], newIds[..n]);
    }
  }

  /** An upsert keeps every row past `|before|` a new row of the season. */
  lemma UpsertKeepsNew(before: seq<Guess>, gs: seq<Guess>, userId: Id, reviewId: Id, ratingId: Id, seasonId: Id, newId: Id)
    requires |before| <= |gs|
    requires forall j :: |before| <= j < |gs| ==> NewGuessIn(gs[j], userId, seasonId)
    ensures var after := UpsertGuess(gs, userId, reviewId, ratingId, seasonId, newId).0;
            forall j :: |before| <= j < |after| ==> NewGuessIn(after[j], userId, seasonId)
  {
  }

  /** Last write wins: the row written for an input whose review no later
      input names is in the final table. */
  lemma {:induction false} UpsertsStoreLast(
    gs: seq<Guess>, userId: Id, seasonId: Id,
    reviewIds: seq<Option<Id>>, ratings: seq<Id>, newIds: seq<Id>, i: nat)
    requires |reviewIds| == |ratings| == |newIds|
    requires Upserts(gs, userId, seasonId, reviewIds, ratings, newIds).Success?
    requires i < |reviewIds|
    requires forall j :: i < j < |reviewIds| ==> reviewIds[j] != reviewIds[i]
    ensures var r := Upserts(gs, userId, seasonId, reviewIds, ratings, newIds).value;
            i < |r.1| && r.1[i] in r.0
    decreases |reviewIds|
  {
    var n := |reviewIds| - 1;
    UpsertsUnfold(gs, userId, seasonId, reviewIds, ratings, newIds);
    UpsertsResults(gs, userId, seasonId, reviewIds, ratings, newIds);
    var prev := Upserts(gs, userId, seasonId, reviewIds[..n], ratings[..n], newIds[..n]);
    var step := UpsertGuess(prev.value.0, userId, reviewIds[n].value, ratings[n], seasonId, newIds[n]);
    var r := Upserts(gs, userId, seasonId, reviewIds, ratings, newIds).value;
    if i == n {
      var k := GuessIndex(prev.value.0, userId, reviewIds[n].value);
      if k >= 0 {
        assert step.0[k] == step.1;
      } else {
        assert step.0[|prev.value.0|] == step.1;
      }
    } else {
      UpsertsStoreLast(gs, userId, seasonId, reviewIds[..n], ratings[..n], newIds[..n], i);
      UpsertsResults(gs, userId, seasonId, reviewIds[..n], ratings[..n], newIds[..n]);
      var x := prev.value.1[i];
      assert r.1[i] == x;
      var p := IndexOf(prev.value.0, x);
      var k := GuessIndex(prev.value.0, userId, reviewIds[n].value);
      assert Some(x.assignmentReviewId) == reviewIds[i] != reviewIds[n];
      if k >= 0 {
        assert p != k;
        assert step.0[p] == x;
      } else {
        assert step.0[p] == x;
      }
    }
  }

  /** One more input extends the fold by one upsert. */
  lemma UpsertsSnoc(
    gs: seq<Guess>, userId: Id, seasonId: Id,
    reviewIds: seq<Option<Id>>, ratings: seq<Id>, newIds: seq<Id>, i: nat)
    requires |reviewIds| == |ratings| == |newIds| && i < |reviewIds|
    requires Upserts(gs, userId, seasonId, reviewIds[..i], ratings[..i], newIds[..i]).Success?
    requires reviewIds[i].Some?
    ensures var prev := Upserts(gs, userId, seasonId, reviewIds[..i], ratings[..i], newIds[..i]).value;
            var step := UpsertGuess(prev.0, userId, reviewIds[i].value, ratings[i], seasonId, newIds[i]);
            Upserts(gs, userId, seasonId, reviewIds[..i + 1], ratings[..i + 1], newIds[..i + 1])
            == Success((step.0, prev.1 + [step.1]))
  {
    assert reviewIds[..i + 1][..i] == reviewIds[..i];
    assert ratings[..i + 1][..i] == ratings[..i];
    assert newIds[..i + 1][..i] == newIds[..i];
  }

  /** The loop inside the transaction, which computes `Upserts`. */
  method ApplyGuesses(
    guesses: seq<Guess>, userId: Id, seasonId: Id,
    reviewIds: seq<Option<Id>>, ratings: seq<Id>, newIds: seq<Id>)
    returns (r: Result<(seq<Guess>, seq<Guess>), nat>)
    requires |reviewIds| == |ratings| == |newIds|
    ensures r == Upserts(guesses, userId, seasonId, reviewIds, ratings, newIds)
    ensures r.Success? <==> forall i :: 0 <= i < |reviewIds| ==> reviewIds[i].Some?
    ensures r.Failure? ==>
              && r.error < |reviewIds| && reviewIds[r.error].None?
              && forall i :: 0 <= i < r.error ==> reviewIds[i].Some?
    ensures r.Success? ==>
              && OnlyRatingsOf(guesses, r.value.0, userId)
              && (OneGuessPerReview(guesses) ==> OneGuessPerReview(r.value.0))
              && forall j :: |guesses| <= j < |r.value.0| ==> NewGuessIn(r.value.0[j], userId, seasonId)
    ensures r.Success? ==>
              && |r.value.1| == |reviewIds|
              && forall i :: 0 <= i < |reviewIds| ==>
                   && r.value.1[i].userId == userId
                   && r.value.1[i].ratingId == ratings[i]
                   && Some(r.value.1[i].assignmentReviewId) == reviewIds[i]
  {
    var gs := guesses;
    var results: seq<Guess> := [];
    var i := 0;
    while i < |reviewIds|
      invariant 0 <= i <= |reviewIds|
      invariant forall j :: 0 <= j < i ==> reviewIds[j].Some?
      invariant Upserts(guesses, userId, seasonId, reviewIds[..i], ratings[..i], newIds[..i]) == Success((gs, results))
    {
      if reviewIds[i].None? {
        return Failure(i);
      }
      var step := UpsertGuess(gs, userId, reviewIds[i].value, ratings[i], seasonId, newIds[i]);
      UpsertsSnoc(guesses, userId, seasonId, reviewIds, ratings, newIds, i);
      gs := step.0;
      results := results + [step.1];
      i := i + 1;
    }
    assert reviewIds[..i] == reviewIds && ratings[..i] == ratings && newIds[..i] == newIds;
    UpsertsTable(guesses, userId, seasonId, reviewIds, ratings, newIds);
    UpsertsResults(guesses, userId, seasonId, reviewIds, ratings, newIds);
    return Success((gs, results));
  }

  /** The id of the review each input guess is about. */
  function ReviewIds(db: Db, assignmentId: Id, movieId: Id, guesses: seq<GuessInput>): (r: seq<Option<Id>>)
    ensures |r| == |guesses|
    ensures forall i :: 0 <= i < |guesses| ==> (r[i].Some? <==> AdminReview(db, assignmentId, guesses[i].adminId, movieId).Some?)
    ensures forall i :: 0 <= i < |guesses| && r[i].Some? ==>
              r[i].value == AdminReview(db, assignmentId, guesses[i].adminId, movieId).value.id
  {
    seq(|guesses|, i requires 0 <= i < |guesses| =>
      match AdminReview(db, assignmentId, guesses[i].adminId, movieId)
      case Some(ar) => Some(ar.id)
      case None => None)
  }

  function Ratings(guesses: seq<GuessInput>): (r: seq<Id>)
    ensures |r| == |guesses|
    ensures forall i :: 0 <= i < |guesses| ==> r[i] == guesses[i].ratingId
  {
    seq(|guesses|, i requires 0 <= i < |guesses| => guesses[i].ratingId)
  }

  /** The preconditions `addOrUpdateGuessesForUser` checks before its
      transaction. */
  predicate Admitted(db: Db, callerId: Id, currentSeasonId: Option<Id>, assignmentId: Id) {
    && IsAdmin(db.userRoles, callerId)
    && Truthy(currentSeasonId)
    && FindSeason(db, currentSeasonId.value).Some?
    && FindAssignment(db, assignmentId).Some?
  }

  /** `addOrUpdateGuessesForUser`. The checks run in order: the caller must
      be an admin, a current season must exist, the assignment must exist.
      Then, inside one transaction, each input guess is matched to the
      host's review of the assignment's movie and upserted; a guess without
      such a review aborts the transaction, so nothing is written. */
  method AddOrUpdateGuesses(
    db: Db, callerId: Id, currentSeasonId: Option<Id>, assignmentId: Id, userId: Id,
    guesses: seq<GuessInput>, newIds: seq<Id>)
    returns (r: Result<(Db, seq<Guess>), ApiError>)
    requires |newIds| == |guesses|
    ensures !IsAdmin(db.userRoles, callerId) ==> r == Failure(Unauthorized)
    ensures IsAdmin(db.userRoles, callerId) && !(Truthy(currentSeasonId) && FindSeason(db, currentSeasonId.value).Some?) ==>
              r == Failure(Failed(NoActiveSeason))
    ensures (IsAdmin(db.userRoles, callerId) && Truthy(currentSeasonId) && FindSeason(db, currentSeasonId.value).Some?
             && FindAssignment(db, assignmentId).None?) ==> r == Failure(Failed(AssignmentNotFound))
    ensures r.Failure? && Admitted(db, callerId, currentSeasonId, assignmentId) ==>
              exists i :: 0 <= i < |guesses|
                && AdminReview(db, assignmentId, guesses[i].adminId, FindAssignment(db, assignmentId).value.movieId).None?
                && r.error == Failed(MissingReview(guesses[i].adminId))
    ensures r.Success? <==>
              && Admitted(db, callerId, currentSeasonId, assignmentId)
              && forall i :: 0 <= i < |guesses| ==>
                   AdminReview(db, assignmentId, guesses[i].adminId, FindAssignment(db, assignmentId).value.movieId).Some?
    ensures r.Success? ==>
              && r.value.0 == db.(guesses := r.value.0.guesses)
              && OnlyRatingsOf(db.guesses, r.value.0.guesses, userId)
              && (OneGuessPerReview(db.guesses) ==> OneGuessPerReview(r.value.0.guesses))
              && |r.value.1| == |guesses|
              && forall i :: 0 <= i < |guesses| ==>
                   && r.value.1[i].userId == userId
                   && r.value.1[i].ratingId == guesses[i].ratingId
                   && r.value.1[i].assignmentReviewId
                      == AdminReview(db, assignmentId, guesses[i].adminId, FindAssignment(db, assignmentId).value.movieId).value.id
    ensures r.Success? ==>
              && Upserts(db.guesses, userId, currentSeasonId.value,
                         ReviewIds(db, assignmentId, FindAssignment(db, assignmentId).value.movieId, guesses),
                         Ratings(guesses), newIds) == Success((r.value.0.guesses, r.value.1))
              && forall j :: |db.guesses| <= j < |r.value.0.guesses| ==>
                   NewGuessIn(r.value.0.guesses[j], userId, currentSeasonId.value)
  {
    if !IsAdmin(db.userRoles, callerId) {
      return Failure(Unauthorized);
    }
    if !(Truthy(currentSeasonId) && FindSeason(db, currentSeasonId.value).Some?) {
      return Failure(Failed(NoActiveSeason));
    }
    var season := FindSeason(db, currentSeasonId.value).value;
    var assignment := FindAssignment(db, assignmentId);
    if assignment.None? {
      return Failure(Failed(AssignmentNotFound));
    }
    var reviewIds := ReviewIds(db, assignmentId, assignment.value.movieId, guesses);
    var applied := ApplyGuesses(db.guesses, userId, season.id, reviewIds, Ratings(guesses), newIds);
    if applied.Failure? {
      return Failure(Failed(MissingReview(guesses[applied.error].adminId)));
    }
    return Success((db.(guesses := applied.value.0), applied.value.1));
  }

  /** The rows `getForUser` keeps: the user's, in the season `filter`
      names (any season when it names none). */
  function InView(userId: Id, filter: Option<Id>): Guess -> bool {
    (g: Guess) => g.userId == userId && PassesSeasonFilter(g.seasonId, filter)
  }

  /** `getForUser`: the user's guesses in the season the `seasonId`
      argument resolves to, the current season when it is omitted. */
  function GetForUser(db: Db, userId: Id, seasonId: Option<string>, currentSeasonId: Option<Id>): (r: seq<Guess>)
    ensures forall i :: 0 <= i < |r| ==> r[i] in db.guesses && r[i].userId == userId
    ensures seasonId == Some("all") || (!Truthy(seasonId) && !Truthy(currentSeasonId)) ==>
              forall j :: 0 <= j < |db.guesses| && db.guesses[j].userId == userId ==> db.guesses[j] in r
    ensures Truthy(seasonId) && seasonId != Some("all") ==>
              forall g :: g in r <==> g in db.guesses && g.userId == userId && g.seasonId == seasonId
    ensures !Truthy(seasonId) && Truthy(currentSeasonId) ==>
              forall g :: g in r <==> g in db.guesses && g.userId == userId && g.seasonId == currentSeasonId
  {
    Filter(db.guesses, InView(userId, ResolveSeasonFilter(seasonId, currentSeasonId)))
  }

  /** A named season's view is the `"all"` view narrowed to that season,
      in the same order, whatever the current season. */
  lemma SeasonViewNarrowsAll(db: Db, userId: Id, season: string, currentSeasonId: Option<Id>)
    requires season != "" && season != "all"
    ensures GetForUser(db, userId, Some(season), currentSeasonId)
            == Filter(GetForUser(db, userId, Some("all"), currentSeasonId), (g: Guess) => g.seasonId == Some(season))
  {
    var all := InView(userId, None);
    var one := InView(userId, Some(season));
    assert GetForUser(db, userId, Some("all"), currentSeasonId) == Filter(db.guesses, all);
    assert GetForUser(db, userId, Some(season), currentSeasonId) == Filter(db.guesses, one);
    FilterFilter(db.guesses, all, (g: Guess) => g.seasonId == Some(season), one);
  }

  function GuessById(gs: seq<Guess>, id: Id): (r: int)
    ensures -1 <= r < |gs|
    ensures r >= 0 ==> gs[r].id == id
    ensures r >= 0 ==> forall j :: 0 <= j < r ==> gs[j].id != id
    ensures r < 0 <==> forall j :: 0 <= j < |gs| ==> gs[j].id != id
  {
    FirstIndex(gs, (g: Guess) => g.id == id)
  }

  /** The point's type resolves: a truthy `gamePointId`, or else some game
      point type with the GUESS lookup id. */
  predicate GuessPointTypeResolves(db: Db, gamePointId: Option<int>) {
    (gamePointId.Some? && gamePointId.value != 0)
    || exists j :: 0 <= j < |db.gamePointTypes| && db.gamePointTypes[j].lookupID == GuessLookup
  }

  /** `addPointForGuess`: a point carrying the adjustment, linked to the
      guess. A falsy `gamePointId` defaults to the game point type whose
      lookup id is `guess`; without one nothing is written. Prisma throws
      when the point connects a missing guess. */
  function AddPointForGuess(
    db: Db, userId: Id, seasonId: Id, guessId: Id, adjustment: int, reason: string,
    gamePointId: Option<int>, now: int, newPointId: Id): (r: Result<Db, ApiError>)
    ensures (gamePointId.None? || gamePointId.value == 0) &&
            (forall j :: 0 <= j < |db.gamePointTypes| ==> db.gamePointTypes[j].lookupID != GuessLookup) ==>
              r == Failure(Failed(GamePointNotFound))
    ensures GuessById(db.guesses, guessId) < 0 ==> r.Failure? && r.error in {Internal, Failed(GamePointNotFound)}
    ensures GuessById(db.guesses, guessId) < 0 && gamePointId.Some? && gamePointId.value != 0 ==> r == Failure(Internal)
    ensures GuessById(db.guesses, guessId) < 0 && GuessPointTypeResolves(db, gamePointId) ==> r == Failure(Internal)
    ensures r.Success? <==> GuessPointTypeResolves(db, gamePointId) && GuessById(db.guesses, guessId) >= 0
    ensures r.Success? ==> |r.value.points| == |db.points| + 1
    ensures r.Success? ==>
              var k := GuessById(db.guesses, guessId);
              var typeId := r.value.points[|db.points|].gamePointTypeId;
              && 0 <= k
              && r.value.points == db.points + [Point(newPointId, userId, Some(seasonId), None, Some(adjustment),
                                                      Some(reason), typeId, now)]
              && r.value.guesses == db.guesses[k := db.guesses[k].(pointsId := Some(newPointId))]
              && r.value == db.(points := r.value.points, guesses := r.value.guesses)
              && (gamePointId.Some? && gamePointId.value != 0 ==> typeId == gamePointId)
              && (gamePointId.None? || gamePointId.value == 0 ==>
                    && typeId.Some?
                    && exists j :: (0 <= j < |db.gamePointTypes| &&
                      db.gamePointTypes[j].id == typeId.value && db.gamePointTypes[j].lookupID == GuessLookup))
  {
    var typeId: Result<int, ApiError> :=
      if gamePointId.Some? && gamePointId.value != 0 then Success(gamePointId.value)
      else
        match First(db.gamePointTypes, (t: GamePointType) => t.lookupID == GuessLookup)
        case None => Failure(Failed(GamePointNotFound))
        case Some(t) => Success(t.id);
    if typeId.Failure? then Failure(typeId.error)
    else
      var k := GuessById(db.guesses, guessId);
      if k < 0 then Failure(Internal)
      else
        var point := Point(newPointId, userId, Some(seasonId), None, Some(adjustment), Some(reason),
                           Some(typeId.value), now);
        Success(db.(points := db.points + [point],
                    guesses := db.guesses[k := db.guesses[k].(pointsId := Some(newPointId))]))
  }
}

=== FILE: movie_table.dfy ===
/** The movies page: the sort-header cycle, the filtered and sorted table,
    the TMDB search switch and the payload of "add from TMDB". */
module MovieTable {
  import opened Wrappers
  import opened Schema
  import opened Seqs
  import JsText
  import Catalog

  /** A movie row: `_count.reviews` may be missing. */
  datatype MovieRow = MovieRow(id: Id, title: string, year: int, reviews: Option<int>)

  datatype Direction = Asc | Desc

  /** `sortConfig`; a `None` direction means unsorted. */
  datatype SortConfig = SortConfig(key: string, direction: Option<Direction>)

  const InitialSort := SortConfig("title", Some(Asc))

  // ---------------------------------------------------------------------
  // handleSort

  /** Clicking a header: the same key goes asc, desc, unsorted, and round
      again; another key starts at asc. */
  function HandleSort(c: SortConfig, key: string): (r: SortConfig)
    ensures r.key == key
    ensures c.key != key ==> r.direction == Some(Asc)
    ensures c.key == key && c.direction == Some(Asc) ==> r.direction == Some(Desc)
    ensures c.key == key && c.direction == Some(Desc) ==> r.direction.None?
    ensures c.key == key && c.direction.None? ==> r.direction == Some(Asc)
  {
    var direction :=
      if c.key == key && c.direction == Some(Asc) then Some(Desc)
      else if c.key == key && c.direction == Some(Desc) then None
      else Some(Asc);
    SortConfig(key, direction)
  }

  /** Three clicks on the current key come back to where they started. */
  lemma HandleSortCycle(c: SortConfig)
    ensures HandleSort(HandleSort(HandleSort(c, c.key), c.key), c.key) == c
    ensures HandleSort(c, c.key) != c
  {
    match c.direction
    case None =>
    case Some(Asc) =>
    case Some(Desc) =>
  }

  // ---------------------------------------------------------------------
  // The comparator

  /** A sort value: a string, a number, or `undefined` for a key the rows
      do not have. */
  datatype Value = Str(s: string) | Num(n: int) | Undefined

  /** `a < b` on values of one kind; `undefined` is never smaller. */
  predicate ValueLess(a: Value, b: Value) {
    match (a, b)
    case (Str(x), Str(y)) => JsText.StrLess(x, y)
    case (Num(x), Num(y)) => x < y
    case _ => false
  }

  /** The value a row is sorted by: `reviews` counts a missing count as 0. */
  function SortValue(m: MovieRow, key: string): (r: Value)
    ensures key == "title" ==> r == Str(m.title)
    ensures key == "year" ==> r == Num(m.year)
    ensures key == "reviews" && m.reviews.Some? ==> r == Num(m.reviews.value)
    ensures key == "reviews" && m.reviews.None? ==> r == Num(0)
    ensures key !in {"title", "year", "reviews"} ==> r == Undefined
  {
    if key == "reviews" then Num(m.reviews.GetOr(0))
    else if key == "title" then Str(m.title)
    else if key == "year" then Num(m.year)
    else Undefined
  }

  /** The comparator passed to `items.sort`. */
  function Compare(key: string, dir: Direction, a: MovieRow, b: MovieRow): (r: int)
    ensures -1 <= r <= 1
    ensures r == 0 <==> !ValueLess(SortValue(a, key), SortValue(b, key)) && !ValueLess(SortValue(b, key), SortValue(a, key))
  {
    var x := SortValue(a, key);
    var y := SortValue(b, key);
    if ValueLess(x, y) then (if dir == Asc then -1 else 1)
    else if ValueLess(y, x) then (if dir == Asc then 1 else -1)
    else 0
  }

  /** `a` may come before `b`. */
  predicate InOrder(key: string, dir: Direction, a: MovieRow, b: MovieRow) {
    Compare(key, dir, a, b) <= 0
  }

  lemma ValueLessStrict(a: Value, b: Value)
    ensures !(ValueLess(a, b) && ValueLess(b, a))
  {
    if a.Str? && b.Str? {
      JsText.StrLessStrictTotal(a.s, b.s);
    }
  }

  /** Swapping the arguments negates the comparator. */
  lemma CompareAntisymmetric(key: string, dir: Direction, a: MovieRow, b: MovieRow)
    ensures Compare(key, dir, a, b) == -Compare(key, dir, b, a)
  {
    ValueLessStrict(SortValue(a, key), SortValue(b, key));
  }

  /** Any two rows are in order one way or the other. */
  lemma InOrderTotal(key: string, dir: Direction, a: MovieRow, b: MovieRow)
    ensures InOrder(key, dir, a, b) || InOrder(key, dir, b, a)
  {
    CompareAntisymmetric(key, dir, a, b);
  }

  /** Not smaller is transitive, because `<` on one kind of value is a
      strict total order. */
  lemma NotLessTransitive(a: Value, b: Value, c: Value)
    requires a.Str? == b.Str? == c.Str? && a.Num? == b.Num? == c.Num?
    requires !ValueLess(b, a) && !ValueLess(c, b)
    ensures !ValueLess(c, a)
  {
    if a.Str? {
      JsText.StrLessStrictTotal(a.s, b.s);
      if ValueLess(c, a) {
        if a.s != b.s {
          JsText.StrLessTransitive(c.s, a.s, b.s);
        }
      }
    }
  }

  lemma InOrderTransitive(key: string, dir: Direction, a: MovieRow, b: MovieRow, c: MovieRow)
    requires InOrder(key, dir, a, b) && InOrder(key, dir, b, c)
    ensures InOrder(key, dir, a, c)
  {
    var x, y, z := SortValue(a, key), SortValue(b, key), SortValue(c, key);
    ValueLessStrict(x, y);
    ValueLessStrict(y, z);
    ValueLessStrict(x, z);
    if dir == Asc {
      NotLessTransitive(x, y, z);
    } else {
      NotLessTransitive(z, y, x);
    }
  }

  // ---------------------------------------------------------------------
  // Sorting (a stable insertion sort, like the engine's stable `sort`)

  /** The comparator's "may come first" as a relation. */
  function Le(key: string, dir: Direction): (MovieRow, MovieRow) -> bool {
    (a: MovieRow, b: MovieRow) => InOrder(key, dir, a, b)
  }

  predicate Sorted(key: string, dir: Direction, s: seq<MovieRow>) {
    SortedBy(s, Le(key, dir))
  }

  /** The comparator orders rows totally and transitively, so sorting by it
      is well defined. */
  lemma LeTotalPreorder(key: string, dir: Direction)
    ensures TotalPreorder(Le(key, dir))
  {
    forall a, b ensures InOrder(key, dir, a, b) || InOrder(key, dir, b, a) {
      InOrderTotal(key, dir, a, b);
    }
    forall a, b, c | InOrder(key, dir, a, b) && InOrder(key, dir, b, c)
      ensures InOrder(key, dir, a, c)
    {
      InOrderTransitive(key, dir, a, b, c);
    }
  }

  /** The rows in comparator order; rows that compare equal keep their
      relative order. */
  function SortRows(key: string, dir: Direction, xs: seq<MovieRow>): (r: seq<MovieRow>)
    ensures multiset(r) == multiset(xs)
    ensures forall i, j :: 0 <= i < j < |r| ==> InOrder(key, dir, r[i], r[j])
  {
    LeTotalPreorder(key, dir);
    var r := SortBy(xs, Le(key, dir));
    SortedInOrder(key, dir, r);
    r
  }

  /** A list sorted by the comparator has every pair in comparator order. */
  lemma SortedInOrder(key: string, dir: Direction, s: seq<MovieRow>)
    requires Sorted(key, dir, s)
    ensures forall i, j :: 0 <= i < j < |s| ==> InOrder(key, dir, s[i], s[j])
  {
    forall i, j | 0 <= i < j < |s| ensures InOrder(key, dir, s[i], s[j]) {
      assert Le(key, dir)(s[i], s[j]);
    }
  }

  // ---------------------------------------------------------------------
  // sortedMovies

  function TitleMatches(filter: string): MovieRow -> bool {
    (m: MovieRow) => JsText.Includes(JsText.ToLower(m.title), JsText.ToLower(filter))
  }

  /** Case-insensitive title filter. */
  function FilterRows(ms: seq<MovieRow>, filter: string): (r: seq<MovieRow>)
    ensures forall i :: 0 <= i < |r| ==> r[i] in ms && JsText.Includes(JsText.ToLower(r[i].title), JsText.ToLower(filter))
    ensures forall i :: 0 <= i < |ms| && JsText.Includes(JsText.ToLower(ms[i].title), JsText.ToLower(filter)) ==> ms[i] in r
  {
    Filter(ms, TitleMatches(filter))
  }

  /** An empty filter keeps every row, in order. */
  lemma EmptyFilterKeepsAll(ms: seq<MovieRow>)
    ensures FilterRows(ms, "") == ms
  {
    forall i | 0 <= i < |ms| ensures TitleMatches("")(ms[i]) {
      JsText.IncludesEmpty(JsText.ToLower(ms[i].title));
    }
    FilterAll(ms, TitleMatches(""));
  }

  /** `sortedMovies`: filter, then sort when a direction is set. */
  function SortedMovies(ms: seq<MovieRow>, filter: string, c: SortConfig): (r: seq<MovieRow>)
    ensures (c.key == "" || c.direction.None?) ==> r == FilterRows(ms, filter)
    ensures multiset(r) == multiset(FilterRows(ms, filter))
    ensures c.key != "" && c.direction.Some? ==> Sorted(c.key, c.direction.value, r)
  {
    var items := FilterRows(ms, filter);
    if c.key != "" && c.direction.Some? then SortRows(c.key, c.direction.value, items) else items
  }

  /** The number a numeric key sorts by. */
  function NumKey(m: MovieRow, key: string): (r: int)
    ensures key in {"year", "reviews"} ==> SortValue(m, key) == Num(r)
  {
    if key == "reviews" then m.reviews.GetOr(0) else m.year
  }

  /** Ascending by a numeric key gives non-decreasing values, descending
      non-increasing ones. */
  lemma NumericOrder(ms: seq<MovieRow>, filter: string, c: SortConfig, i: nat, j: nat)
    requires c.key in {"year", "reviews"} && c.direction.Some?
    requires i < j < |SortedMovies(ms, filter, c)|
    ensures var r := SortedMovies(ms, filter, c);
            c.direction == Some(Asc) ==> NumKey(r[i], c.key) <= NumKey(r[j], c.key)
    ensures var r := SortedMovies(ms, filter, c);
            c.direction == Some(Desc) ==> NumKey(r[i], c.key) >= NumKey(r[j], c.key)
  {
    var r := SortedMovies(ms, filter, c);
    assert InOrder(c.key, c.direction.value, r[i], r[j]);
    NumInOrder(c.key, c.direction.value, r[i], r[j]);
  }

  /** Sorting the same rows ascending and descending by a numeric key
      lists their values in exactly opposite order. */
  lemma DescIsReverseOfAsc(items: seq<MovieRow>, key: string, i: nat)
    requires key in {"year", "reviews"}
    requires i < |items|
    ensures |SortRows(key, Asc, items)| == |items| && |SortRows(key, Desc, items)| == |items|
    ensures NumKey(SortRows(key, Asc, items)[i], key) == NumKey(SortRows(key, Desc, items)[|items| - 1 - i], key)
  {
    var asc := SortNumeric(key, Asc, items);
    var desc := SortNumeric(key, Desc, items);
    MirroredValues(key, asc, desc, items, i);
  }

  /** Sorting by a numeric key orders the rows by value, ascending or
      descending, and only permutes them. */
  lemma SortNumeric(key: string, dir: Direction, items: seq<MovieRow>) returns (r: seq<MovieRow>)
    requires key in {"year", "reviews"}
    ensures r == SortRows(key, dir, items)
    ensures multiset(r) == multiset(items)
    ensures dir == Asc ==> NumAscending(key, r)
    ensures dir == Desc ==> NumDescending(key, r)
  {
    r := SortRows(key, dir, items);
    forall i, j | 0 <= i < j < |r|
      ensures dir == Asc ==> NumKey(r[i], key) <= NumKey(r[j], key)
      ensures dir == Desc ==> NumKey(r[i], key) >= NumKey(r[j], key)
    {
      NumInOrder(key, dir, r[i], r[j]);
    }
  }

  /** Two orders of the same rows, one ascending and one descending by
      value, agree at mirrored positions. */
  lemma MirroredValues(key: string, asc: seq<MovieRow>, desc: seq<MovieRow>, items: seq<MovieRow>, i: nat)
    requires NumAscending(key, asc) && NumDescending(key, desc)
    requires multiset(asc) == multiset(items) && multiset(desc) == multiset(items)
    requires i < |items|
    ensures |asc| == |desc| == |items|
    ensures NumKey(asc[i], key) == NumKey(desc[|desc| - 1 - i], key)
  {
    PermutationSameLength(asc, items);
    PermutationSameLength(desc, items);
    var t := ReverseOfDesc(key, desc);
    SameRankSameValue(key, asc, t, i);
  }

  /** 1 for a row whose value is below `v`, else 0. */
  function Below(key: string, v: int): MovieRow -> int {
    (m: MovieRow) => if NumKey(m, key) < v then 1 else 0
  }

  /** The number of rows whose value is below `v`. */
  function CountBelow(s: seq<MovieRow>, key: string, v: int): int {
    SumBy(s, Below(key, v))
  }

  lemma {:induction false} CountBelowAtMost(s: seq<MovieRow>, key: string, v: int)
    ensures 0 <= CountBelow(s, key, v) <= |s|
    decreases |s|
  {
    if |s| > 0 {
      CountBelowAtMost(s[1..], key, v);
    }
  }

  lemma {:induction false} CountBelowNone(s: seq<MovieRow>, key: string, v: int)
    requires forall j :: 0 <= j < |s| ==> NumKey(s[j], key) >= v
    ensures CountBelow(s, key, v) == 0
    decreases |s|
  {
    if |s| > 0 {
      CountBelowNone(s[1..], key, v);
    }
  }

  lemma {:induction false} CountBelowAll(s: seq<MovieRow>, key: string, v: int)
    requires forall j :: 0 <= j < |s| ==> NumKey(s[j], key) < v
    ensures CountBelow(s, key, v) == |s|
    decreases |s|
  {
    if |s| > 0 {
      CountBelowAll(s[1..], key, v);
    }
  }

  lemma {:induction false} CountBelowMonotone(s: seq<MovieRow>, key: string, v: int, w: int)
    requires v <= w
    ensures CountBelow(s, key, v) <= CountBelow(s, key, w)
    decreases |s|
  {
    if |s| > 0 {
      CountBelowMonotone(s[1..], key, v, w);
    }
  }

  /** The numeric sort values never decrease along `s`. */
  predicate NumAscending(key: string, s: seq<MovieRow>) {
    forall i, j :: 0 <= i < j < |s| ==> NumKey(s[i], key) <= NumKey(s[j], key)
  }

  /** The numeric sort values never increase along `s`. */
  predicate NumDescending(key: string, s: seq<MovieRow>) {
    forall i, j :: 0 <= i < j < |s| ==> NumKey(s[i], key) >= NumKey(s[j], key)
  }

  /** For a numeric key the comparator orders by value. */
  lemma NumInOrder(key: string, dir: Direction, a: MovieRow, b: MovieRow)
    requires key in {"year", "reviews"}
    ensures dir == Asc ==> (InOrder(key, dir, a, b) <==> NumKey(a, key) <= NumKey(b, key))
    ensures dir == Desc ==> (InOrder(key, dir, a, b) <==> NumKey(a, key) >= NumKey(b, key))
  {
  }

  /** By title the comparator orders by JavaScript string comparison: `a`
      may come first unless `b`'s title is smaller (larger, descending). */
  lemma TitleInOrder(dir: Direction, a: MovieRow, b: MovieRow)
    ensures dir == Asc ==> (InOrder("title", dir, a, b) <==> !JsText.StrLess(b.title, a.title))
    ensures dir == Desc ==> (InOrder("title", dir, a, b) <==> !JsText.StrLess(a.title, b.title))
  {
    JsText.StrLessStrictTotal(a.title, b.title);
  }

  /** Rows whose key is not one of the three columns all compare equal, so
      sorting by it keeps every pair in order. */
  lemma OtherKeyInOrder(key: string, dir: Direction, a: MovieRow, b: MovieRow)
    requires key !in {"title", "year", "reviews"}
    ensures InOrder(key, dir, a, b) && InOrder(key, dir, b, a)
  {
  }

  /** In a list sorted ascending, the value `v` at position `i` has at most
      `i` rows below it and more than `i` rows at or below it. */
  lemma AscPosition(key: string, s: seq<MovieRow>, i: nat)
    requires NumAscending(key, s)
    requires i < |s|
    ensures CountBelow(s, key, NumKey(s[i], key)) <= i
    ensures CountBelow(s, key, NumKey(s[i], key) + 1) > i
  {
    AscBelowAtMost(key, s, i);
    AscAtOrBelowMore(key, s, i);
  }

  lemma AscBelowAtMost(key: string, s: seq<MovieRow>, i: nat)
    requires NumAscending(key, s)
    requires i < |s|
    ensures CountBelow(s, key, NumKey(s[i], key)) <= i
  {
    var v := NumKey(s[i], key);
    assert s == s[..i] + s[i..];
    SumByAppend(s[..i], s[i..], Below(key, v));
    CountBelowAtMost(s[..i], key, v);
    var from := s[i..];
    forall j | 0 <= j < |from| ensures NumKey(from[j], key) >= v {
      if j > 0 {
        assert NumKey(s[i], key) <= NumKey(s[i + j], key);
      }
    }
    CountBelowNone(from, key, v);
  }

  lemma AscAtOrBelowMore(key: string, s: seq<MovieRow>, i: nat)
    requires NumAscending(key, s)
    requires i < |s|
    ensures CountBelow(s, key, NumKey(s[i], key) + 1) > i
  {
    var v := NumKey(s[i], key);
    assert s == s[..i + 1] + s[i + 1..];
    SumByAppend(s[..i + 1], s[i + 1..], Below(key, v + 1));
    var upTo := s[..i + 1];
    forall j | 0 <= j < |upTo| ensures NumKey(upTo[j], key) < v + 1 {
      if j < i {
        assert NumKey(s[j], key) <= NumKey(s[i], key);
      }
    }
    CountBelowAll(upTo, key, v + 1);
    CountBelowAtMost(s[i + 1..], key, v + 1);
  }

  /** Reversing a list sorted descending gives ascending values. */
  lemma ReverseOfDesc(key: string, s: seq<MovieRow>) returns (t: seq<MovieRow>)
    requires NumDescending(key, s)
    ensures |t| == |s| && multiset(t) == multiset(s) && NumAscending(key, t)
    ensures forall i :: 0 <= i < |s| ==> t[i] == s[|s| - 1 - i]
  {
    t := seq(|s|, i requires 0 <= i < |s| => s[|s| - 1 - i]);
    ReverseMultiset(s, t);
    forall i, j | 0 <= i < j < |t| ensures NumKey(t[i], key) <= NumKey(t[j], key) {
      assert NumKey(s[|s| - 1 - j], key) >= NumKey(s[|s| - 1 - i], key);
    }
  }

  lemma {:induction false} ReverseMultiset(s: seq<MovieRow>, t: seq<MovieRow>)
    requires |t| == |s|
    requires forall i :: 0 <= i < |s| ==> t[i] == s[|s| - 1 - i]
    ensures multiset(t) == multiset(s)
    decreases |s|
  {
    if |s| > 0 {
      var n := |s|;
      ReverseMultiset(s[1..], t[..n - 1]);
      assert s == [s[0]] + s[1..];
      assert t == t[..n - 1] + [t[n - 1]];
    }
  }

  /** Two ascending orders of the same rows hold the same value at each
      position. */
  lemma SameRankSameValue(key: string, s: seq<MovieRow>, t: seq<MovieRow>, i: nat)
    requires NumAscending(key, s) && NumAscending(key, t)
    requires multiset(s) == multiset(t)
    requires i < |s| && i < |t|
    ensures NumKey(s[i], key) == NumKey(t[i], key)
  {
    var a := NumKey(s[i], key);
    var b := NumKey(t[i], key);
    AscPosition(key, s, i);
    AscPosition(key, t, i);
    SumByPermutation(s, t, Below(key, a));
    SumByPermutation(s, t, Below(key, a + 1));
    SumByPermutation(s, t, Below(key, b));
    SumByPermutation(s, t, Below(key, b + 1));
    if a < b {
      CountBelowMonotone(t, key, a + 1, b);
    } else if b < a {
      CountBelowMonotone(s, key, b + 1, a);
    }
  }

  // ---------------------------------------------------------------------
  // TMDB search and add

  /** The TMDB search query runs only for a term longer than two characters. */
  predicate SearchEnabled(term: string) {
    |term| > 2
  }

  /** A TMDB search result: `release_date` and `poster_path` may be missing. */
  datatype TmdbResult = TmdbResult(id: nat, title: string, releaseDate: Option<string>, posterPath: Option<string>)

  const PosterBase := "https://image.tmdb.org/t/p/w500"
  const MovieUrlBase := "https://www.themoviedb.org/movie/"

  /** `handleAdd`'s payload. The year of a release date is `yearOf`. */
  function AddPayload(result: TmdbResult, yearOf: string -> int): (r: Catalog.TitleInput)
    ensures r.title == result.title
    ensures !Truthy(result.releaseDate) ==> r.year == 0
    ensures Truthy(result.releaseDate) ==> r.year == yearOf(result.releaseDate.value)
    ensures !Truthy(result.posterPath) ==> r.poster == ""
    ensures Truthy(result.posterPath) ==> r.poster == PosterBase + result.posterPath.value
    ensures r.url == MovieUrlBase + JsText.DecimalString(result.id)
  {
    Catalog.TitleInput(
      result.title,
      if Truthy(result.releaseDate) then yearOf(result.releaseDate.value) else 0,
      if Truthy(result.posterPath) then PosterBase + result.posterPath.value else "",
      MovieUrlBase + JsText.DecimalString(result.id))
  }

  /** Two TMDB results get the same url exactly when they have the same TMDB
      id, so adding the same film twice updates its row, and adding two
      different films creates two rows. */
  lemma AddPayloadUrlIdentifiesFilm(a: TmdbResult, b: TmdbResult, yearOf: string -> int)
    ensures AddPayload(a, yearOf).url == AddPayload(b, yearOf).url <==> a.id == b.id
  {
    var ua := AddPayload(a, yearOf).url;
    var ub := AddPayload(b, yearOf).url;
    if ua == ub {
      assert ua[|MovieUrlBase|..] == JsText.DecimalString(a.id);
      assert ub[|MovieUrlBase|..] == JsText.DecimalString(b.id);
      JsText.DigitsValueOfDecimal(a.id);
      JsText.DigitsValueOfDecimal(b.id);
    }
  }
}

=== FILE: point_router.dfy ===
/** The point router's `update` (a partial update of one point) and
    `remove` (unlink every reference to a point, then delete it, in one
    transaction). */
module PointRouter {
  import opened Wrappers
  import opened Schema
  import opened Seqs
  import Guesses

  function PointIndex(ps: seq<Point>, id: Id): (r: int)
    ensures -1 <= r < |ps|
    ensures r >= 0 ==> ps[r].id == id
    ensures r >= 0 ==> forall j :: 0 <= j < r ==> ps[j].id != id
    ensures r < 0 <==> forall j :: 0 <= j < |ps| ==> ps[j].id != id
  {
    FirstIndex(ps, (p: Point) => p.id == id)
  }

  /** The optional fields of `update`; `None` is an omitted field. The game
      point type is nullable as well, so `Some(None)` clears it. */
  datatype PointPatch = PointPatch(
    reason: Option<string>,
    adjustment: Option<int>,
    gamePointTypeId: Option<Option<int>>,
    earnedOn: Option<int>)

  const NoChange := PointPatch(None, None, None, None)

  function ApplyPatch(p: Point, patch: PointPatch): (r: Point)
    ensures r.id == p.id && r.userId == p.userId && r.seasonId == p.seasonId && r.value == p.value
    ensures r.reason == (if patch.reason.Some? then patch.reason else p.reason)
    ensures r.adjustment == (if patch.adjustment.Some? then patch.adjustment else p.adjustment)
    ensures r.gamePointTypeId == Patch(p.gamePointTypeId, patch.gamePointTypeId)
    ensures r.earnedOn == Patch(p.earnedOn, patch.earnedOn)
  {
    p.(reason := if patch.reason.Some? then patch.reason else p.reason,
       adjustment := if patch.adjustment.Some? then patch.adjustment else p.adjustment,
       gamePointTypeId := Patch(p.gamePointTypeId, patch.gamePointTypeId),
       earnedOn := Patch(p.earnedOn, patch.earnedOn))
  }

  /** `update`, an admin-only procedure: only the supplied fields of the
      point change, never its id; Prisma throws on a missing point. */
  function Update(db: Db, callerId: Id, id: Id, patch: PointPatch): (r: Result<Db, ApiError>)
    ensures !IsAdmin(db.userRoles, callerId) ==> r == Failure(Unauthorized)
    ensures r.Success? <==> IsAdmin(db.userRoles, callerId) && exists j :: 0 <= j < |db.points| && db.points[j].id == id
    ensures IsAdmin(db.userRoles, callerId) && r.Failure? ==> r.error == Internal
    ensures r.Success? ==> r.value == db.(points := r.value.points) && |r.value.points| == |db.points|
    ensures r.Success? ==> forall j :: 0 <= j < |db.points| ==>
              r.value.points[j] == if j == PointIndex(db.points, id) then ApplyPatch(db.points[j], patch) else db.points[j]
  {
    var k := PointIndex(db.points, id);
    if !IsAdmin(db.userRoles, callerId) then Failure(Unauthorized)
    else if k < 0 then Failure(Internal)
    else Success(db.(points := db.points[k := ApplyPatch(db.points[k], patch)]))
  }

  /** An update with every field omitted changes nothing, and applying the
      same update twice is the same as applying it once. */
  lemma UpdateNoChangeAndIdempotent(db: Db, callerId: Id, id: Id, patch: PointPatch)
    requires Update(db, callerId, id, patch).Success?
    ensures Update(db, callerId, id, NoChange) == Success(db)
    ensures Update(Update(db, callerId, id, patch).value, callerId, id, patch) == Update(db, callerId, id, patch)
  {
    var k := PointIndex(db.points, id);
    assert db.points[k := ApplyPatch(db.points[k], NoChange)] == db.points;
    var after := Update(db, callerId, id, patch).value;
    assert after.points[k].id == id;
    assert forall j :: 0 <= j < k ==> after.points[j] == db.points[j];
    assert PointIndex(after.points, id) == k;
    assert ApplyPatch(after.points[k], patch) == after.points[k];
    assert after.points[k := after.points[k]] == after.points;
  }

  // ---------------------------------------------------------------------
  // remove

  /** Nulling a reference to a point in one table: the rows `linked`
      picks out become `clear` of themselves, the other rows are kept, in
      place. */
  function Unlink<T>(xs: seq<T>, linked: T -> bool, clear: T -> T): (r: seq<T>)
    ensures |r| == |xs|
    ensures forall j :: 0 <= j < |xs| ==> r[j] == if linked(xs[j]) then clear(xs[j]) else xs[j]
  {
    seq(|xs|, j requires 0 <= j < |xs| => if linked(xs[j]) then clear(xs[j]) else xs[j])
  }

  function UnlinkGambles(gs: seq<Gamble>, id: Id): seq<Gamble> {
    Unlink(gs, (g: Gamble) => g.pointsId == Some(id), (g: Gamble) => g.(pointsId := None))
  }

  function UnlinkGuesses(gs: seq<Guess>, id: Id): seq<Guess> {
    Unlink(gs, (g: Guess) => g.pointsId == Some(id), (g: Guess) => g.(pointsId := None))
  }

  function UnlinkTagVotes(vs: seq<TagVote>, id: Id): seq<TagVote> {
    Unlink(vs, (v: TagVote) => v.pointId == Some(id), (v: TagVote) => v.(pointId := None))
  }

  /** Some row of the database refers to point `id`. */
  predicate Referenced(db: Db, id: Id) {
    || (exists j :: 0 <= j < |db.assignmentPoints| && db.assignmentPoints[j].pointsId == id)
    || (exists j :: 0 <= j < |db.gambles| && db.gambles[j].pointsId == Some(id))
    || (exists j :: 0 <= j < |db.guesses| && db.guesses[j].pointsId == Some(id))
    || (exists j :: 0 <= j < |db.tagVotes| && db.tagVotes[j].pointId == Some(id))
  }

  function KeepPoint(id: Id): Point -> bool {
    (p: Point) => p.id != id
  }

  function KeepLink(id: Id): AssignmentPoint -> bool {
    (a: AssignmentPoint) => a.pointsId != id
  }

  /** `remove`, an admin-only procedure: delete the point's assignment
      links, null the references of bets, guesses and tag votes, then delete
      the point. On a missing point Prisma's final delete throws, which
      rolls the whole transaction back. */
  function Remove(db: Db, callerId: Id, id: Id): (r: Result<Db, ApiError>)
    ensures !IsAdmin(db.userRoles, callerId) ==> r == Failure(Unauthorized)
    ensures r.Success? <==> IsAdmin(db.userRoles, callerId) && exists j :: 0 <= j < |db.points| && db.points[j].id == id
    ensures IsAdmin(db.userRoles, callerId) && r.Failure? ==> r.error == Internal
    ensures r.Success? ==>
              && r.value.points == Filter(db.points, KeepPoint(id))
              && r.value.assignmentPoints == Filter(db.assignmentPoints, KeepLink(id))
    ensures r.Success? ==>
              && !Referenced(r.value, id)
              && (forall j :: 0 <= j < |r.value.points| ==> r.value.points[j].id != id)
              && (forall j :: 0 <= j < |db.points| && db.points[j].id != id ==> db.points[j] in r.value.points)
              && (forall j :: 0 <= j < |db.assignmentPoints| && db.assignmentPoints[j].pointsId != id ==>
                    db.assignmentPoints[j] in r.value.assignmentPoints)
              && r.value.gambles == UnlinkGambles(db.gambles, id)
              && r.value.guesses == UnlinkGuesses(db.guesses, id)
              && r.value.tagVotes == UnlinkTagVotes(db.tagVotes, id)
              && r.value == db.(points := r.value.points, assignmentPoints := r.value.assignmentPoints,
                                gambles := r.value.gambles, guesses := r.value.guesses, tagVotes := r.value.tagVotes)
  {
    if !IsAdmin(db.userRoles, callerId) then Failure(Unauthorized)
    else if forall j :: 0 <= j < |db.points| ==> db.points[j].id != id then Failure(Internal)
    else
      Success(db.(
        assignmentPoints := Filter(db.assignmentPoints, KeepLink(id)),
        gambles := UnlinkGambles(db.gambles, id),
        guesses := UnlinkGuesses(db.guesses, id),
        tagVotes := UnlinkTagVotes(db.tagVotes, id),
        points := Filter(db.points, KeepPoint(id))))
  }

  /** Removing a point unlinks only references to that point: a row that
      referred to another point still does. */
  lemma RemoveKeepsOtherLinks(db: Db, callerId: Id, id: Id, other: Id)
    requires other != id
    requires Remove(db, callerId, id).Success?
    ensures Referenced(db, other) ==> Referenced(Remove(db, callerId, id).value, other)
  {
    var after := Remove(db, callerId, id).value;
    if exists j :: 0 <= j < |db.assignmentPoints| && db.assignmentPoints[j].pointsId == other {
      var j :| 0 <= j < |db.assignmentPoints| && db.assignmentPoints[j].pointsId == other;
      LinkSurvives(db.assignmentPoints, j, id);
    } else if exists j :: 0 <= j < |db.gambles| && db.gambles[j].pointsId == Some(other) {
      var j :| 0 <= j < |db.gambles| && db.gambles[j].pointsId == Some(other);
      assert after.gambles[j].pointsId == Some(other);
    } else if exists j :: 0 <= j < |db.guesses| && db.guesses[j].pointsId == Some(other) {
      var j :| 0 <= j < |db.guesses| && db.guesses[j].pointsId == Some(other);
      assert after.guesses[j].pointsId == Some(other);
    } else if exists j :: 0 <= j < |db.tagVotes| && db.tagVotes[j].pointId == Some(other) {
      var j :| 0 <= j < |db.tagVotes| && db.tagVotes[j].pointId == Some(other);
      assert after.tagVotes[j].pointId == Some(other);
    }
  }

  /** An assignment link to another point survives deleting the links to
      `id`. */
  lemma LinkSurvives(aps: seq<AssignmentPoint>, j: nat, id: Id)
    requires j < |aps| && aps[j].pointsId != id
    ensures exists k :: 0 <= k < |Filter(aps, KeepLink(id))| && Filter(aps, KeepLink(id))[k].pointsId == aps[j].pointsId
  {
    var r := Filter(aps, KeepLink(id));
    assert aps[j] in r;
    var k :| 0 <= k < |r| && r[k] == aps[j];
  }

  /** `remove` by an admin undoes `addPointForGuess`: awarding a fresh
      point to a guess that had none and then removing that point gives back
      the database as it was. */
  lemma RemoveUndoesAddPointForGuess(
    db: Db, callerId: Id, userId: Id, seasonId: Id, guessId: Id, adjustment: int, reason: string,
    gamePointId: Option<int>, now: int, newPointId: Id)
    requires IsAdmin(db.userRoles, callerId)
    requires forall j :: 0 <= j < |db.points| ==> db.points[j].id != newPointId
    requires !Referenced(db, newPointId)
    requires Guesses.AddPointForGuess(db, userId, seasonId, guessId, adjustment, reason, gamePointId, now, newPointId).Success?
    requires db.guesses[Guesses.GuessById(db.guesses, guessId)].pointsId.None?
    ensures Remove(Guesses.AddPointForGuess(db, userId, seasonId, guessId, adjustment, reason, gamePointId, now, newPointId).value,
                   callerId, newPointId) == Success(db)
  {
    var after := Guesses.AddPointForGuess(db, userId, seasonId, guessId, adjustment, reason, gamePointId, now, newPointId).value;
    var k := Guesses.GuessById(db.guesses, guessId);
    DropFreshPoint(db.points, after.points[|db.points|], newPointId);
    FilterAll(db.assignmentPoints, KeepLink(newPointId));
    UnlinkGamblesNone(db.gambles, newPointId);
    UnlinkGuessesUndo(db.guesses, k, newPointId);
    UnlinkTagVotesNone(db.tagVotes, newPointId);
  }

  /** Deleting a point that was just appended restores the table. */
  lemma DropFreshPoint(ps: seq<Point>, pt: Point, id: Id)
    requires pt.id == id
    requires forall j :: 0 <= j < |ps| ==> ps[j].id != id
    ensures Filter(ps + [pt], KeepPoint(id)) == ps
  {
    FilterAppend(ps, [pt], KeepPoint(id));
    FilterAll(ps, KeepPoint(id));
    assert Filter([pt], KeepPoint(id)) == [];
  }

  lemma UnlinkGamblesNone(gs: seq<Gamble>, id: Id)
    requires forall j :: 0 <= j < |gs| ==> gs[j].pointsId != Some(id)
    ensures UnlinkGambles(gs, id) == gs
  {
  }

  lemma UnlinkTagVotesNone(vs: seq<TagVote>, id: Id)
    requires forall j :: 0 <= j < |vs| ==> vs[j].pointId != Some(id)
    ensures UnlinkTagVotes(vs, id) == vs
  {
  }

  /** Unlinking a point from the one guess just linked to it, while no other
      guess refers to it, restores the guesses. */
  lemma UnlinkGuessesUndo(gs: seq<Guess>, k: nat, id: Id)
    requires k < |gs| && gs[k].pointsId.None?
    requires forall j :: 0 <= j < |gs| ==> gs[j].pointsId != Some(id)
    ensures UnlinkGuesses(gs[k := gs[k].(pointsId := Some(id))], id) == gs
  {
    var linked := gs[k := gs[k].(pointsId := Some(id))];
    var r := UnlinkGuesses(linked, id);
    forall j | 0 <= j < |gs| ensures r[j] == gs[j] {
      if j == k {
        assert r[j] == gs[k].(pointsId := None);
      }
    }
  }
}

=== FILE: points.dfy ===
/** `calculateUserPoints`: a user's balance is the sum of their point
    values, plus the points of their guesses, plus the net of their gambles,
    each table restricted to the user and (when given) the season. */
module Points {
  import opened Wrappers
  import opened Schema
  import opened Seqs

  /** Prisma's `where: { userId, seasonId }`; a `None` season is
      `seasonId: undefined`, which does not filter. */
  predicate Counts(userId: Id, season: Option<Id>, recordUser: Id, recordSeason: Option<Id>) {
    recordUser == userId && (season.None? || recordSeason == season)
  }

  function PointMatch(userId: Id, season: Option<Id>): Point -> bool {
    (p: Point) => Counts(userId, season, p.userId, p.seasonId)
  }

  function GuessMatch(userId: Id, season: Option<Id>): Guess -> bool {
    (g: Guess) => Counts(userId, season, g.userId, g.seasonId)
  }

  function GambleMatch(userId: Id, season: Option<Id>): Gamble -> bool {
    (g: Gamble) => Counts(userId, season, g.userId, g.seasonId)
  }

  /** `_sum.value` skips nulls, and an all-null sum reads as 0. */
  function PointValue(p: Point): int {
    p.value.GetOr(0)
  }

  function GuessPoints(g: Guess): int {
    g.points.GetOr(0)
  }

  /** A won gamble adds its stake; a lost or still open one subtracts it. */
  function GambleNet(g: Gamble): (r: int)
    ensures g.successful == Some(true) ==> r == g.points
    ensures g.successful != Some(true) ==> r == -g.points
  {
    if g.successful == Some(true) then g.points else -g.points
  }

  function UserPoints(db: Db, userId: Id, season: Option<Id>): int {
    SumBy(Filter(db.points, PointMatch(userId, season)), PointValue)
    + SumBy(Filter(db.guesses, GuessMatch(userId, season)), GuessPoints)
    + SumBy(Filter(db.gambles, GambleMatch(userId, season)), GambleNet)
  }

  // ---------------------------------------------------------------------
  // A reference definition: every row contributes, rows of other users or
  // seasons contribute zero.

  function MaskedPoint(userId: Id, season: Option<Id>): Point -> int {
    (p: Point) => if Counts(userId, season, p.userId, p.seasonId) then PointValue(p) else 0
  }

  function MaskedGuess(userId: Id, season: Option<Id>): Guess -> int {
    (g: Guess) => if Counts(userId, season, g.userId, g.seasonId) then GuessPoints(g) else 0
  }

  function MaskedGamble(userId: Id, season: Option<Id>): Gamble -> int {
    (g: Gamble) => if Counts(userId, season, g.userId, g.seasonId) then GambleNet(g) else 0
  }

  function MaskedTotal(db: Db, userId: Id, season: Option<Id>): int {
    SumBy(db.points, MaskedPoint(userId, season))
    + SumBy(db.guesses, MaskedGuess(userId, season))
    + SumBy(db.gambles, MaskedGamble(userId, season))
  }

  lemma {:induction false} FilteredSumIsMasked<T>(xs: seq<T>, p: T -> bool, f: T -> int, m: T -> int)
    requires forall x :: m(x) == if p(x) then f(x) else 0
    ensures SumBy(Filter(xs, p), f) == SumBy(xs, m)
    decreases |xs|
  {
    if |xs| > 0 {
      FilteredSumIsMasked(xs[1..], p, f, m);
      if p(xs[0]) {
        assert ([xs[0]] + Filter(xs[1..], p))[1..] == Filter(xs[1..], p);
      }
    }
  }

  /** The filtered sums equal the masked sums over whole tables. */
  lemma UserPointsIsMasked(db: Db, userId: Id, season: Option<Id>)
    ensures UserPoints(db, userId, season) == MaskedTotal(db, userId, season)
  {
    FilteredSumIsMasked(db.points, PointMatch(userId, season), PointValue, MaskedPoint(userId, season));
    FilteredSumIsMasked(db.guesses, GuessMatch(userId, season), GuessPoints, MaskedGuess(userId, season));
    FilteredSumIsMasked(db.gambles, GambleMatch(userId, season), GambleNet, MaskedGamble(userId, season));
  }

  // ---------------------------------------------------------------------
  // Properties of the total.

  /** The total does not depend on the order of the rows in any table. */
  lemma UserPointsOrderIndependent(db: Db, db': Db, userId: Id, season: Option<Id>)
    requires multiset(db.points) == multiset(db'.points)
    requires multiset(db.guesses) == multiset(db'.guesses)
    requires multiset(db.gambles) == multiset(db'.gambles)
    ensures UserPoints(db, userId, season) == UserPoints(db', userId, season)
  {
    UserPointsIsMasked(db, userId, season);
    UserPointsIsMasked(db', userId, season);
    SumByPermutation(db.points, db'.points, MaskedPoint(userId, season));
    SumByPermutation(db.guesses, db'.guesses, MaskedGuess(userId, season));
    SumByPermutation(db.gambles, db'.gambles, MaskedGamble(userId, season));
  }

  /** A user without rows in the season (or at all) has a total of 0. */
  lemma UserPointsWithoutRows(db: Db, userId: Id, season: Option<Id>)
    requires forall i :: 0 <= i < |db.points| ==> !Counts(userId, season, db.points[i].userId, db.points[i].seasonId)
    requires forall i :: 0 <= i < |db.guesses| ==> !Counts(userId, season, db.guesses[i].userId, db.guesses[i].seasonId)
    requires forall i :: 0 <= i < |db.gambles| ==> !Counts(userId, season, db.gambles[i].userId, db.gambles[i].seasonId)
    ensures UserPoints(db, userId, season) == 0
  {
    UserPointsIsMasked(db, userId, season);
    SumByZero(db.points, MaskedPoint(userId, season));
    SumByZero(db.guesses, MaskedGuess(userId, season));
    SumByZero(db.gambles, MaskedGamble(userId, season));
  }

  /** Rows of other users or other seasons never affect the total: two
      databases that agree on the rows that count give the same total. */
  lemma UserPointsIgnoresOthers(db: Db, userId: Id, season: Option<Id>, p: Point, g: Guess, b: Gamble)
    requires !Counts(userId, season, p.userId, p.seasonId)
    requires !Counts(userId, season, g.userId, g.seasonId)
    requires !Counts(userId, season, b.userId, b.seasonId)
    ensures UserPoints(db.(points := db.points + [p], guesses := db.guesses + [g], gambles := db.gambles + [b]), userId, season)
         == UserPoints(db, userId, season)
  {
    var db' := db.(points := db.points + [p], guesses := db.guesses + [g], gambles := db.gambles + [b]);
    UserPointsIsMasked(db, userId, season);
    UserPointsIsMasked(db', userId, season);
    SumByAppend(db.points, [p], MaskedPoint(userId, season));
    SumByAppend(db.guesses, [g], MaskedGuess(userId, season));
    SumByAppend(db.gambles, [b], MaskedGamble(userId, season));
  }

  /** Placing a new (open) gamble of the user in the season lowers the
      total by its stake. */
  lemma UserPointsAfterNewGamble(db: Db, userId: Id, season: Option<Id>, b: Gamble)
    requires Counts(userId, season, b.userId, b.seasonId)
    requires b.successful.None?
    ensures UserPoints(db.(gambles := db.gambles + [b]), userId, season) == UserPoints(db, userId, season) - b.points
  {
    var db' := db.(gambles := db.gambles + [b]);
    UserPointsIsMasked(db, userId, season);
    UserPointsIsMasked(db', userId, season);
    SumByAppend(db.gambles, [b], MaskedGamble(userId, season));
  }
}

=== FILE: ranked_lists.dfy ===
/** The ranked-list router: admin-only management of list types, and
    owner-only editing of lists and of their ranked items. */
module RankedLists {
  import opened Wrappers
  import opened Schema
  import opened Seqs

  /** The largest `maxItems` a list type may declare. */
  const MaxItemsCap := 100

  // ---------------------------------------------------------------------
  // Enumerations as they arrive over the wire

  function ParseTargetType(s: string): (r: Option<TargetType>)
    ensures r.Some? <==> s in {"MOVIE", "SHOW", "EPISODE"}
  {
    if s == "MOVIE" then Some(Movie)
    else if s == "SHOW" then Some(Show)
    else if s == "EPISODE" then Some(EpisodeTarget)
    else None
  }

  function TargetTypeName(t: TargetType): string {
    match t
    case Movie => "MOVIE"
    case Show => "SHOW"
    case EpisodeTarget => "EPISODE"
  }

  /** Every target type has exactly one wire name, and it parses back. */
  lemma TargetTypeRoundTrip(t: TargetType, s: string)
    ensures ParseTargetType(TargetTypeName(t)) == Some(t)
    ensures ParseTargetType(s) == Some(t) ==> s == TargetTypeName(t)
  {
  }

  function ParseStatus(s: string): (r: Option<ListStatus>)
    ensures r.Some? <==> s in {"DRAFT", "PUBLISHED"}
    ensures r == Some(Draft) <==> s == "DRAFT"
  {
    if s == "DRAFT" then Some(Draft)
    else if s == "PUBLISHED" then Some(Published)
    else None
  }

  // ---------------------------------------------------------------------
  // Lookups

  function ListIndex(ls: seq<RankedList>, id: Id): (r: int)
    ensures -1 <= r < |ls|
    ensures r >= 0 ==> ls[r].id == id
    ensures r >= 0 ==> forall j :: 0 <= j < r ==> ls[j].id != id
    ensures r < 0 <==> forall j :: 0 <= j < |ls| ==> ls[j].id != id
  {
    FirstIndex(ls, (l: RankedList) => l.id == id)
  }

  function TypeIndex(ts: seq<RankedListType>, id: Id): (r: int)
    ensures -1 <= r < |ts|
    ensures r >= 0 ==> ts[r].id == id
    ensures r >= 0 ==> forall j :: 0 <= j < r ==> ts[j].id != id
    ensures r < 0 <==> forall j :: 0 <= j < |ts| ==> ts[j].id != id
  {
    FirstIndex(ts, (t: RankedListType) => t.id == id)
  }

  function ItemIndex(items: seq<RankedItem>, id: Id): (r: int)
    ensures -1 <= r < |items|
    ensures r >= 0 ==> items[r].id == id
    ensures r >= 0 ==> forall j :: 0 <= j < r ==> items[j].id != id
    ensures r < 0 <==> forall j :: 0 <= j < |items| ==> items[j].id != id
  {
    FirstIndex(items, (it: RankedItem) => it.id == id)
  }

  /** The item of list `listId` at `rank` (`list.items.find(i => i.rank === rank)`). */
  function RankIndex(items: seq<RankedItem>, listId: Id, rank: int): (r: int)
    ensures -1 <= r < |items|
    ensures r >= 0 ==> items[r].listId == listId && items[r].rank == rank
    ensures r < 0 <==> forall j :: 0 <= j < |items| ==> !(items[j].listId == listId && items[j].rank == rank)
  {
    FirstIndex(items, (it: RankedItem) => it.listId == listId && it.rank == rank)
  }

  /** The type of a list (the `include: { type: true }` relation). */
  function TypeOf(db: Db, list: RankedList): (r: Option<RankedListType>)
    ensures r.Some? ==> r.value in db.listTypes && r.value.id == list.typeId
    ensures r.None? <==> forall j :: 0 <= j < |db.listTypes| ==> db.listTypes[j].id != list.typeId
  {
    First(db.listTypes, (t: RankedListType) => t.id == list.typeId)
  }

  // ---------------------------------------------------------------------
  // Invariants

  /** Within one list no two items share a rank. */
  predicate DistinctRanks(items: seq<RankedItem>) {
    forall i, j :: 0 <= i < j < |items| && items[i].listId == items[j].listId ==> items[i].rank != items[j].rank
  }

  /** Every list type has a name and a capacity the input schema admits. */
  predicate TypesWellFormed(ts: seq<RankedListType>) {
    forall i :: 0 <= i < |ts| ==> ts[i].name != "" && 1 <= ts[i].maxItems <= MaxItemsCap
  }

  // ---------------------------------------------------------------------
  // List types (admin only)

  datatype TypeFields = TypeFields(name: string, description: Option<string>, maxItems: int, targetType: string)

  /** The input schema of `createType`. */
  predicate ValidTypeFields(f: TypeFields) {
    f.name != "" && 1 <= f.maxItems <= MaxItemsCap && ParseTargetType(f.targetType).Some?
  }

  /** `createType`: the input schema first, then the admin guard. */
  function CreateType(db: Db, callerId: Id, fields: TypeFields, newId: Id): (r: Result<Db, ApiError>)
    ensures r == Failure(BadRequest) <==> !ValidTypeFields(fields)
    ensures r == Failure(Forbidden) <==> ValidTypeFields(fields) && !IsAdmin(db.userRoles, callerId)
    ensures r.Success? <==> ValidTypeFields(fields) && IsAdmin(db.userRoles, callerId)
    ensures r.Success? ==>
              && r.value == db.(listTypes := r.value.listTypes)
              && |r.value.listTypes| == |db.listTypes| + 1
              && r.value.listTypes[..|db.listTypes|] == db.listTypes
              && var t := r.value.listTypes[|db.listTypes|];
                 && t.id == newId && t.name == fields.name && t.description == fields.description
                 && t.maxItems == fields.maxItems && TargetTypeName(t.targetType) == fields.targetType
  {
    if !ValidTypeFields(fields) then Failure(BadRequest)
    else if !IsAdmin(db.userRoles, callerId) then Failure(Forbidden)
    else
      var t := RankedListType(newId, fields.name, fields.description, fields.maxItems,
                              ParseTargetType(fields.targetType).value);
      assert (db.listTypes + [t])[..|db.listTypes|] == db.listTypes;
      Success(db.(listTypes := db.listTypes + [t]))
  }

  /** `deleteType`: admin guard, then the delete, which throws on a missing
      type. */
  function DeleteType(db: Db, callerId: Id, id: Id): (r: Result<Db, ApiError>)
    ensures r == Failure(Forbidden) <==> !IsAdmin(db.userRoles, callerId)
    ensures r == Failure(Internal) <==>
              IsAdmin(db.userRoles, callerId) && forall j :: 0 <= j < |db.listTypes| ==> db.listTypes[j].id != id
    ensures r.Success? <==> IsAdmin(db.userRoles, callerId) && exists j :: 0 <= j < |db.listTypes| && db.listTypes[j].id == id
    ensures r.Success? ==>
              && r.value == db.(listTypes := r.value.listTypes)
              && |r.value.listTypes| == |db.listTypes| - 1
              && r.value.listTypes == RemoveAt(db.listTypes, TypeIndex(db.listTypes, id))
  {
    if !IsAdmin(db.userRoles, callerId) then Failure(Forbidden)
    else
      var k := TypeIndex(db.listTypes, id);
      if k < 0 then Failure(Internal)
      else Success(db.(listTypes := RemoveAt(db.listTypes, k)))
  }

  datatype TypePatch = TypePatch(
    name: Option<string>,
    description: Option<string>,
    maxItems: Option<int>,
    targetType: Option<string>)

  /** The input schema of `updateType`: each supplied field obeys the
      `createType` rule for it. */
  predicate ValidTypePatch(p: TypePatch) {
    && (p.name.Some? ==> p.name.value != "")
    && (p.maxItems.Some? ==> 1 <= p.maxItems.value <= MaxItemsCap)
    && (p.targetType.Some? ==> ParseTargetType(p.targetType.value).Some?)
  }

  function ApplyTypePatch(t: RankedListType, p: TypePatch): (r: RankedListType)
    requires ValidTypePatch(p)
    ensures r.id == t.id
    ensures r.name == Patch(t.name, p.name)
    ensures r.description == Override(t.description, p.description)
    ensures r.maxItems == Patch(t.maxItems, p.maxItems)
    ensures p.targetType.Some? ==> TargetTypeName(r.targetType) == p.targetType.value
    ensures p.targetType.None? ==> r.targetType == t.targetType
  {
    t.(name := Patch(t.name, p.name),
       description := Override(t.description, p.description),
       maxItems := Patch(t.maxItems, p.maxItems),
       targetType := if p.targetType.Some? then ParseTargetType(p.targetType.value).value else t.targetType)
  }

  /** `updateType`: the input schema, the admin guard, then a partial update
      of the type, which throws on a missing type. */
  function UpdateType(db: Db, callerId: Id, id: Id, patch: TypePatch): (r: Result<Db, ApiError>)
    ensures r == Failure(BadRequest) <==> !ValidTypePatch(patch)
    ensures r == Failure(Forbidden) <==> ValidTypePatch(patch) && !IsAdmin(db.userRoles, callerId)
    ensures r == Failure(Internal) <==>
              && ValidTypePatch(patch) && IsAdmin(db.userRoles, callerId)
              && forall j :: 0 <= j < |db.listTypes| ==> db.listTypes[j].id != id
    ensures r.Success? <==>
              && ValidTypePatch(patch) && IsAdmin(db.userRoles, callerId)
              && exists j :: 0 <= j < |db.listTypes| && db.listTypes[j].id == id
    ensures r.Success? ==>
              var k := TypeIndex(db.listTypes, id);
              && r.value == db.(listTypes := r.value.listTypes)
              && r.value.listTypes == db.listTypes[k := ApplyTypePatch(db.listTypes[k], patch)]
  {
    if !ValidTypePatch(patch) then Failure(BadRequest)
    else if !IsAdmin(db.userRoles, callerId) then Failure(Forbidden)
    else
      var k := TypeIndex(db.listTypes, id);
      if k < 0 then Failure(Internal)
      else Success(db.(listTypes := db.listTypes[k := ApplyTypePatch(db.listTypes[k], patch)]))
  }

  /** The type operations keep every stored type within the input schema's
      bounds, so `maxItems` is always between 1 and 100. */
  lemma TypeOperationsKeepTypesWellFormed(db: Db, callerId: Id, fields: TypeFields, newId: Id, id: Id, patch: TypePatch)
    requires TypesWellFormed(db.listTypes)
    ensures CreateType(db, callerId, fields, newId).Success? ==>
              TypesWellFormed(CreateType(db, callerId, fields, newId).value.listTypes)
    ensures UpdateType(db, callerId, id, patch).Success? ==>
              TypesWellFormed(UpdateType(db, callerId, id, patch).value.listTypes)
    ensures DeleteType(db, callerId, id).Success? ==>
              TypesWellFormed(DeleteType(db, callerId, id).value.listTypes)
  {
    var deleted := DeleteType(db, callerId, id);
    if deleted.Success? {
      var k := TypeIndex(db.listTypes, id);
      forall i | 0 <= i < |deleted.value.listTypes|
        ensures deleted.value.listTypes[i].name != "" && 1 <= deleted.value.listTypes[i].maxItems <= MaxItemsCap
      {
        if i < k {
          assert deleted.value.listTypes[i] == db.listTypes[i];
        } else {
          assert deleted.value.listTypes[i] == db.listTypes[i + 1];
        }
      }
    }
  }

  // ---------------------------------------------------------------------
  // Lists (owner only)

  /** `upsertList`: with a (truthy) id, the owner may change the title (an
      omitted title keeps the old one) and the status; without one, a new
      list owned by the caller is created. */
  function UpsertList(db: Db, callerId: Id, id: Option<Id>, typeId: Id, title: Option<string>, status: string, newId: Id)
    : (r: Result<Db, ApiError>)
    ensures r == Failure(BadRequest) <==> ParseStatus(status).None?
    ensures ParseStatus(status).Some? && Truthy(id) ==>
              var k := ListIndex(db.lists, id.value);
              && (k < 0 <==> r == Failure(NotFound))
              && (k >= 0 ==> (db.lists[k].userId != callerId <==> r == Failure(Forbidden)))
              && (k >= 0 && db.lists[k].userId == callerId ==> r.Success?)
              && (r.Success? ==>
                    && r.value == db.(lists := r.value.lists)
                    && |r.value.lists| == |db.lists|
                    && r.value.lists == db.lists[k := db.lists[k].(title := r.value.lists[k].title,
                                                                   status := r.value.lists[k].status)]
                    && r.value.lists[k].title == Override(db.lists[k].title, title)
                    && Some(r.value.lists[k].status) == ParseStatus(status))
    ensures ParseStatus(status).Some? && !Truthy(id) ==>
              && r.Success?
              && r.value == db.(lists := r.value.lists)
              && r.value.lists == db.lists + [RankedList(newId, callerId, typeId, title, ParseStatus(status).value)]
  {
    var st := ParseStatus(status);
    if st.None? then Failure(BadRequest)
    else if Truthy(id) then
      var k := ListIndex(db.lists, id.value);
      if k < 0 then Failure(NotFound)
      else if db.lists[k].userId != callerId then Failure(Forbidden)
      else Success(db.(lists := db.lists[k := db.lists[k].(title := Override(db.lists[k].title, title), status := st.value)]))
    else
      Success(db.(lists := db.lists + [RankedList(newId, callerId, typeId, title, st.value)]))
  }

  /** A list created by `upsertList` belongs to its creator: anyone else who
      tries to edit it is refused, and its creator may. */
  lemma CreatedListIsOwned(db: Db, callerId: Id, other: Id, typeId: Id, title: Option<string>, status: string, newId: Id,
                           title': Option<string>, status': string)
    requires ParseStatus(status).Some? && ParseStatus(status').Some?
    requires newId != ""
    requires forall j :: 0 <= j < |db.lists| ==> db.lists[j].id != newId
    requires other != callerId
    ensures var created := UpsertList(db, callerId, None, typeId, title, status, newId).value;
            && UpsertList(created, other, Some(newId), typeId, title', status', newId) == Failure(Forbidden)
            && UpsertList(created, callerId, Some(newId), typeId, title', status', newId).Success?
  {
    var created := UpsertList(db, callerId, None, typeId, title, status, newId).value;
    assert created.lists[|db.lists|].id == newId;
    assert ListIndex(created.lists, newId) == |db.lists|;
  }

  // ---------------------------------------------------------------------
  // Items

  datatype ItemInput = ItemInput(
    listId: Id,
    movieId: Option<Id>,
    showId: Option<Id>,
    episodeId: Option<Id>,
    rank: int,
    comment: Option<string>)

  /** The id matching the list's target type is supplied (and non-empty). */
  predicate HasTarget(tt: TargetType, input: ItemInput) {
    match tt
    case Movie => Truthy(input.movieId)
    case Show => Truthy(input.showId)
    case EpisodeTarget => Truthy(input.episodeId)
  }

  /** `isSameEntity`: the occupant of the rank is the entity being upserted. */
  predicate SameEntity(tt: TargetType, existing: RankedItem, input: ItemInput) {
    match tt
    case Movie => existing.movieId == input.movieId
    case Show => existing.showId == input.showId
    case EpisodeTarget => existing.episodeId == input.episodeId
  }

  /** The occupant of a rank after `upsertItem`: the same entity only gets
      the new comment; another entity replaces the ids and the comment. An
      omitted field keeps its stored value either way. */
  function Occupy(tt: TargetType, existing: RankedItem, input: ItemInput): (r: RankedItem)
    ensures r.id == existing.id && r.listId == existing.listId && r.rank == existing.rank
    ensures r.comment == Override(existing.comment, input.comment)
    ensures SameEntity(tt, existing, input) ==> r == existing.(comment := r.comment)
    ensures !SameEntity(tt, existing, input) ==>
              && r.movieId == Override(existing.movieId, input.movieId)
              && r.showId == Override(existing.showId, input.showId)
              && r.episodeId == Override(existing.episodeId, input.episodeId)
  {
    if SameEntity(tt, existing, input) then existing.(comment := Override(existing.comment, input.comment))
    else existing.(movieId := Override(existing.movieId, input.movieId),
                   showId := Override(existing.showId, input.showId),
                   episodeId := Override(existing.episodeId, input.episodeId),
                   comment := Override(existing.comment, input.comment))
  }

  /** `upsertItem`. The checks run in this order: rank at least 1, the list
      exists, the caller owns it, the target id is supplied, the rank is
      within the type's capacity. An occupied rank is updated in place,
      a free one gets a new item. */
  function UpsertItem(db: Db, callerId: Id, input: ItemInput, newId: Id): (r: Result<Db, ApiError>)
    ensures input.rank < 1 ==> r == Failure(BadRequest)
    ensures input.rank >= 1 && ListIndex(db.lists, input.listId) < 0 ==> r == Failure(NotFound)
    ensures input.rank >= 1 && ListIndex(db.lists, input.listId) >= 0 ==>
              var list := db.lists[ListIndex(db.lists, input.listId)];
              && (list.userId != callerId ==> r == Failure(Forbidden))
              && (list.userId == callerId && TypeOf(db, list).None? ==> r == Failure(Internal))
              && (list.userId == callerId && TypeOf(db, list).Some? &&
                  (!HasTarget(TypeOf(db, list).value.targetType, input) || input.rank > TypeOf(db, list).value.maxItems)
                  ==> r == Failure(BadRequest))
    ensures r.Success? <==>
              && input.rank >= 1
              && ListIndex(db.lists, input.listId) >= 0
              && var list := db.lists[ListIndex(db.lists, input.listId)];
                 && list.userId == callerId
                 && TypeOf(db, list).Some?
                 && HasTarget(TypeOf(db, list).value.targetType, input)
                 && input.rank <= TypeOf(db, list).value.maxItems
    ensures r.Success? ==>
              && r.value == db.(items := r.value.items)
              && RankIndex(r.value.items, input.listId, input.rank) >= 0
    ensures r.Success? && RankIndex(db.items, input.listId, input.rank) >= 0 ==>
              var k := RankIndex(db.items, input.listId, input.rank);
              var tt := TypeOf(db, db.lists[ListIndex(db.lists, input.listId)]).value.targetType;
              r.value.items == db.items[k := Occupy(tt, db.items[k], input)]
    ensures r.Success? && RankIndex(db.items, input.listId, input.rank) < 0 ==>
              r.value.items ==
              db.items + [RankedItem(newId, input.listId, input.movieId, input.showId, input.episodeId, input.rank, input.comment)]
  {
    if input.rank < 1 then Failure(BadRequest)
    else
      var li := ListIndex(db.lists, input.listId);
      if li < 0 then Failure(NotFound)
      else
        var list := db.lists[li];
        if list.userId != callerId then Failure(Forbidden)
        else
          match TypeOf(db, list)
          case None => Failure(Internal)
          case Some(t) =>
            if !HasTarget(t.targetType, input) then Failure(BadRequest)
            else if input.rank > t.maxItems then Failure(BadRequest)
            else
              var k := RankIndex(db.items, input.listId, input.rank);
              if k >= 0 then
                var items := db.items[k := Occupy(t.targetType, db.items[k], input)];
                assert items[k].listId == input.listId && items[k].rank == input.rank;
                Success(db.(items := items))
              else
                var item := RankedItem(newId, input.listId, input.movieId, input.showId, input.episodeId, input.rank, input.comment);
                assert (db.items + [item])[|db.items|] == item;
                Success(db.(items := db.items + [item]))
  }

  /** `upsertItem` never puts two items of one list at the same rank. */
  lemma UpsertItemKeepsRanksDistinct(db: Db, callerId: Id, input: ItemInput, newId: Id)
    requires DistinctRanks(db.items)
    requires UpsertItem(db, callerId, input, newId).Success?
    ensures DistinctRanks(UpsertItem(db, callerId, input, newId).value.items)
  {
    var after := UpsertItem(db, callerId, input, newId).value.items;
    var k := RankIndex(db.items, input.listId, input.rank);
    if k >= 0 {
      assert forall j :: 0 <= j < |after| ==> after[j].listId == db.items[j].listId && after[j].rank == db.items[j].rank;
    } else {
      var n := |db.items|;
      assert forall j :: 0 <= j < n ==> after[j] == db.items[j];
      assert after[n].listId == input.listId && after[n].rank == input.rank;
    }
  }

  /** The rank an item not being moved ends up at when an item of list
      `listId` moves from `oldRank` to `newRank`. */
  function Shifted(it: RankedItem, listId: Id, oldRank: int, newRank: int): (r: RankedItem)
    ensures r == it.(rank := r.rank)
    ensures it.listId != listId ==> r == it
    ensures (it.listId == listId && newRank < oldRank && newRank <= it.rank < oldRank ==> r.rank == it.rank + 1)
    ensures (it.listId == listId && oldRank < newRank && oldRank < it.rank <= newRank ==> r.rank == it.rank - 1)
    ensures !(newRank < oldRank && newRank <= it.rank < oldRank) ==>
              !(oldRank < newRank && oldRank < it.rank <= newRank) ==> r == it
  {
    if it.listId != listId then it
    else if newRank < oldRank && newRank <= it.rank < oldRank then it.(rank := it.rank + 1)
    else if oldRank < newRank && oldRank < it.rank <= newRank then it.(rank := it.rank - 1)
    else it
  }

  /** Item `k` moves to `newRank`; its list's items in between shift by one. */
  function Renumber(items: seq<RankedItem>, k: nat, newRank: int): (r: seq<RankedItem>)
    requires k < |items|
    ensures |r| == |items|
    ensures r[k] == items[k].(rank := newRank)
    ensures forall j :: 0 <= j < |items| && j != k ==> r[j] == Shifted(items[j], items[k].listId, items[k].rank, newRank)
  {
    seq(|items|, j requires 0 <= j < |items| =>
      if j == k then items[k].(rank := newRank) else Shifted(items[j], items[k].listId, items[k].rank, newRank))
  }

  /** `reorderItem`. The checks run in this order: new rank at least 1, the
      item exists, the caller owns its list, the new rank is within the
      type's capacity. Moving to the current rank changes nothing. */
  function ReorderItem(db: Db, callerId: Id, itemId: Id, newRank: int): (r: Result<Db, ApiError>)
    ensures newRank < 1 ==> r == Failure(BadRequest)
    ensures newRank >= 1 && ItemIndex(db.items, itemId) < 0 ==> r == Failure(NotFound)
    ensures r.Success? <==>
              var k := ItemIndex(db.items, itemId);
              && newRank >= 1
              && k >= 0
              && var list := First(db.lists, (l: RankedList) => l.id == db.items[k].listId);
                 && list.Some? && list.value.userId == callerId
                 && TypeOf(db, list.value).Some?
                 && newRank <= TypeOf(db, list.value).value.maxItems
    ensures newRank >= 1 && ItemIndex(db.items, itemId) >= 0 ==>
              var list := First(db.lists, (l: RankedList) => l.id == db.items[ItemIndex(db.items, itemId)].listId);
              && (list.None? ==> r == Failure(Internal))
              && (list.Some? && list.value.userId != callerId ==> r == Failure(Forbidden))
              && (list.Some? && list.value.userId == callerId && TypeOf(db, list.value).None? ==> r == Failure(Internal))
              && (list.Some? && list.value.userId == callerId && TypeOf(db, list.value).Some? ==>
                    newRank > TypeOf(db, list.value).value.maxItems ==> r == Failure(BadRequest))
    ensures r.Success? && db.items[ItemIndex(db.items, itemId)].rank == newRank ==> r.value == db
    ensures r.Success? ==>
              var k := ItemIndex(db.items, itemId);
              var item := db.items[k];
              && r.value == db.(items := r.value.items)
              && |r.value.items| == |db.items|
              && r.value.items[k] == item.(rank := newRank)
              && (forall j :: 0 <= j < |db.items| && j != k ==>
                    var it := db.items[j];
                    && r.value.items[j] == it.(rank := r.value.items[j].rank)
                    && r.value.items[j].rank ==
                       if it.listId != item.listId then it.rank
                       else if newRank <= it.rank < item.rank then it.rank + 1
                       else if item.rank < it.rank <= newRank then it.rank - 1
                       else it.rank)
  {
    if newRank < 1 then Failure(BadRequest)
    else
      var k := ItemIndex(db.items, itemId);
      if k < 0 then Failure(NotFound)
      else
        var item := db.items[k];
        match First(db.lists, (l: RankedList) => l.id == item.listId)
        case None => Failure(Internal)
        case Some(list) =>
          if list.userId != callerId then Failure(Forbidden)
          else
            match TypeOf(db, list)
            case None => Failure(Internal)
            case Some(t) =>
              if newRank > t.maxItems then Failure(BadRequest)
              else if item.rank == newRank then Success(db)
              else Success(db.(items := Renumber(db.items, k, newRank)))
  }

  /** Renumbering keeps the ranks of each list pairwise distinct. */
  lemma RenumberKeepsRanksDistinct(items: seq<RankedItem>, k: nat, newRank: int)
    requires k < |items|
    requires DistinctRanks(items)
    ensures DistinctRanks(Renumber(items, k, newRank))
  {
    var r := Renumber(items, k, newRank);
    var listId := items[k].listId;
    var oldRank := items[k].rank;
    forall i, j | 0 <= i < j < |r| && r[i].listId == r[j].listId
      ensures r[i].rank != r[j].rank
    {
      if i != k && j != k && items[i].listId == listId {
        assert items[i].rank != oldRank && items[j].rank != oldRank;
      } else if i == k {
        assert items[j].rank != oldRank;
      } else if j == k {
        assert items[i].rank != oldRank;
      }
    }
  }

  /** `reorderItem` keeps the ranks of each list pairwise distinct. */
  lemma ReorderItemKeepsRanksDistinct(db: Db, callerId: Id, itemId: Id, newRank: int)
    requires DistinctRanks(db.items)
    requires ReorderItem(db, callerId, itemId, newRank).Success?
    ensures DistinctRanks(ReorderItem(db, callerId, itemId, newRank).value.items)
  {
    var k := ItemIndex(db.items, itemId);
    if db.items[k].rank != newRank {
      RenumberKeepsRanksDistinct(db.items, k, newRank);
    }
  }

  /** Moving an item back to where it was undoes the move, when the ranks of
      its list were distinct. */
  lemma ReorderRoundTrip(db: Db, callerId: Id, itemId: Id, newRank: int)
    requires DistinctRanks(db.items)
    requires ReorderItem(db, callerId, itemId, newRank).Success?
    requires db.items[ItemIndex(db.items, itemId)].rank >= 1
    ensures var oldRank := db.items[ItemIndex(db.items, itemId)].rank;
            var list := First(db.lists, (l: RankedList) => l.id == db.items[ItemIndex(db.items, itemId)].listId).value;
            oldRank <= TypeOf(db, list).value.maxItems ==>
              ReorderItem(ReorderItem(db, callerId, itemId, newRank).value, callerId, itemId, oldRank) == Success(db)
  {
    var k := ItemIndex(db.items, itemId);
    var moved := ReorderItem(db, callerId, itemId, newRank).value;
    SameIdsSameIndex(db.items, moved.items, itemId);
    if db.items[k].rank != newRank {
      RenumberBack(db.items, k, newRank);
    }
  }

  /** Two item sequences with the same ids, position by position, find an
      id at the same index. */
  lemma SameIdsSameIndex(a: seq<RankedItem>, b: seq<RankedItem>, id: Id)
    requires |a| == |b|
    requires forall j :: 0 <= j < |a| ==> a[j].id == b[j].id
    ensures ItemIndex(a, id) == ItemIndex(b, id)
  {
    var i := ItemIndex(a, id);
    if i >= 0 {
      assert b[i].id == id;
    }
  }

  /** Renumbering item `k` and then renumbering it back to its old rank
      restores every item, when ranks within each list were distinct. */
  lemma RenumberBack(items: seq<RankedItem>, k: nat, newRank: int)
    requires k < |items|
    requires DistinctRanks(items)
    requires items[k].rank != newRank
    ensures Renumber(Renumber(items, k, newRank), k, items[k].rank) == items
  {
    var item := items[k];
    var back := Renumber(Renumber(items, k, newRank), k, item.rank);
    forall j | 0 <= j < |items|
      ensures back[j] == items[j]
    {
      if j != k && items[j].listId == item.listId {
        assert items[j].rank != item.rank;
      }
    }
  }

  /** `removeItem`: the item must exist and the caller must own its list;
      the remaining items keep their ranks (no renumbering). */
  function RemoveItem(db: Db, callerId: Id, itemId: Id): (r: Result<Db, ApiError>)
    ensures ItemIndex(db.items, itemId) < 0 ==> r == Failure(NotFound)
    ensures ItemIndex(db.items, itemId) >= 0 ==>
              var list := First(db.lists, (l: RankedList) => l.id == db.items[ItemIndex(db.items, itemId)].listId);
              && (list.None? ==> r == Failure(Internal))
              && (list.Some? && list.value.userId != callerId ==> r == Failure(Forbidden))
              && (list.Some? && list.value.userId == callerId ==> r.Success?)
    ensures r.Success? ==>
              var k := ItemIndex(db.items, itemId);
              && k >= 0
              && r.value == db.(items := r.value.items)
              && |r.value.items| == |db.items| - 1
              && (forall j :: 0 <= j < k ==> r.value.items[j] == db.items[j])
              && (forall j :: k < j < |db.items| ==> r.value.items[j - 1] == db.items[j])
  {
    var k := ItemIndex(db.items, itemId);
    if k < 0 then Failure(NotFound)
    else
      match First(db.lists, (l: RankedList) => l.id == db.items[k].listId)
      case None => Failure(Internal)
      case Some(list) =>
        if list.userId != callerId then Failure(Forbidden)
        else Success(db.(items := RemoveAt(db.items, k)))
  }

  /** Removing an item leaves its rank free (so the next `upsertItem` there
      creates an item) and keeps the other ranks distinct. */
  lemma RemoveItemFreesRank(db: Db, callerId: Id, itemId: Id)
    requires DistinctRanks(db.items)
    requires RemoveItem(db, callerId, itemId).Success?
    ensures var item := db.items[ItemIndex(db.items, itemId)];
            var after := RemoveItem(db, callerId, itemId).value.items;
            && DistinctRanks(after)
            && RankIndex(after, item.listId, item.rank) < 0
  {
    var k := ItemIndex(db.items, itemId);
    DropKeepsRanksDistinct(db.items, k, RemoveItem(db, callerId, itemId).value.items);
  }

  /** Dropping item `k` keeps ranks distinct and frees that item's rank in
      its list. */
  lemma DropKeepsRanksDistinct(items: seq<RankedItem>, k: nat, after: seq<RankedItem>)
    requires k < |items|
    requires DistinctRanks(items)
    requires |after| == |items| - 1
    requires forall j :: 0 <= j < k ==> after[j] == items[j]
    requires forall j :: k < j < |items| ==> after[j - 1] == items[j]
    ensures DistinctRanks(after)
    ensures RankIndex(after, items[k].listId, items[k].rank) < 0
  {
    var item := items[k];
    forall i, j | 0 <= i < j < |after| && after[i].listId == after[j].listId
      ensures after[i].rank != after[j].rank
    {
      var i' := if i < k then i else i + 1;
      var j' := if j < k then j else j + 1;
      assert after[i] == items[i'] && after[j] == items[j'];
    }
    forall j | 0 <= j < |after|
      ensures !(after[j].listId == item.listId && after[j].rank == item.rank)
    {
      var j' := if j < k then j else j + 1;
      assert after[j] == items[j'];
    }
  }

  function KeepItem(listId: Id): RankedItem -> bool {
    (it: RankedItem) => it.listId != listId
  }

  /** `deleteList`: the list must exist and belong to the caller; its items
      go with it. */
  function DeleteList(db: Db, callerId: Id, listId: Id): (r: Result<Db, ApiError>)
    ensures ListIndex(db.lists, listId) < 0 ==> r == Failure(NotFound)
    ensures (ListIndex(db.lists, listId) >= 0 && db.lists[ListIndex(db.lists, listId)].userId != callerId ==>
             r == Failure(Forbidden))
    ensures r.Success? <==> ListIndex(db.lists, listId) >= 0 && db.lists[ListIndex(db.lists, listId)].userId == callerId
    ensures r.Success? ==>
              var k := ListIndex(db.lists, listId);
              && r.value == db.(lists := r.value.lists, items := r.value.items)
              && r.value.lists == RemoveAt(db.lists, k)
              && r.value.items == Filter(db.items, KeepItem(listId))
              && (forall j :: 0 <= j < |r.value.items| ==> r.value.items[j].listId != listId)
              && (forall j :: 0 <= j < |db.items| && db.items[j].listId != listId ==> db.items[j] in r.value.items)
  {
    var k := ListIndex(db.lists, listId);
    if k < 0 then Failure(NotFound)
    else if db.lists[k].userId != callerId then Failure(Forbidden)
    else Success(db.(lists := RemoveAt(db.lists, k), items := Filter(db.items, KeepItem(listId))))
  }

  /** List ids are a primary key. */
  predicate UniqueListIds(ls: seq<RankedList>) {
    forall i, j :: 0 <= i < j < |ls| ==> ls[i].id != ls[j].id
  }

  /** Once deleted, a list is gone: deleting it again, by anyone, is
      NOT_FOUND, and so is adding an item to it. */
  lemma DeleteListTwiceNotFound(db: Db, callerId: Id, listId: Id, callerId': Id, input: ItemInput, newItemId: Id)
    requires UniqueListIds(db.lists)
    requires DeleteList(db, callerId, listId).Success?
    requires input.listId == listId && input.rank >= 1
    ensures DeleteList(DeleteList(db, callerId, listId).value, callerId', listId) == Failure(NotFound)
    ensures UpsertItem(DeleteList(db, callerId, listId).value, callerId', input, newItemId) == Failure(NotFound)
  {
    var after := DeleteList(db, callerId, listId).value;
    var k := ListIndex(db.lists, listId);
    forall j | 0 <= j < |after.lists| ensures after.lists[j].id != listId {
      if j < k {
        assert after.lists[j] == db.lists[j];
      } else {
        assert after.lists[j] == db.lists[j + 1];
      }
    }
  }

  /** `changeOwner`: admin guard, then the update, which throws on a
      missing list; only the owner changes. */
  function ChangeOwner(db: Db, callerId: Id, listId: Id, newUserId: Id): (r: Result<Db, ApiError>)
    ensures r == Failure(Forbidden) <==> !IsAdmin(db.userRoles, callerId)
    ensures r == Failure(Internal) <==>
              IsAdmin(db.userRoles, callerId) && forall j :: 0 <= j < |db.lists| ==> db.lists[j].id != listId
    ensures r.Success? <==> IsAdmin(db.userRoles, callerId) && exists j :: 0 <= j < |db.lists| && db.lists[j].id == listId
    ensures r.Success? ==>
              var k := ListIndex(db.lists, listId);
              && r.value == db.(lists := r.value.lists)
              && r.value.lists == db.lists[k := db.lists[k].(userId := newUserId)]
  {
    if !IsAdmin(db.userRoles, callerId) then Failure(Forbidden)
    else
      var k := ListIndex(db.lists, listId);
      if k < 0 then Failure(Internal)
      else Success(db.(lists := db.lists[k := db.lists[k].(userId := newUserId)]))
  }

  /** After `changeOwner` the new owner may edit the list and the old one,
      if different, may not. */
  lemma ChangeOwnerTransfersEditing(db: Db, admin: Id, listId: Id, newUserId: Id, title: Option<string>, status: string)
    requires ChangeOwner(db, admin, listId, newUserId).Success?
    requires listId != "" && ParseStatus(status).Some?
    ensures var after := ChangeOwner(db, admin, listId, newUserId).value;
            var k := ListIndex(db.lists, listId);
            && UpsertList(after, newUserId, Some(listId), db.lists[k].typeId, title, status, listId).Success?
            && (db.lists[k].userId != newUserId ==>
                  UpsertList(after, db.lists[k].userId, Some(listId), db.lists[k].typeId, title, status, listId)
                  == Failure(Forbidden))
  {
    var after := ChangeOwner(db, admin, listId, newUserId).value;
    var k := ListIndex(db.lists, listId);
    assert after.lists[k].id == listId;
    assert forall j :: 0 <= j < k ==> after.lists[j] == db.lists[j];
    assert ListIndex(after.lists, listId) == k;
  }
}

=== FILE: review_filters.dfy ===
/** The reviews page: rating and user filters kept in the url's query
    string, and how they become the arguments of the review query. */
module ReviewFilters {
  import opened Wrappers
  import opened Schema

  /** The url query: parameter name to value. */
  type Query = map<string, string>

  const RatingKey := "rating"
  const UserKey := "user"
  const All := "all"
  const NoRating := "none"

  /** `(router.query[key] as string) || "all"`: a missing or empty
      parameter reads as "all". */
  function ReadFilter(q: Query, key: string): (r: string)
    ensures r != ""
    ensures key !in q ==> r == All
    ensures key in q && q[key] != "" ==> r == q[key]
    ensures key in q && q[key] == "" ==> r == All
  {
    if key in q && q[key] != "" then q[key] else All
  }

  /** `setRatingFilter` / `setUserFilter`: "all" deletes the parameter,
      anything else sets it; the other parameters are kept. */
  function SetFilter(q: Query, key: string, value: string): (r: Query)
    ensures key in r <==> value != All
    ensures key in r ==> r[key] == value
    ensures forall k :: k != key ==> (k in r <==> k in q)
    ensures forall k :: k != key && k in q ==> r[k] == q[k]
  {
    if value == All then q - {key} else q[key := value]
  }

  /** Setting a filter and reading it back gives the chosen value, except
      that an empty choice reads as "all"; the other filter is unaffected. */
  lemma SetThenRead(q: Query, key: string, other: string, value: string)
    requires other != key
    ensures ReadFilter(SetFilter(q, key, value), key) == (if value == "" then All else value)
    ensures ReadFilter(SetFilter(q, key, value), other) == ReadFilter(q, other)
  {
  }

  /** Choosing a value twice is choosing it once, and choosing "all" after
      anything removes the parameter. */
  lemma SetFilterIdempotent(q: Query, key: string, value: string, value': string)
    ensures SetFilter(SetFilter(q, key, value), key, value) == SetFilter(q, key, value)
    ensures SetFilter(SetFilter(q, key, value'), key, All) == SetFilter(q, key, All)
  {
  }

  /** A query argument: left out (`undefined`), `null`, or an id. */
  datatype Arg = Omitted | Null | Value(id: string)

  /** `ratingFilter === "all" ? undefined : (ratingFilter === "none" ? null : ratingFilter)`. */
  function RatingArg(filter: string): (r: Arg)
    ensures r == Omitted <==> filter == All
    ensures r == Null <==> filter == NoRating
    ensures r.Value? ==> r.id == filter
  {
    if filter == All then Omitted else if filter == NoRating then Null else Value(filter)
  }

  /** `userFilter === "all" ? undefined : userFilter`. */
  function UserArg(filter: string): (r: Arg)
    ensures r == Omitted <==> filter == All
    ensures r != Null
    ensures r.Value? ==> r.id == filter
  {
    if filter == All then Omitted else Value(filter)
  }

  /** The review query's arguments for the page's current url. */
  function QueryArgs(q: Query): (r: (Arg, Arg))
    ensures RatingKey !in q ==> r.0 == Omitted
    ensures UserKey !in q ==> r.1 == Omitted
    ensures RatingKey in q && q[RatingKey] in {"", All} ==> r.0 == Omitted
    ensures RatingKey in q && q[RatingKey] == NoRating ==> r.0 == Null
    ensures RatingKey in q && q[RatingKey] !in {"", All, NoRating} ==> r.0 == Value(q[RatingKey])
    ensures UserKey in q && q[UserKey] in {"", All} ==> r.1 == Omitted
    ensures UserKey in q && q[UserKey] !in {"", All} ==> r.1 == Value(q[UserKey])
  {
    (RatingArg(ReadFilter(q, RatingKey)), UserArg(ReadFilter(q, UserKey)))
  }

  /** Picking a rating in the filter select asks for exactly that: every
      rating for "all", unrated reviews for "none", otherwise that rating;
      the user argument stays as it was. */
  lemma PickRating(q: Query, value: string)
    requires value != ""
    ensures var args := QueryArgs(SetFilter(q, RatingKey, value));
            && (value == All ==> args.0 == Omitted)
            && (value == NoRating ==> args.0 == Null)
            && (value != All && value != NoRating ==> args.0 == Value(value))
            && args.1 == QueryArgs(q).1
  {
    SetThenRead(q, RatingKey, UserKey, value);
  }

  /** Picking a user likewise changes only the user argument. */
  lemma PickUser(q: Query, value: string)
    requires value != ""
    ensures var args := QueryArgs(SetFilter(q, UserKey, value));
            && (value == All ==> args.1 == Omitted)
            && (value != All ==> args.1 == Value(value))
            && args.0 == QueryArgs(q).0
  {
    SetThenRead(q, UserKey, RatingKey, value);
  }

  // ---------------------------------------------------------------------
  // A row's rating select

  /** `review.ratingId || "none"`: the value the row's select shows. */
  function RowSelectValue(ratingId: Option<string>): (r: string)
    ensures r == NoRating <==> !Truthy(ratingId) || ratingId == Some(NoRating)
  {
    if Truthy(ratingId) then ratingId.value else NoRating
  }

  /** `value === "none" ? null : value`: the rating `setRating` sends. */
  function RowRatingArg(value: string): (r: Option<string>)
    ensures r.None? <==> value == NoRating
    ensures r.Some? ==> r.value == value
  {
    if value == NoRating then None else Some(value)
  }

  /** Re-selecting what a row shows sends its rating back unchanged, with
      an empty id normalised to null. */
  lemma RowSelectRoundTrip(ratingId: Option<string>)
    requires ratingId != Some(NoRating)
    ensures RowRatingArg(RowSelectValue(ratingId)) == (if Truthy(ratingId) then ratingId else None)
  {
  }
}

=== FILE: schema.dfy ===
/** The database rows the routers read and write. Every table is a sequence
    of immutable records in table order; a Prisma `findFirst` or `.find` is
    the first match in that order. Nullable columns are `Option`s. */
module Schema {
  import opened Wrappers
  import opened Seqs

  /** Database ids (cuid strings). */
  type Id = string

  /** A tRPC error code, or a plain `Error` thrown with a message.
      `Internal` is an exception the handler does not catch, which tRPC
      reports as INTERNAL_SERVER_ERROR: Prisma's "record not found" when an
      `update`, `delete` or `connect` names a missing row, or a read
      through a required relation whose row is missing. */
  datatype ApiError =
    | Forbidden
    | NotFound
    | BadRequest
    | Unauthorized
    | Internal
    | Failed(message: string)

  /** A `userRole` row joined with its role's `admin` flag. */
  datatype UserRole = UserRole(userId: Id, roleId: nat, admin: bool)

  datatype Season = Season(
    id: Id,
    title: string,
    description: string,
    gameTypeId: int,
    startedOn: int,
    endedOn: Option<int>)

  /** A point award. `value` is what the season total sums; `adjustment`
      is what gamble confirmation and guess scoring write. */
  datatype Point = Point(
    id: Id,
    userId: Id,
    seasonId: Option<Id>,
    value: Option<int>,
    adjustment: Option<int>,
    reason: Option<string>,
    gamePointTypeId: Option<int>,
    earnedOn: int)

  datatype Guess = Guess(
    id: Id,
    userId: Id,
    assignmentReviewId: Id,
    ratingId: Id,
    seasonId: Option<Id>,
    points: Option<int>,
    pointsId: Option<Id>)

  /** A `gamblingPoints` row: a stake placed on an assignment. `successful`
      is null while the bet is open. */
  datatype Gamble = Gamble(
    id: Id,
    userId: Id,
    gamblingTypeId: Option<Id>,
    points: int,
    seasonId: Option<Id>,
    assignmentId: Option<Id>,
    targetUserId: Option<Id>,
    successful: Option<bool>,
    pointsId: Option<Id>)

  datatype GamblingType = GamblingType(id: Id, title: string, multiplier: real)

  datatype GamePointType = GamePointType(id: int, lookupID: string, title: string, points: int)

  datatype Episode = Episode(id: Id, number: int, status: string)

  datatype Assignment = Assignment(
    id: Id,
    userId: Id,
    movieId: Id,
    episodeId: Option<Id>,
    kind: string)

  datatype Review = Review(id: Id, userId: Id, movieId: Id)

  /** Links a review to the assignment it was written for. */
  datatype AssignmentReview = AssignmentReview(id: Id, assignmentId: Id, reviewId: Id)

  datatype AssignmentPoint = AssignmentPoint(id: Id, assignmentId: Id, pointsId: Id)

  datatype TagVote = TagVote(id: Id, tagId: Id, pointId: Option<Id>)

  datatype Syllabus = Syllabus(id: Id, userId: Id, movieId: Id, assignmentId: Option<Id>)

  /** A movie or a show: both tables have the same columns and the same
      upsert-by-url logic. */
  datatype Title = Title(id: Id, title: string, year: int, poster: string, url: string)

  datatype TargetType = Movie | Show | EpisodeTarget

  datatype ListStatus = Draft | Published

  datatype RankedListType = RankedListType(
    id: Id,
    name: string,
    description: Option<string>,
    maxItems: int,
    targetType: TargetType)

  datatype RankedList = RankedList(
    id: Id,
    userId: Id,
    typeId: Id,
    title: Option<string>,
    status: ListStatus)

  datatype RankedItem = RankedItem(
    id: Id,
    listId: Id,
    movieId: Option<Id>,
    showId: Option<Id>,
    episodeId: Option<Id>,
    rank: int,
    comment: Option<string>)

  datatype Db = Db(
    userRoles: seq<UserRole>,
    seasons: seq<Season>,
    points: seq<Point>,
    guesses: seq<Guess>,
    gambles: seq<Gamble>,
    gamblingTypes: seq<GamblingType>,
    gamePointTypes: seq<GamePointType>,
    episodes: seq<Episode>,
    assignments: seq<Assignment>,
    reviews: seq<Review>,
    assignmentReviews: seq<AssignmentReview>,
    assignmentPoints: seq<AssignmentPoint>,
    tagVotes: seq<TagVote>,
    syllabus: seq<Syllabus>,
    movies: seq<Title>,
    shows: seq<Title>,
    listTypes: seq<RankedListType>,
    lists: seq<RankedList>,
    items: seq<RankedItem>)

  /** JavaScript truthiness of an optional string: `null`, `undefined` and
      `""` are falsy. */
  predicate Truthy(s: Option<string>) {
    s.Some? && s.value != ""
  }

  /** `userRoles.some((ur) => ur.role.admin)` over the caller's roles. */
  predicate IsAdmin(roles: seq<UserRole>, userId: Id) {
    exists i :: 0 <= i < |roles| && roles[i].userId == userId && roles[i].admin
  }

  // Lookups by primary key (`findUnique({ where: { id } })`).

  function FindAssignment(db: Db, id: Id): (r: Option<Assignment>)
    ensures r.Some? ==> r.value in db.assignments && r.value.id == id
    ensures r.None? <==> forall j :: 0 <= j < |db.assignments| ==> db.assignments[j].id != id
  {
    First(db.assignments, (a: Assignment) => a.id == id)
  }

  function FindEpisode(db: Db, id: Id): (r: Option<Episode>)
    ensures r.Some? ==> r.value in db.episodes && r.value.id == id
    ensures r.None? <==> forall j :: 0 <= j < |db.episodes| ==> db.episodes[j].id != id
  {
    First(db.episodes, (e: Episode) => e.id == id)
  }

  function FindSeason(db: Db, id: Id): (r: Option<Season>)
    ensures r.Some? ==> r.value in db.seasons && r.value.id == id
    ensures r.None? <==> forall j :: 0 <= j < |db.seasons| ==> db.seasons[j].id != id
  {
    First(db.seasons, (s: Season) => s.id == id)
  }

  function FindGamblingType(db: Db, id: Id): (r: Option<GamblingType>)
    ensures r.Some? ==> r.value in db.gamblingTypes && r.value.id == id
    ensures r.None? <==> forall j :: 0 <= j < |db.gamblingTypes| ==> db.gamblingTypes[j].id != id
  {
    First(db.gamblingTypes, (t: GamblingType) => t.id == id)
  }
}

=== FILE: seasons.dfy ===
/** Season selection shared by the gambling and guess routers: the open
    season, the season in progress at a given time, and the resolution of a
    `seasonId` query argument into a season filter. */
module Seasons {
  import opened Wrappers
  import opened Schema

  /** `findFirst({ where: p, orderBy: { startedOn: 'desc' } })`: the index of
      a season satisfying `p` whose `startedOn` is greatest, the earliest
      such one in table order on a tie; -1 when no season satisfies `p`. */
  function LatestIndex(ss: seq<Season>, p: Season -> bool): (r: int)
    ensures -1 <= r < |ss|
    ensures r >= 0 ==> p(ss[r])
    ensures r >= 0 ==> forall j :: 0 <= j < |ss| && p(ss[j]) ==> ss[j].startedOn <= ss[r].startedOn
    ensures r >= 0 ==> forall j :: 0 <= j < r && p(ss[j]) ==> ss[j].startedOn < ss[r].startedOn
    ensures r < 0 <==> forall j :: 0 <= j < |ss| ==> !p(ss[j])
    decreases |ss|
  {
    if |ss| == 0 then -1
    else
      var k := LatestIndex(ss[..|ss| - 1], p);
      var last := ss[|ss| - 1];
      if p(last) && (k < 0 || ss[k].startedOn < last.startedOn) then |ss| - 1 else k
  }

  function Latest(ss: seq<Season>, p: Season -> bool): (r: Option<Season>)
    ensures r.Some? ==> r.value in ss && p(r.value)
    ensures r.Some? ==> forall j :: 0 <= j < |ss| && p(ss[j]) ==> ss[j].startedOn <= r.value.startedOn
    ensures r.None? <==> forall j :: 0 <= j < |ss| ==> !p(ss[j])
  {
    var k := LatestIndex(ss, p);
    if k < 0 then None else Some(ss[k])
  }

  /** `where: { endedOn: null }`. */
  predicate IsOpen(s: Season) {
    s.endedOn.None?
  }

  /** `startedOn <= now` and (`endedOn >= now` or `endedOn` null). */
  predicate InProgress(s: Season, now: int) {
    s.startedOn <= now && (s.endedOn.None? || s.endedOn.value >= now)
  }

  /** The open season with the latest start, as the gambling router looks
      it up. */
  function OpenSeason(ss: seq<Season>): (r: Option<Season>)
    ensures r.Some? ==> r.value in ss && IsOpen(r.value)
    ensures r.Some? ==> forall j :: 0 <= j < |ss| && IsOpen(ss[j]) ==> ss[j].startedOn <= r.value.startedOn
    ensures r.None? <==> forall j :: 0 <= j < |ss| ==> !IsOpen(ss[j])
  {
    Latest(ss, IsOpen)
  }

  /** The `currentSeason` query: the season in progress at `now` with the
      latest start. */
  function CurrentSeason(ss: seq<Season>, now: int): (r: Option<Season>)
    ensures r.Some? ==> r.value in ss && InProgress(r.value, now)
    ensures r.Some? ==> forall j :: 0 <= j < |ss| && InProgress(ss[j], now) ==> ss[j].startedOn <= r.value.startedOn
    ensures r.None? <==> forall j :: 0 <= j < |ss| ==> !InProgress(ss[j], now)
  {
    Latest(ss, (s: Season) => InProgress(s, now))
  }

  function IdOf(s: Option<Season>): Option<Id> {
    match s
    case Some(season) => Some(season.id)
    case None => None
  }

  /** The season filter both `getForUser` queries build from their optional
      `seasonId` argument. `"all"` means no filter; an absent or empty
      argument falls back to `fallback` (the open or current season's id);
      a filter that ends up falsy is not applied. `None` means "no filter". */
  function ResolveSeasonFilter(requested: Option<string>, fallback: Option<Id>): (r: Option<Id>)
    ensures r.Some? ==> r.value != ""
    ensures requested == Some("all") ==> r.None?
    ensures Truthy(requested) && requested != Some("all") ==> r == requested
    ensures !Truthy(requested) && Truthy(fallback) ==> r == fallback
    ensures !Truthy(requested) && !Truthy(fallback) ==> r.None?
  {
    var isAll := requested == Some("all");
    var seasonId := if !Truthy(requested) then fallback else requested;
    var filter := if isAll then None else seasonId;
    if Truthy(filter) then filter else None
  }

  /** A record with season `recordSeason` passes `filter`. */
  predicate PassesSeasonFilter(recordSeason: Option<Id>, filter: Option<Id>) {
    filter.None? || recordSeason == filter
  }

  /** `endSeason`: the ended season gets `endedOn = now`, then a new season
      starting `now` is appended. On a missing ended season Prisma's update
      throws, and nothing is created. */
  function EndSeason(
    ss: seq<Season>, endedSeasonId: Id, title: string, description: string,
    gameTypeId: int, now: int, newId: Id): (r: Result<seq<Season>, ApiError>)
    ensures r.Failure? <==> forall j :: 0 <= j < |ss| ==> ss[j].id != endedSeasonId
    ensures r.Failure? ==> r.error == Internal
    ensures r.Success? ==> |r.value| == |ss| + 1
    ensures r.Success? ==> r.value[|ss|] == Season(newId, title, description, gameTypeId, now, None)
    ensures r.Success? ==> forall j :: 0 <= j < |ss| ==>
              r.value[j] == if ss[j].id == endedSeasonId then ss[j].(endedOn := Some(now)) else ss[j]
  {
    if forall j :: 0 <= j < |ss| ==> ss[j].id != endedSeasonId then Failure(Internal)
    else
      var ended := seq(|ss|, j requires 0 <= j < |ss| =>
        if ss[j].id == endedSeasonId then ss[j].(endedOn := Some(now)) else ss[j]);
      Success(ended + [Season(newId, title, description, gameTypeId, now, None)])
  }

  /** After `endSeason`, when every other season started before `now`, the
      new season is both the open season and the current season, so the
      next bets and guesses land in it. */
  lemma EndSeasonStartsNext(
    ss: seq<Season>, endedSeasonId: Id, title: string, description: string,
    gameTypeId: int, now: int, newId: Id)
    requires forall j :: 0 <= j < |ss| ==> ss[j].startedOn < now
    requires EndSeason(ss, endedSeasonId, title, description, gameTypeId, now, newId).Success?
    ensures var after := EndSeason(ss, endedSeasonId, title, description, gameTypeId, now, newId).value;
            && OpenSeason(after) == Some(after[|ss|])
            && CurrentSeason(after, now) == Some(after[|ss|])
  {
    var after := EndSeason(ss, endedSeasonId, title, description, gameTypeId, now, newId).value;
    var next := after[|ss|];
    assert IsOpen(next) && InProgress(next, now);
    assert forall j :: 0 <= j < |ss| ==> after[j].startedOn < now;
    var o := OpenSeason(after);
    assert o.value.startedOn >= now;
    var c := CurrentSeason(after, now);
    assert c.value.startedOn >= now;
  }
}

=== FILE: seqs.dfy ===
/** Folds and filters over tables held as sequences. */
module Seqs {
  import opened Wrappers

  /** `xs.reduce((acc, x) => acc + f(x), 0)`. */
  function SumBy<T>(xs: seq<T>, f: T -> int): int
    decreases |xs|
  {
    if |xs| == 0 then 0 else f(xs[0]) + SumBy(xs[1..], f)
  }

  lemma {:induction false} SumByAppend<T>(a: seq<T>, b: seq<T>, f: T -> int)
    ensures SumBy(a + b, f) == SumBy(a, f) + SumBy(b, f)
    decreases |a|
  {
    if |a| == 0 {
      assert a + b == b;
    } else {
      assert (a + b)[1..] == a[1..] + b;
      SumByAppend(a[1..], b, f);
    }
  }

  /** Taking one element out of the fold. */
  lemma SumByRemove<T>(b: seq<T>, k: nat, f: T -> int)
    requires k < |b|
    ensures SumBy(b, f) == f(b[k]) + SumBy(b[..k] + b[k + 1..], f)
  {
    assert b == b[..k] + b[k..];
    SumByAppend(b[..k], b[k..], f);
    assert b[k..][0] == b[k] && b[k..][1..] == b[k + 1..];
    SumByAppend(b[..k], b[k + 1..], f);
  }

  lemma MultisetRemove<T>(b: seq<T>, k: nat)
    requires k < |b|
    ensures multiset(b[..k] + b[k + 1..]) == multiset(b) - multiset{b[k]}
  {
    assert b == b[..k] + [b[k]] + b[k + 1..];
  }

  /** A permutation has the same length. */
  lemma PermutationSameLength<T>(a: seq<T>, b: seq<T>)
    requires multiset(a) == multiset(b)
    ensures |a| == |b|
  {
    assert |a| == |multiset(a)| && |b| == |multiset(b)|;
  }

  /** The fold does not depend on the order of the elements. */
  lemma {:induction false} SumByPermutation<T>(a: seq<T>, b: seq<T>, f: T -> int)
    requires multiset(a) == multiset(b)
    ensures SumBy(a, f) == SumBy(b, f)
    decreases |a|
  {
    if |a| == 0 {
      assert |multiset(b)| == 0;
    } else {
      var k := RemoveMatching(a, b);
      SumByPermutation(a[1..], b[..k] + b[k + 1..], f);
      SumByRemove(b, k, f);
    }
  }

  /** The first element of `a` occurs in its permutation `b` at some `k`,
      and what remains of both is still a permutation. */
  lemma RemoveMatching<T>(a: seq<T>, b: seq<T>) returns (k: nat)
    requires |a| > 0 && multiset(a) == multiset(b)
    ensures k < |b| && b[k] == a[0]
    ensures multiset(a[1..]) == multiset(b[..k] + b[k + 1..])
  {
    assert a[0] in b by {
      assert a[0] in multiset(b);
    }
    k := IndexOf(b, a[0]);
    MultisetRemove(b, k);
    assert multiset(a[1..]) == multiset(a) - multiset{a[0]} by {
      assert a == [a[0]] + a[1..];
    }
  }

  /** A position of an element of `b`. */
  lemma IndexOf<T>(b: seq<T>, x: T) returns (k: nat)
    requires x in b
    ensures k < |b| && b[k] == x
  {
    k :| 0 <= k < |b| && b[k] == x;
  }

  /** Replacing one element changes the fold by the difference. */
  lemma SumByReplace<T>(xs: seq<T>, k: nat, x: T, f: T -> int)
    requires k < |xs|
    ensures SumBy(xs[k := x], f) == SumBy(xs, f) - f(xs[k]) + f(x)
  {
    var ys := xs[k := x];
    SumByRemove(xs, k, f);
    SumByRemove(ys, k, f);
    assert ys[..k] + ys[k + 1..] == xs[..k] + xs[k + 1..];
  }

  /** Elements the fold maps to zero do not change it. */
  lemma {:induction false} SumByZero<T>(xs: seq<T>, f: T -> int)
    requires forall i :: 0 <= i < |xs| ==> f(xs[i]) == 0
    ensures SumBy(xs, f) == 0
    decreases |xs|
  {
    if |xs| > 0 {
      SumByZero(xs[1..], f);
    }
  }

  /** The elements of `xs` satisfying `p`, in their original order. */
  function Filter<T(==)>(xs: seq<T>, p: T -> bool): (r: seq<T>)
    ensures |r| <= |xs|
    ensures forall i :: 0 <= i < |r| ==> r[i] in xs && p(r[i])
    ensures forall i :: 0 <= i < |xs| && p(xs[i]) ==> xs[i] in r
    decreases |xs|
  {
    if |xs| == 0 then []
    else if p(xs[0]) then [xs[0]] + Filter(xs[1..], p)
    else Filter(xs[1..], p)
  }

  /** Filtering with a predicate every element meets keeps everything. */
  lemma {:induction false} FilterAll<T>(xs: seq<T>, p: T -> bool)
    requires forall i :: 0 <= i < |xs| ==> p(xs[i])
    ensures Filter(xs, p) == xs
    decreases |xs|
  {
    if |xs| > 0 {
      FilterAll(xs[1..], p);
      assert xs == [xs[0]] + xs[1..];
    }
  }

  /** Two filters in a row are one filter `both` with both conditions. */
  lemma {:induction false} FilterFilter<T>(xs: seq<T>, p: T -> bool, q: T -> bool, both: T -> bool)
    requires forall i :: 0 <= i < |xs| ==> both(xs[i]) == (p(xs[i]) && q(xs[i]))
    ensures Filter(Filter(xs, p), q) == Filter(xs, both)
    decreases |xs|
  {
    if |xs| > 0 {
      FilterFilter(xs[1..], p, q, both);
      if p(xs[0]) {
        assert ([xs[0]] + Filter(xs[1..], p))[1..] == Filter(xs[1..], p);
      }
    }
  }

  /** Predicates that agree on every element filter alike. */
  lemma {:induction false} FilterSame<T>(xs: seq<T>, p: T -> bool, q: T -> bool)
    requires forall i :: 0 <= i < |xs| ==> p(xs[i]) == q(xs[i])
    ensures Filter(xs, p) == Filter(xs, q)
    decreases |xs|
  {
    if |xs| > 0 {
      FilterSame(xs[1..], p, q);
    }
  }

  lemma {:induction false} FilterAppend<T>(a: seq<T>, b: seq<T>, p: T -> bool)
    ensures Filter(a + b, p) == Filter(a, p) + Filter(b, p)
    decreases |a|
  {
    if |a| == 0 {
      assert a + b == b;
    } else {
      assert (a + b)[1..] == a[1..] + b;
      FilterAppend(a[1..], b, p);
    }
  }

  /** Dropping the elements `f` maps to zero leaves the fold unchanged. */
  lemma {:induction false} SumByFilter<T>(xs: seq<T>, p: T -> bool, f: T -> int)
    requires forall i :: 0 <= i < |xs| ==> !p(xs[i]) ==> f(xs[i]) == 0
    ensures SumBy(Filter(xs, p), f) == SumBy(xs, f)
    decreases |xs|
  {
    if |xs| > 0 {
      SumByFilter(xs[1..], p, f);
      if p(xs[0]) {
        assert ([xs[0]] + Filter(xs[1..], p))[1..] == Filter(xs[1..], p);
      }
    }
  }

  /** Index of the first element satisfying `p`: JavaScript's `findIndex`
      and Prisma's `findFirst` in table order. */
  function FirstIndex<T>(xs: seq<T>, p: T -> bool): (r: int)
    ensures -1 <= r < |xs|
    ensures r >= 0 ==> p(xs[r])
    ensures forall j :: 0 <= j < |xs| && (r < 0 || j < r) ==> !p(xs[j])
    decreases |xs|
  {
    if |xs| == 0 then -1
    else if p(xs[0]) then 0
    else
      var k := FirstIndex(xs[1..], p);
      if k < 0 then -1 else k + 1
  }

  /** The first element satisfying `p`: Prisma's `findFirst`/`findUnique`
      and JavaScript's `find`. */
  function First<T>(xs: seq<T>, p: T -> bool): (r: Option<T>)
    ensures r.Some? ==> r.value in xs && p(r.value)
    ensures r.None? <==> forall j :: 0 <= j < |xs| ==> !p(xs[j])
  {
    var k := FirstIndex(xs, p);
    if k < 0 then None else Some(xs[k])
  }

  /** Replace the element at index `k`. */
  function ReplaceAt<T>(xs: seq<T>, k: nat, x: T): (r: seq<T>)
    requires k < |xs|
    ensures |r| == |xs| && r[k] == x
    ensures forall j :: 0 <= j < |xs| && j != k ==> r[j] == xs[j]
  {
    xs[k := x]
  }

  /** Remove the element at index `k`, keeping the others in order. */
  function RemoveAt<T>(xs: seq<T>, k: nat): (r: seq<T>)
    requires k < |xs|
    ensures |r| == |xs| - 1
    ensures forall j :: 0 <= j < k ==> r[j] == xs[j]
    ensures forall j :: k <= j < |r| ==> r[j] == xs[j + 1]
  {
    xs[..k] + xs[k + 1..]
  }
  /** Every pair of elements is in `le` order. */
  predicate SortedBy<T>(s: seq<T>, le: (T, T) -> bool) {
    forall i, j {:trigger le(s[i], s[j])} :: 0 <= i < j < |s| ==> le(s[i], s[j])
  }

  /** `le` relates any two values one way or the other, and transitively. */
  ghost predicate TotalPreorder<T(!new)>(le: (T, T) -> bool) {
    && (forall a, b :: le(a, b) || le(b, a))
    && (forall a, b, c :: le(a, b) && le(b, c) ==> le(a, c))
  }

  /** Insert `x` after every element it does not strictly precede. */
  function InsertBy<T(!new)>(x: T, s: seq<T>, le: (T, T) -> bool): (r: seq<T>)
    requires TotalPreorder(le)
    ensures multiset(r) == multiset(s) + multiset{x}
    ensures SortedBy(s, le) ==> SortedBy(r, le)
    decreases |s|
  {
    if |s| == 0 then [x]
    else if !le(s[0], x) then
      PrependSortedBy(x, s, le);
      [x] + s
    else
      var rest := InsertBy(x, s[1..], le);
      ConsSortedBy(x, s, rest, le);
      [s[0]] + rest
  }

  lemma PrependSortedBy<T(!new)>(x: T, s: seq<T>, le: (T, T) -> bool)
    requires TotalPreorder(le)
    requires |s| > 0 && !le(s[0], x)
    ensures multiset([x] + s) == multiset(s) + multiset{x}
    ensures SortedBy(s, le) ==> SortedBy([x] + s, le)
  {
    var r := [x] + s;
    if SortedBy(s, le) {
      forall j | 0 < j < |r| ensures le(x, r[j]) {
        assert le(x, s[0]);
        if j > 1 {
          assert le(s[0], r[j]);
        }
      }
    }
  }

  lemma ConsSortedBy<T(!new)>(x: T, s: seq<T>, rest: seq<T>, le: (T, T) -> bool)
    requires TotalPreorder(le)
    requires |s| > 0 && le(s[0], x)
    requires multiset(rest) == multiset(s[1..]) + multiset{x}
    requires SortedBy(s[1..], le) ==> SortedBy(rest, le)
    ensures multiset([s[0]] + rest) == multiset(s) + multiset{x}
    ensures SortedBy(s, le) ==> SortedBy([s[0]] + rest, le)
  {
    assert s == [s[0]] + s[1..];
    if SortedBy(s, le) {
      assert SortedBy(s[1..], le);
      forall j | 0 <= j < |rest| ensures le(s[0], rest[j]) {
        assert rest[j] in multiset(rest);
        HeadBefore(x, s, rest[j], le);
      }
      PrependHead(s[0], rest, le);
    }
  }

  /** A head that comes before every element of a sorted tail keeps it
      sorted. */
  lemma PrependHead<T>(h: T, rest: seq<T>, le: (T, T) -> bool)
    requires SortedBy(rest, le)
    requires forall j :: 0 <= j < |rest| ==> le(h, rest[j])
    ensures SortedBy([h] + rest, le)
  {
    var r := [h] + rest;
    forall a, b | 0 <= a < b < |r| ensures le(r[a], r[b]) {
      assert r[b] == rest[b - 1];
      if a > 0 {
        assert r[a] == rest[a - 1];
      }
    }
  }

  /** The head of a sorted list comes before every element of its tail and
      before any `x` it comes before. */
  lemma HeadBefore<T(!new)>(x: T, s: seq<T>, y: T, le: (T, T) -> bool)
    requires |s| > 0 && le(s[0], x) && SortedBy(s, le)
    requires y in multiset(s[1..]) + multiset{x}
    ensures le(s[0], y)
  {
    if y != x {
      assert y in s[1..];
      var k :| 0 <= k < |s[1..]| && s[1..][k] == y;
      assert s[k + 1] == y;
    }
  }

  /** Insertion sort by `le`; elements `le` cannot tell apart keep their
      relative order. */
  function SortBy<T(!new)>(xs: seq<T>, le: (T, T) -> bool): (r: seq<T>)
    requires TotalPreorder(le)
    ensures multiset(r) == multiset(xs)
    ensures SortedBy(r, le)
    decreases |xs|
  {
    if |xs| == 0 then []
    else
      assert xs == xs[..|xs| - 1] + [xs[|xs| - 1]];
      InsertBy(xs[|xs| - 1], SortBy(xs[..|xs| - 1], le), le)
  }
}

=== FILE: sidebar.dfy ===
/** The sidebar's navigation: which entry is highlighted for the current
    path. Some entries match the path exactly, the others by prefix. */
module Sidebar {
  import JsText

  datatype Rule = Exact | Prefix

  datatype Route = Route(section: string, title: string, href: string, rule: Rule)

  /** Every entry of the sidebar, section by section, in display order. */
  const Routes: seq<Route> := [
    Route("Main", "Dashboard", "/", Exact),
    Route("Main", "Up Next", "/record", Exact),
    Route("Main", "Search", "/search", Exact),
    Route("Content", "Episodes", "/episode", Prefix),
    Route("Content", "Shows", "/show", Prefix),
    Route("Content", "Movies", "/movie", Prefix),
    Route("Content", "Bangers", "/banger", Prefix),
    Route("Content", "Reviews", "/review", Prefix),
    Route("Content", "Global Syllabus", "/syllabus", Prefix),
    Route("Community", "Users", "/user", Prefix),
    Route("Community", "Roles", "/role", Prefix),
    Route("Community", "Tags & Votes", "/tag", Prefix),
    Route("System", "Seasons", "/season", Prefix),
    Route("System", "Game Mechanics", "/game", Prefix),
    Route("System", "Ratings Setup", "/rating", Prefix),
    Route("System", "Lists", "/lists", Prefix),
    Route("Development", "About", "/about", Exact),
    Route("Development", "Test Lab", "/test", Exact),
    Route("Development", "Test Audio", "/test-audio", Exact)
  ]

  /** An entry's `active` flag: `pathname === href` or
      `pathname.startsWith(href)`. */
  predicate Active(r: Route, pathname: string) {
    match r.rule
    case Exact => pathname == r.href
    case Prefix => JsText.StartsWith(pathname, r.href)
  }

  /** The indices of the highlighted entries. */
  function ActiveIndices(pathname: string): (r: set<nat>)
    ensures forall i: nat :: i in r <==> i < |Routes| && Active(Routes[i], pathname)
  {
    set i: nat | i < |Routes| && Active(Routes[i], pathname)
  }

  /** Two prefixes of one string: the shorter is a prefix of the longer. */
  lemma PrefixesNest(p: string, a: string, b: string)
    requires JsText.StartsWith(p, a) && JsText.StartsWith(p, b) && |a| <= |b|
    ensures JsText.StartsWith(b, a)
  {
    assert b[..|a|] == p[..|b|][..|a|] == p[..|a|];
  }

  /** Two exact entries never share an href, and no prefix entry's href is
      a prefix of another entry's href. */
  predicate Unambiguous(routes: seq<Route>) {
    && (forall i, j :: (0 <= i < |routes| && 0 <= j < |routes| && i != j &&
                       routes[i].rule == Exact && routes[j].rule == Exact) ==> routes[i].href != routes[j].href)
    && (forall i, j :: 0 <= i < |routes| && 0 <= j < |routes| && i != j && routes[i].rule == Prefix ==>
          !JsText.StartsWith(routes[j].href, routes[i].href))
  }

  /** The hrefs of `Routes`, in the same order; the prefix entries are
      those from index 3 to 15. */
  const Hrefs: seq<string> := [
    "/", "/record", "/search",
    "/episode", "/show", "/movie", "/banger", "/review", "/syllabus",
    "/user", "/role", "/tag",
    "/season", "/game", "/rating", "/lists",
    "/about", "/test", "/test-audio"
  ]

  lemma HrefsOfRoutes()
    ensures |Hrefs| == |Routes|
    ensures forall i :: 0 <= i < |Routes| ==> Routes[i].href == Hrefs[i]
    ensures forall i :: 0 <= i < |Routes| ==> (Routes[i].rule == Prefix <==> 3 <= i <= 15)
  {
  }

  /** The first position at or after `k` where `a` and `b` differ, or the
      end of the shorter one. */
  function Common(a: string, b: string, k: nat): (n: nat)
    requires k <= |a| && k <= |b|
    ensures k <= n <= |a| && n <= |b|
    ensures n < |a| && n < |b| ==> a[n] != b[n]
    decreases |a| - k
  {
    if k == |a| || k == |b| || a[k] != b[k] then k else Common(a, b, k + 1)
  }

  /** `s` does not start with `p` when they differ at a position of `p`. */
  lemma DiffersAt(s: string, p: string, k: nat)
    requires k < |p| && (k >= |s| || s[k] != p[k])
    ensures !JsText.StartsWith(s, p)
  {
  }

  /** For every `i` in `lo..hi`, no other href starts with the href at
      index `i`. */
  predicate PrefixFree(lo: nat, hi: nat) {
    forall i, j :: lo <= i < hi && 0 <= j < |Hrefs| && i != j && i < |Hrefs| ==>
      !JsText.StartsWith(Hrefs[j], Hrefs[i])
  }

  lemma PrefixFree3()
    ensures PrefixFree(3, 5)
  {
    forall i, j | 3 <= i < 5 && 0 <= j < |Hrefs| && i != j
      ensures !JsText.StartsWith(Hrefs[j], Hrefs[i])
    {
      var n := Common(Hrefs[i], Hrefs[j], 0);
      DiffersAt(Hrefs[j], Hrefs[i], n);
    }
  }

  lemma PrefixFree5()
    ensures PrefixFree(5, 7)
  {
    forall i, j | 5 <= i < 7 && 0 <= j < |Hrefs| && i != j
      ensures !JsText.StartsWith(Hrefs[j], Hrefs[i])
    {
      var n := Common(Hrefs[i], Hrefs[j], 0);
      DiffersAt(Hrefs[j], Hrefs[i], n);
    }
  }

  lemma PrefixFree7()
    ensures PrefixFree(7, 9)
  {
    forall i, j | 7 <= i < 9 && 0 <= j < |Hrefs| && i != j
      ensures !JsText.StartsWith(Hrefs[j], Hrefs[i])
    {
      var n := Common(Hrefs[i], Hrefs[j], 0);
      DiffersAt(Hrefs[j], Hrefs[i], n);
    }
  }

  lemma PrefixFree9()
    ensures PrefixFree(9, 11)
  {
    forall i, j | 9 <= i < 11 && 0 <= j < |Hrefs| && i != j
      ensures !JsText.StartsWith(Hrefs[j], Hrefs[i])
    {
      var n := Common(Hrefs[i], Hrefs[j], 0);
      DiffersAt(Hrefs[j], Hrefs[i], n);
    }
  }

  lemma PrefixFree11()
    ensures PrefixFree(11, 13)
  {
    forall i, j | 11 <= i < 13 && 0 <= j < |Hrefs| && i != j
      ensures !JsText.StartsWith(Hrefs[j], Hrefs[i])
    {
      var n := Common(Hrefs[i], Hrefs[j], 0);
      DiffersAt(Hrefs[j], Hrefs[i], n);
    }
  }

  lemma PrefixFree13()
    ensures PrefixFree(13, 16)
  {
    forall i, j | 13 <= i < 16 && 0 <= j < |Hrefs| && i != j
      ensures !JsText.StartsWith(Hrefs[j], Hrefs[i])
    {
      var n := Common(Hrefs[i], Hrefs[j], 0);
      DiffersAt(Hrefs[j], Hrefs[i], n);
    }
  }

  lemma ExactDistinct()
    ensures forall i, j :: i in {0, 1, 2, 16, 17, 18} && j in {0, 1, 2, 16, 17, 18} && i != j ==> Hrefs[i] != Hrefs[j]
  {
    forall i, j | i in {0, 1, 2, 16, 17, 18} && j in {0, 1, 2, 16, 17, 18} && i != j
      ensures Hrefs[i] != Hrefs[j]
    {
      var n := Common(Hrefs[i], Hrefs[j], 0);
    }
  }

  lemma RoutesUnambiguous()
    ensures Unambiguous(Routes)
  {
    HrefsOfRoutes();
    PrefixFree3();
    PrefixFree5();
    PrefixFree7();
    PrefixFree9();
    PrefixFree11();
    PrefixFree13();
    ExactDistinct();
  }

  /** With unambiguous hrefs, at most one entry is highlighted for any
      path whatever. */
  lemma {:induction false} AtMostOneActive(routes: seq<Route>, pathname: string, i: nat, j: nat)
    requires Unambiguous(routes)
    requires i < |routes| && j < |routes|
    requires Active(routes[i], pathname) && Active(routes[j], pathname)
    ensures i == j
  {
    if i != j {
      var a, b := routes[i], routes[j];
      if a.rule == Prefix && b.rule == Prefix {
        if |a.href| <= |b.href| {
          PrefixesNest(pathname, a.href, b.href);
        } else {
          PrefixesNest(pathname, b.href, a.href);
        }
      }
    }
  }

  /** So the sidebar never highlights two entries. */
  lemma SidebarHighlightsAtMostOne(pathname: string, i: nat, j: nat)
    requires i in ActiveIndices(pathname) && j in ActiveIndices(pathname)
    ensures i == j
  {
    RoutesUnambiguous();
    AtMostOneActive(Routes, pathname, i, j);
  }

  /** A detail page highlights its section's entry; "/users" highlights
      Users because the prefix test has no segment boundary; "/test-audio"
      highlights Test Audio and not Test Lab; "/" highlights only the
      dashboard. */
  lemma ExamplePaths()
    ensures ActiveIndices("/episode/42") == {3}
    ensures ActiveIndices("/users") == {9}
    ensures ActiveIndices("/test-audio") == {18}
    ensures ActiveIndices("/") == {0}
  {
    assert Active(Routes[3], "/episode/42");
    assert Active(Routes[9], "/users");
    assert Active(Routes[18], "/test-audio");
    assert Active(Routes[0], "/");
    forall i | i in ActiveIndices("/episode/42") ensures i == 3 {
      SidebarHighlightsAtMostOne("/episode/42", i, 3);
    }
    forall i | i in ActiveIndices("/users") ensures i == 9 {
      SidebarHighlightsAtMostOne("/users", i, 9);
    }
    forall i | i in ActiveIndices("/test-audio") ensures i == 18 {
      SidebarHighlightsAtMostOne("/test-audio", i, 18);
    }
    forall i | i in ActiveIndices("/") ensures i == 0 {
      SidebarHighlightsAtMostOne("/", i, 0);
    }
  }
}

=== FILE: syllabus.dfy ===
/** The syllabus router: linking a syllabus entry (a user's queued movie) to
    an assignment on an episode, and unlinking it again. */
module SyllabusRouter {
  import opened Wrappers
  import opened Schema
  import opened Seqs

  const EpisodeNotFound := "Episode not found"
  const SyllabusNotFound := "Syllabus item not found"

  function SyllabusIndex(ss: seq<Syllabus>, id: Id): (r: int)
    ensures -1 <= r < |ss|
    ensures r >= 0 ==> ss[r].id == id
    ensures r >= 0 ==> forall j :: 0 <= j < r ==> ss[j].id != id
    ensures r < 0 <==> forall j :: 0 <= j < |ss| ==> ss[j].id != id
  {
    FirstIndex(ss, (s: Syllabus) => s.id == id)
  }

  /** `findFirst` by episode number: when several episodes share the
      number, the earliest in table order is the one returned
      (`EpisodeByNumberIsFirst`). */
  function EpisodeByNumber(db: Db, number: int): (r: Option<Episode>)
    ensures r.Some? ==> r.value in db.episodes && r.value.number == number
    ensures r.None? <==> forall j :: 0 <= j < |db.episodes| ==> db.episodes[j].number != number
  {
    First(db.episodes, (e: Episode) => e.number == number)
  }

  /** The episode found comes no later than any episode with that number. */
  lemma EpisodeByNumberIsFirst(db: Db, number: int, j: nat)
    requires j < |db.episodes| && db.episodes[j].number == number
    ensures EpisodeByNumber(db, number).Some?
    ensures EpisodeByNumber(db, number).value in db.episodes[..j + 1]
  {
    var k := FirstIndex(db.episodes, (e: Episode) => e.number == number);
    assert 0 <= k <= j;
    assert db.episodes[..j + 1][k] == db.episodes[k];
  }

  /** An assignment of `userId`'s `movieId` on episode `episodeId`. */
  predicate AssignmentFor(a: Assignment, userId: Id, movieId: Id, episodeId: Id) {
    a.userId == userId && a.movieId == movieId && a.episodeId == Some(episodeId)
  }

  function ExistingAssignment(assignments: seq<Assignment>, userId: Id, movieId: Id, episodeId: Id): (r: int)
    ensures -1 <= r < |assignments|
    ensures r >= 0 ==> AssignmentFor(assignments[r], userId, movieId, episodeId)
    ensures r >= 0 ==> forall j :: 0 <= j < r ==> !AssignmentFor(assignments[j], userId, movieId, episodeId)
    ensures r < 0 <==> forall j :: 0 <= j < |assignments| ==> !AssignmentFor(assignments[j], userId, movieId, episodeId)
  {
    FirstIndex(assignments, (a: Assignment) => AssignmentFor(a, userId, movieId, episodeId))
  }

  /** `assignEpisode`: find the episode by number and the syllabus entry,
      reuse the entry owner's assignment of that movie on that episode or
      create one, and point the entry at it. */
  function AssignEpisode(db: Db, syllabusId: Id, episodeNumber: int, assignmentType: string, newAssignmentId: Id)
    : (r: Result<Db, ApiError>)
    ensures EpisodeByNumber(db, episodeNumber).None? ==> r == Failure(Failed(EpisodeNotFound))
    ensures EpisodeByNumber(db, episodeNumber).Some? && SyllabusIndex(db.syllabus, syllabusId) < 0 ==>
              r == Failure(Failed(SyllabusNotFound))
    ensures r.Success? <==> EpisodeByNumber(db, episodeNumber).Some? && SyllabusIndex(db.syllabus, syllabusId) >= 0
    ensures r.Success? ==>
              var k := SyllabusIndex(db.syllabus, syllabusId);
              var s := db.syllabus[k];
              var e := EpisodeByNumber(db, episodeNumber).value;
              var reused := ExistingAssignment(db.assignments, s.userId, s.movieId, e.id) >= 0;
              && r.value == db.(syllabus := r.value.syllabus, assignments := r.value.assignments)
              && |r.value.syllabus| == |db.syllabus|
              && r.value.syllabus == db.syllabus[k := s.(assignmentId := r.value.syllabus[k].assignmentId)]
              && r.value.syllabus[k].assignmentId.Some?
              && (exists j :: 0 <= j < |r.value.assignments| &&
                    r.value.assignments[j].id == r.value.syllabus[k].assignmentId.value &&
                    AssignmentFor(r.value.assignments[j], s.userId, s.movieId, e.id))
              && (reused ==> r.value.assignments == db.assignments)
              && (!reused ==>
                    r.value.assignments ==
                    db.assignments + [Assignment(newAssignmentId, s.userId, s.movieId, Some(e.id), assignmentType)])
  {
    var episode := EpisodeByNumber(db, episodeNumber);
    if episode.None? then Failure(Failed(EpisodeNotFound))
    else
      var k := SyllabusIndex(db.syllabus, syllabusId);
      if k < 0 then Failure(Failed(SyllabusNotFound))
      else
        var s := db.syllabus[k];
        var e := episode.value;
        var existing := ExistingAssignment(db.assignments, s.userId, s.movieId, e.id);
        if existing >= 0 then
          Success(db.(syllabus := db.syllabus[k := s.(assignmentId := Some(db.assignments[existing].id))]))
        else
          var a := Assignment(newAssignmentId, s.userId, s.movieId, Some(e.id), assignmentType);
          assert (db.assignments + [a])[|db.assignments|] == a;
          Success(db.(assignments := db.assignments + [a],
                      syllabus := db.syllabus[k := s.(assignmentId := Some(newAssignmentId))]))
  }

  /** Assigning the same episode twice creates no second assignment: the
      second call reuses the first call's assignment and changes nothing. */
  lemma AssignEpisodeIdempotent(db: Db, syllabusId: Id, episodeNumber: int, assignmentType: string,
                                newAssignmentId: Id, newAssignmentId': Id)
    requires AssignEpisode(db, syllabusId, episodeNumber, assignmentType, newAssignmentId).Success?
    ensures var once := AssignEpisode(db, syllabusId, episodeNumber, assignmentType, newAssignmentId).value;
            AssignEpisode(once, syllabusId, episodeNumber, assignmentType, newAssignmentId') == Success(once)
  {
    var once := AssignEpisode(db, syllabusId, episodeNumber, assignmentType, newAssignmentId).value;
    var k := SyllabusIndex(db.syllabus, syllabusId);
    var link := once.syllabus[k].assignmentId;
    ReassignRestores(db, syllabusId, episodeNumber, assignmentType, newAssignmentId, newAssignmentId', link);
    assert once.syllabus[k := once.syllabus[k].(assignmentId := link)] == once.syllabus;
  }

  /** Entries with the same ids, position by position, find an id at the
      same index. */
  lemma SameIdsSameIndex(a: seq<Syllabus>, b: seq<Syllabus>, id: Id)
    requires |a| == |b|
    requires forall j :: 0 <= j < |a| ==> a[j].id == b[j].id
    ensures SyllabusIndex(a, id) == SyllabusIndex(b, id)
  {
    var i := SyllabusIndex(a, id);
    if i >= 0 {
      assert b[i].id == id;
    }
  }

  /** After an assignment, the assignment the entry points at is the first
      one of the entry's owner, movie and episode. */
  lemma AssignedIsFound(db: Db, syllabusId: Id, episodeNumber: int, assignmentType: string, newAssignmentId: Id)
    requires AssignEpisode(db, syllabusId, episodeNumber, assignmentType, newAssignmentId).Success?
    ensures var once := AssignEpisode(db, syllabusId, episodeNumber, assignmentType, newAssignmentId).value;
            var k := SyllabusIndex(db.syllabus, syllabusId);
            var s := db.syllabus[k];
            var x := ExistingAssignment(once.assignments, s.userId, s.movieId, EpisodeByNumber(db, episodeNumber).value.id);
            x >= 0 && once.syllabus[k].assignmentId == Some(once.assignments[x].id)
  {
    var once := AssignEpisode(db, syllabusId, episodeNumber, assignmentType, newAssignmentId).value;
    var k := SyllabusIndex(db.syllabus, syllabusId);
    var s := db.syllabus[k];
    var e := EpisodeByNumber(db, episodeNumber).value;
    var n := |db.assignments|;
    if ExistingAssignment(db.assignments, s.userId, s.movieId, e.id) < 0 {
      assert forall j :: 0 <= j < n ==> once.assignments[j] == db.assignments[j];
      assert AssignmentFor(once.assignments[n], s.userId, s.movieId, e.id);
      assert ExistingAssignment(once.assignments, s.userId, s.movieId, e.id) == n;
    }
  }

  /** Whatever the entry's link is set to after an assignment, assigning the
      same episode again restores the first result. */
  lemma ReassignRestores(db: Db, syllabusId: Id, episodeNumber: int, assignmentType: string,
                         newAssignmentId: Id, newAssignmentId': Id, link: Option<Id>)
    requires AssignEpisode(db, syllabusId, episodeNumber, assignmentType, newAssignmentId).Success?
    ensures var once := AssignEpisode(db, syllabusId, episodeNumber, assignmentType, newAssignmentId).value;
            var k := SyllabusIndex(db.syllabus, syllabusId);
            var db2 := once.(syllabus := once.syllabus[k := once.syllabus[k].(assignmentId := link)]);
            AssignEpisode(db2, syllabusId, episodeNumber, assignmentType, newAssignmentId') == Success(once)
  {
    var once := AssignEpisode(db, syllabusId, episodeNumber, assignmentType, newAssignmentId).value;
    var k := SyllabusIndex(db.syllabus, syllabusId);
    var db2 := once.(syllabus := once.syllabus[k := once.syllabus[k].(assignmentId := link)]);
    SameIdsSameIndex(db.syllabus, db2.syllabus, syllabusId);
    AssignedIsFound(db, syllabusId, episodeNumber, assignmentType, newAssignmentId);
    assert db2.syllabus[k := db2.syllabus[k].(assignmentId := once.syllabus[k].assignmentId)] == once.syllabus;
  }

  /** `removeEpisodeFromSyllabusItem`: only the entry's link is cleared; the
      assignment stays. Prisma throws on a missing entry. */
  function RemoveEpisode(db: Db, syllabusId: Id): (r: Result<Db, ApiError>)
    ensures r.Failure? <==> forall j :: 0 <= j < |db.syllabus| ==> db.syllabus[j].id != syllabusId
    ensures r.Failure? ==> r.error == Internal
    ensures r.Success? ==>
              var k := SyllabusIndex(db.syllabus, syllabusId);
              && r.value.syllabus == db.syllabus[k := db.syllabus[k].(assignmentId := None)]
              && r.value == db.(syllabus := r.value.syllabus)
  {
    var k := SyllabusIndex(db.syllabus, syllabusId);
    if k < 0 then Failure(Internal)
    else Success(db.(syllabus := db.syllabus[k := db.syllabus[k].(assignmentId := None)]))
  }

  /** Unlinking after assigning leaves the entry without an assignment but
      keeps the assignment, so assigning again reuses it. */
  lemma RemoveAfterAssignKeepsAssignment(db: Db, syllabusId: Id, episodeNumber: int, assignmentType: string,
                                         newAssignmentId: Id, newAssignmentId': Id)
    requires AssignEpisode(db, syllabusId, episodeNumber, assignmentType, newAssignmentId).Success?
    ensures var once := AssignEpisode(db, syllabusId, episodeNumber, assignmentType, newAssignmentId).value;
            var removed := RemoveEpisode(once, syllabusId);
            && removed.Success?
            && removed.value.assignments == once.assignments
            && AssignEpisode(removed.value, syllabusId, episodeNumber, assignmentType, newAssignmentId') == Success(once)
  {
    var once := AssignEpisode(db, syllabusId, episodeNumber, assignmentType, newAssignmentId).value;
    var k := SyllabusIndex(db.syllabus, syllabusId);
    SameIdsSameIndex(db.syllabus, once.syllabus, syllabusId);
    ReassignRestores(db, syllabusId, episodeNumber, assignmentType, newAssignmentId, newAssignmentId', None);
  }
}

=== FILE: tag_form.dfy ===
/** The tag modal: a required name and an optional description. Unlike the
    other modals it stops at the first (and only) check. */
module TagForm {
  import opened Wrappers
  import opened FormFields
  import JsText

  const NameRequired := "Tag name is required"

  datatype Form = Form(name: string, description: string)
  datatype Payload = Payload(name: string, description: Option<string>)
  datatype Tag = Tag(id: string, name: string, description: Option<string>)

  /** `resetForm`: empty name and description, no error. */
  function Reset(): (r: (Form, string))
    ensures r.0 == Form("", "") && r.1 == ""
  {
    (Form("", ""), "")
  }

  function Load(item: Tag): (r: Form)
    ensures r.name == item.name && r.description == LoadText(item.description)
  {
    Form(item.name, LoadText(item.description))
  }

  /** `handleSave`: the name error it sets and the mutation it sends. */
  function HandleSave(f: Form, editing: Option<string>): (r: (string, Save<string, Payload>))
    ensures r.0 == "" <==> !JsText.IsBlank(f.name)
    ensures r.0 != "" ==> r.0 == NameRequired
    ensures r.1.Nothing? <==> JsText.IsBlank(f.name)
    ensures r.1.Add? <==> !JsText.IsBlank(f.name) && editing.None?
    ensures r.1.Update? ==> editing == Some(r.1.id)
    ensures !r.1.Nothing? ==>
              r.1.payload == Payload(JsText.Trim(f.name), OptionalText(f.description))
  {
    var error := RequiredError(f.name, NameRequired);
    (error, Decide(error == "", editing, Payload(JsText.Trim(f.name), OptionalText(f.description))))
  }

  /** Padding the name with whitespace changes nothing that is sent. */
  lemma PaddingIgnored(f: Form, pre: string, post: string, editing: Option<string>)
    requires JsText.IsBlank(pre) && JsText.IsBlank(post)
    ensures HandleSave(f.(name := pre + JsText.Trim(f.name) + post), editing) == HandleSave(f, editing)
  {
    var t := JsText.Trim(f.name);
    JsText.TrimOfPadded(pre, t, post);
    JsText.TrimIdempotent(f.name);
  }

  lemma EditUnchangedRoundTrip(item: Tag)
    requires item.name != "" && JsText.IsTrimmed(item.name)
    requires item.description.Some? ==> item.description.value != "" && JsText.IsTrimmed(item.description.value)
    ensures HandleSave(Load(item), Some(item.id)).1 == Update(item.id, Payload(item.name, item.description))
  {
    TrimmedKept(item.name);
    LoadSaveText(item.description);
  }
}

=== FILE: text.dfy ===
/** The JavaScript string operations the admin pages rely on: `trim`,
    `toLowerCase`/`toUpperCase`, `includes`, `startsWith`, `split(" ")`,
    `join("")`, `parseInt(s, 10)` and integer `toString()`.
    Strings are sequences of Unicode scalar values. */
module JsText {
  import opened Wrappers

  // ---------------------------------------------------------------------------
  // trim

  /** ECMAScript WhiteSpace and LineTerminator code points: exactly what
      `String.prototype.trim` strips. */
  predicate IsWhitespace(c: char) {
    || c == ' ' || c == '\t' || c == '\n' || c == '\r' || c == '\U{B}' || c == '\U{C}'
    || c == '\U{A0}' || c == '\U{1680}' || ('\U{2000}' <= c <= '\U{200A}')
    || c == '\U{2028}' || c == '\U{2029}' || c == '\U{202F}' || c == '\U{205F}'
    || c == '\U{3000}' || c == '\U{FEFF}'
  }

  /** Only whitespace (or nothing): what JavaScript reads as blank once trimmed. */
  predicate IsBlank(s: string) {
    forall i :: 0 <= i < |s| ==> IsWhitespace(s[i])
  }

  /** No whitespace at either end. */
  predicate IsTrimmed(s: string) {
    s == [] || (!IsWhitespace(s[0]) && !IsWhitespace(s[|s| - 1]))
  }

  /** The index of the first non-whitespace character at or after `i`
      (`|s|` when there is none). */
  function SkipStart(s: string, i: nat): (k: nat)
    requires i <= |s|
    ensures i <= k <= |s|
    ensures forall j :: i <= j < k ==> IsWhitespace(s[j])
    ensures k == |s| || !IsWhitespace(s[k])
    decreases |s| - i
  {
    if i < |s| && IsWhitespace(s[i]) then SkipStart(s, i + 1) else i
  }

  /** The index just past the last non-whitespace character before `j`,
      scanning no further back than `lo`. */
  function SkipEnd(s: string, lo: nat, j: nat): (k: nat)
    requires lo <= j <= |s|
    ensures lo <= k <= j
    ensures forall m :: k <= m < j ==> IsWhitespace(s[m])
    ensures k == lo || !IsWhitespace(s[k - 1])
    decreases j
  {
    if j > lo && IsWhitespace(s[j - 1]) then SkipEnd(s, lo, j - 1) else j
  }

  /** `s.trim()`: the result is blank exactly when `s` is and has no
      whitespace at its ends; `TrimSplits` shows it is `s` minus padding. */
  function Trim(s: string): (r: string)
    ensures IsTrimmed(r)
    ensures r == [] <==> IsBlank(s)
  {
    var a := SkipStart(s, 0);
    var b := SkipEnd(s, a, |s|);
    assert a == b ==> IsBlank(s) by {
      if a == b {
        assert a == |s|;
      }
    }
    s[a..b]
  }

  /** `s` is its trim with blank padding on both sides. */
  lemma TrimSplits(s: string) returns (pre: string, post: string)
    ensures IsBlank(pre) && IsBlank(post)
    ensures s == pre + Trim(s) + post
  {
    var a := SkipStart(s, 0);
    var b := SkipEnd(s, a, |s|);
    pre := s[..a];
    post := s[b..];
    BlankSlice(s, 0, a);
    BlankSlice(s, b, |s|);
    assert s[0..a] == pre && s[b..|s|] == post;
    assert s == s[..a] + s[a..b] + s[b..];
  }

  /** A slice of whitespace characters is blank. */
  lemma BlankSlice(s: string, lo: nat, hi: nat)
    requires lo <= hi <= |s|
    requires forall j :: lo <= j < hi ==> IsWhitespace(s[j])
    ensures IsBlank(s[lo..hi])
  {
    assert forall j :: 0 <= j < hi - lo ==> s[lo..hi][j] == s[lo + j];
  }

  /** The scan from `i` stops at the first non-whitespace index `k`. */
  lemma {:induction false} SkipStartAt(s: string, i: nat, k: nat)
    requires i <= k < |s| && !IsWhitespace(s[k])
    requires forall j :: i <= j < k ==> IsWhitespace(s[j])
    ensures SkipStart(s, i) == k
    decreases k - i
  {
    if i < k {
      SkipStartAt(s, i + 1, k);
    }
  }

  /** The scan back from `j` stops just past the last non-whitespace index
      `k - 1`. */
  lemma {:induction false} SkipEndAt(s: string, lo: nat, j: nat, k: nat)
    requires lo < k <= j <= |s| && !IsWhitespace(s[k - 1])
    requires forall m :: k <= m < j ==> IsWhitespace(s[m])
    ensures SkipEnd(s, lo, j) == k
    decreases j - k
  {
    if k < j {
      SkipEndAt(s, lo, j - 1, k);
    }
  }

  /** Trimming pads and unpads exactly: the trim of a trimmed core surrounded
      by whitespace is that core. */
  lemma TrimOfPadded(pre: string, core: string, post: string)
    requires IsBlank(pre) && IsBlank(post) && IsTrimmed(core)
    ensures Trim(pre + core + post) == core
  {
    var s := pre + core + post;
    if core == [] {
      assert IsBlank(s) by {
        forall i | 0 <= i < |s| ensures IsWhitespace(s[i]) {
          if i < |pre| {
            assert s[i] == pre[i];
          } else {
            assert s[i] == post[i - |pre|];
          }
        }
      }
    } else {
      var a := |pre|;
      var b := |pre| + |core|;
      assert forall j :: 0 <= j < a ==> s[j] == pre[j];
      assert forall m :: b <= m < |s| ==> s[m] == post[m - b];
      assert s[a] == core[0] && s[b - 1] == core[|core| - 1];
      SkipStartAt(s, 0, a);
      SkipEndAt(s, a, |s|, b);
      assert s[a..b] == core;
    }
  }

  /** Trimming twice is trimming once. */
  lemma TrimIdempotent(s: string)
    ensures Trim(Trim(s)) == Trim(s)
  {
    var t := Trim(s);
    TrimOfPadded([], t, []);
    assert [] + t + [] == t;
  }

  // ---------------------------------------------------------------------------
  // case mapping (ASCII letters only)

  function LowerChar(c: char): char {
    if 'A' <= c <= 'Z' then (c as int + 32) as char else c
  }

  function UpperChar(c: char): char {
    if 'a' <= c <= 'z' then (c as int - 32) as char else c
  }

  /** `s.toLowerCase()`, restricted to ASCII letters. */
  function ToLower(s: string): (r: string)
    ensures |r| == |s|
    ensures forall i :: 0 <= i < |s| ==> r[i] == LowerChar(s[i])
  {
    seq(|s|, i requires 0 <= i < |s| => LowerChar(s[i]))
  }

  /** `s.toUpperCase()`, restricted to ASCII letters. */
  function ToUpper(s: string): (r: string)
    ensures |r| == |s|
    ensures forall i :: 0 <= i < |s| ==> r[i] == UpperChar(s[i])
  {
    seq(|s|, i requires 0 <= i < |s| => UpperChar(s[i]))
  }

  // ---------------------------------------------------------------------------
  // includes / startsWith

  /** `s.startsWith(p)`. */
  predicate StartsWith(s: string, p: string) {
    |p| <= |s| && s[..|p|] == p
  }

  /** `s.includes(needle)`, computed by scanning the start positions in order. */
  predicate Includes(s: string, needle: string)
    decreases |s|
  {
    StartsWith(s, needle) || (|s| > 0 && Includes(s[1..], needle))
  }

  /** `needle` occurs in `s` at some position. */
  ghost predicate OccursIn(s: string, needle: string) {
    exists i :: 0 <= i <= |s| && StartsWith(s[i..], needle)
  }

  /** The scan finds an occurrence exactly when there is one. */
  lemma {:induction false} IncludesIffOccurs(s: string, needle: string)
    ensures Includes(s, needle) <==> OccursIn(s, needle)
    decreases |s|
  {
    if StartsWith(s, needle) {
      assert s[0..] == s;
    } else if |s| == 0 {
      forall i | 0 <= i <= |s| ensures !StartsWith(s[i..], needle) {
        assert s[i..] == s;
      }
    } else {
      IncludesIffOccurs(s[1..], needle);
      if OccursIn(s[1..], needle) {
        var i :| 0 <= i <= |s[1..]| && StartsWith(s[1..][i..], needle);
        assert s[1..][i..] == s[i + 1..];
      }
      if OccursIn(s, needle) {
        var i :| 0 <= i <= |s| && StartsWith(s[i..], needle);
        assert i != 0 by {
          assert s[0..] == s;
        }
        assert s[1..][i - 1..] == s[i..];
      }
    }
  }

  /** Every string includes the empty string. */
  lemma IncludesEmpty(s: string)
    ensures Includes(s, "")
  {
    assert StartsWith(s, "");
  }

  // ---------------------------------------------------------------------------
  // a < b on strings

  /** `a < b` on strings: lexicographic by character, a proper prefix first. */
  predicate StrLess(a: string, b: string)
    decreases |a|
  {
    if |a| == 0 then |b| > 0
    else if |b| == 0 then false
    else if a[0] != b[0] then a[0] < b[0]
    else StrLess(a[1..], b[1..])
  }

  /** `<` on strings is a strict total order: never both ways, and one way
      whenever the strings differ. */
  lemma {:induction false} StrLessStrictTotal(a: string, b: string)
    ensures !(StrLess(a, b) && StrLess(b, a))
    ensures a != b ==> StrLess(a, b) || StrLess(b, a)
    decreases |a|
  {
    if |a| > 0 && |b| > 0 && a[0] == b[0] {
      StrLessStrictTotal(a[1..], b[1..]);
      if a != b {
        assert a == [a[0]] + a[1..] && b == [b[0]] + b[1..];
      }
    }
  }

  lemma {:induction false} StrLessTransitive(a: string, b: string, c: string)
    requires StrLess(a, b) && StrLess(b, c)
    ensures StrLess(a, c)
    decreases |a|
  {
    if |a| > 0 && a[0] == b[0] && b[0] == c[0] {
      StrLessTransitive(a[1..], b[1..], c[1..]);
    }
  }

  // ---------------------------------------------------------------------------
  // split(" ") / join

  /** `s.split(sep)` for a one-character separator: the pieces between the
      separators, empty pieces included, so there is always at least one. */
  function Split(s: string, sep: char): (r: seq<string>)
    ensures |r| >= 1
    ensures forall i :: 0 <= i < |r| ==> sep !in r[i]
    decreases |s|
  {
    if |s| == 0 then [""]
    else
      var rest := Split(s[1..], sep);
      if s[0] == sep then [""] + rest
      else [[s[0]] + rest[0]] + rest[1..]
  }

  /** `parts.join(sep)` with a one-character separator. */
  function Join(parts: seq<string>, sep: char): string
    decreases |parts|
  {
    if |parts| == 0 then ""
    else if |parts| == 1 then parts[0]
    else parts[0] + [sep] + Join(parts[1..], sep)
  }

  /** Splitting and re-joining on the same separator gives back the string. */
  lemma {:induction false} JoinSplit(s: string, sep: char)
    ensures Join(Split(s, sep), sep) == s
    decreases |s|
  {
    if |s| > 0 {
      var rest := Split(s[1..], sep);
      JoinSplit(s[1..], sep);
      if s[0] == sep {
        assert Split(s, sep) == [""] + rest;
        assert ([""] + rest)[1..] == rest;
        assert s == "" + [sep] + s[1..];
      } else {
        var parts := [[s[0]] + rest[0]] + rest[1..];
        assert Split(s, sep) == parts;
        if |rest| == 1 {
          assert s == [s[0]] + s[1..];
        } else {
          assert parts[1..] == rest[1..];
          assert Join(rest, sep) == rest[0] + [sep] + Join(rest[1..], sep);
          assert s == [s[0]] + s[1..];
        }
      }
    }
  }

  /** Joining separator-free pieces and splitting again gives back the pieces. */
  lemma {:induction false} SplitJoin(parts: seq<string>, sep: char)
    requires |parts| >= 1
    requires forall i :: 0 <= i < |parts| ==> sep !in parts[i]
    ensures Split(Join(parts, sep), sep) == parts
    decreases |parts|, |parts[0]|
  {
    if |parts[0]| == 0 {
      if |parts| == 1 {
        assert Join(parts, sep) == "";
      } else {
        var tail := Join(parts[1..], sep);
        assert Join(parts, sep) == [sep] + tail;
        SplitAtSep(tail, sep);
        SplitJoin(parts[1..], sep);
        assert parts == [""] + parts[1..];
      }
    } else {
      var c := parts[0][0];
      var shorter := [parts[0][1..]] + parts[1..];
      assert c != sep by {
        assert c in parts[0];
      }
      ShorterHasNoSep(parts, sep);
      SplitJoin(shorter, sep);
      JoinHead(parts, sep);
      SplitAtOther(c, Join(shorter, sep), sep);
      assert parts[0] == [c] + parts[0][1..] && shorter[1..] == parts[1..];
      assert parts == [[c] + shorter[0]] + shorter[1..];
    }
  }

  /** A string that starts with the separator splits into an empty piece
      followed by the pieces of the rest. */
  lemma SplitAtSep(t: string, sep: char)
    ensures Split([sep] + t, sep) == [""] + Split(t, sep)
  {
    assert ([sep] + t)[1..] == t;
  }

  /** A string that starts with another character puts it in front of the
      first piece of the rest. */
  lemma SplitAtOther(c: char, t: string, sep: char)
    requires c != sep
    ensures Split([c] + t, sep) == [[c] + Split(t, sep)[0]] + Split(t, sep)[1..]
  {
    assert ([c] + t)[1..] == t;
  }

  /** Joining pieces whose first is not empty starts with that piece's first
      character, followed by the join with that character removed. */
  lemma JoinHead(parts: seq<string>, sep: char)
    requires |parts| >= 1 && |parts[0]| >= 1
    ensures Join(parts, sep) == [parts[0][0]] + Join([parts[0][1..]] + parts[1..], sep)
  {
    var shorter := [parts[0][1..]] + parts[1..];
    assert shorter[1..] == parts[1..];
    assert parts[0] == [parts[0][0]] + parts[0][1..];
  }

  /** Dropping the first character of the first piece keeps every piece
      free of the separator. */
  lemma ShorterHasNoSep(parts: seq<string>, sep: char)
    requires |parts| >= 1 && |parts[0]| >= 1
    requires forall i :: 0 <= i < |parts| ==> sep !in parts[i]
    ensures forall i :: 0 <= i < |parts| ==> sep !in ([parts[0][1..]] + parts[1..])[i]
  {
    var shorter := [parts[0][1..]] + parts[1..];
    forall i | 0 <= i < |shorter| ensures sep !in shorter[i] {
      if i == 0 {
        assert forall x :: x in parts[0][1..] ==> x in parts[0];
      } else {
        assert shorter[i] == parts[i];
      }
    }
  }

  // ---------------------------------------------------------------------------
  // parseInt(s, 10) and integer toString()

  predicate IsDigit(c: char) {
    '0' <= c <= '9'
  }

  function DigitValue(c: char): nat
    requires IsDigit(c)
  {
    c as int - '0' as int
  }

  function DigitChar(d: nat): (c: char)
    requires d < 10
    ensures IsDigit(c) && DigitValue(c) == d
  {
    ('0' as int + d) as char
  }

  /** Length of the run of decimal digits that starts `s`. */
  function DigitRun(s: string): (n: nat)
    ensures n <= |s|
    ensures forall i :: 0 <= i < n ==> IsDigit(s[i])
    ensures n == |s| || !IsDigit(s[n])
  {
    if |s| > 0 && IsDigit(s[0]) then 1 + DigitRun(s[1..]) else 0
  }

  /** The number a string of decimal digits denotes. */
  function DigitsValue(d: string): nat
    requires forall i :: 0 <= i < |d| ==> IsDigit(d[i])
  {
    if |d| == 0 then 0 else 10 * DigitsValue(d[..|d| - 1]) + DigitValue(d[|d| - 1])
  }

  /** `parseInt(s, 10)`: skip leading whitespace, read an optional sign and
      then the longest run of decimal digits; no digits at all is `NaN`
      (`None`). Whatever follows the digits is ignored. */
  function ParseInt(s: string): Option<int>
  {
    ParseSigned(s[SkipStart(s, 0)..])
  }

  /** An optional `+` or `-` followed by the digits `ParseDigits` reads. */
  function ParseSigned(t: string): Option<int>
  {
    if |t| > 0 && t[0] == '-' then
      match ParseDigits(t[1..])
      case None => None
      case Some(v) => Some(-v)
    else if |t| > 0 && t[0] == '+' then ParseDigits(t[1..])
    else ParseDigits(t)
  }

  /** The longest run of decimal digits at the start of `u`, `None` when
      there is none. */
  function ParseDigits(u: string): Option<int>
  {
    var n := DigitRun(u);
    if n == 0 then None else Some(DigitsValue(u[..n]))
  }

  /** `n.toString()` for a non-negative integer: decimal, no leading zeros. */
  function DecimalString(n: nat): (r: string)
    ensures |r| >= 1
    ensures forall i :: 0 <= i < |r| ==> IsDigit(r[i])
    ensures |r| > 1 ==> r[0] != '0'
  {
    if n < 10 then [DigitChar(n)] else DecimalString(n / 10) + [DigitChar(n % 10)]
  }

  lemma {:induction false} DigitsValueOfDecimal(n: nat)
    ensures DigitsValue(DecimalString(n)) == n
  {
    if n >= 10 {
      var r := DecimalString(n);
      DigitsValueOfDecimal(n / 10);
      assert r[..|r| - 1] == DecimalString(n / 10);
    }
  }

  /** `parseInt` reads back exactly the number `toString` wrote, with or
      without a leading minus sign. */
  lemma ParseIntOfDecimal(n: nat)
    ensures ParseInt(DecimalString(n)) == Some(n)
    ensures ParseInt("-" + DecimalString(n)) == Some(-(n as int))
  {
    var d := DecimalString(n);
    DigitsValueOfDecimal(n);
    ParseDigitsAll(d);
    assert !IsWhitespace(d[0]);
    assert SkipStart(d, 0) == 0 && d[0..] == d;
    var m := "-" + d;
    assert SkipStart(m, 0) == 0 && m[0..] == m;
    assert m[1..] == d;
  }

  /** A non-empty run of digits reads as the number it denotes. */
  lemma ParseDigitsAll(d: string)
    requires |d| >= 1 && forall i :: 0 <= i < |d| ==> IsDigit(d[i])
    ensures ParseDigits(d) == Some(DigitsValue(d) as int)
  {
    DigitRunAll(d);
    assert d[..|d|] == d;
  }

  lemma DigitRunAll(d: string)
    requires forall i :: 0 <= i < |d| ==> IsDigit(d[i])
    ensures DigitRun(d) == |d|
  {
  }
}

=== FILE: user_list.dfy ===
/** The users page: the search-and-role filter and the avatar initials. */
module UserList {
  import opened Wrappers
  import opened Seqs
  import JsText

  /** A user row with the ids of the roles it holds. `name` and `email`
      are nullable. */
  datatype UserRow = UserRow(id: string, name: Option<string>, email: Option<string>, roleIds: seq<nat>)

  const AllRoles := "all"

  /** `field?.toLowerCase().includes(query.toLowerCase())`: a null field
      never matches, an empty one matches only the empty query. */
  predicate FieldMatches(field: Option<string>, query: string) {
    field.Some? && JsText.Includes(JsText.ToLower(field.value), JsText.ToLower(query))
  }

  predicate SearchMatches(u: UserRow, query: string) {
    FieldMatches(u.name, query) || FieldMatches(u.email, query)
  }

  /** `roleId.toString() === selectedRoleId` for some role of the user. */
  predicate HasRoleString(u: UserRow, selected: string) {
    exists i :: 0 <= i < |u.roleIds| && JsText.DecimalString(u.roleIds[i]) == selected
  }

  function BySearch(query: string): UserRow -> bool {
    (u: UserRow) => SearchMatches(u, query)
  }

  function ByRole(selected: string): UserRow -> bool {
    (u: UserRow) => HasRoleString(u, selected)
  }

  /** The filter effect: search on name or email, then, unless "all" roles
      are selected, on the role. */
  function FilterUsers(items: seq<UserRow>, query: string, selected: string): (r: seq<UserRow>)
    ensures forall i :: 0 <= i < |r| ==>
              r[i] in items && SearchMatches(r[i], query) && (selected == AllRoles || HasRoleString(r[i], selected))
    ensures forall i :: 0 <= i < |items| ==>
              SearchMatches(items[i], query) && (selected == AllRoles || HasRoleString(items[i], selected)) ==>
              items[i] in r
  {
    var filtered := Filter(items, BySearch(query));
    if selected != AllRoles then Filter(filtered, ByRole(selected)) else filtered
  }

  /** Keep a user when it passes both conditions at once. */
  predicate Kept(u: UserRow, query: string, selected: string) {
    SearchMatches(u, query) && (selected == AllRoles || HasRoleString(u, selected))
  }

  /** The two filters in a row are one filter that keeps exactly the users
      passing both conditions, in the table's order. */
  lemma FilterUsersIsOneFilter(items: seq<UserRow>, query: string, selected: string)
    ensures FilterUsers(items, query, selected) == Filter(items, (u: UserRow) => Kept(u, query, selected))
  {
    if selected != AllRoles {
      FilterFilter(items, BySearch(query), ByRole(selected), (u: UserRow) => Kept(u, query, selected));
    } else {
      FilterSame(items, BySearch(query), (u: UserRow) => Kept(u, query, selected));
    }
  }

  /** A user with neither name nor email is never listed, not even for the
      empty query. */
  lemma NamelessUserHidden(items: seq<UserRow>, query: string, selected: string, u: UserRow)
    requires u.name.None? && u.email.None?
    ensures u !in FilterUsers(items, query, selected)
  {
  }

  /** With the empty query and every role, exactly the users with a name or
      an email are listed. */
  lemma EmptyQueryKeepsNamedUsers(items: seq<UserRow>, u: UserRow)
    requires u in items
    ensures u in FilterUsers(items, "", AllRoles) <==> u.name.Some? || u.email.Some?
  {
    if u.name.Some? {
      JsText.IncludesEmpty(JsText.ToLower(u.name.value));
    }
    if u.email.Some? {
      JsText.IncludesEmpty(JsText.ToLower(u.email.value));
    }
  }

  /** Selecting a role's id string keeps exactly the users holding that
      role: distinct ids have distinct strings. */
  lemma RoleSelectionIsExact(u: UserRow, roleId: nat)
    ensures HasRoleString(u, JsText.DecimalString(roleId)) <==> roleId in u.roleIds
  {
    if HasRoleString(u, JsText.DecimalString(roleId)) {
      var i :| 0 <= i < |u.roleIds| && JsText.DecimalString(u.roleIds[i]) == JsText.DecimalString(roleId);
      JsText.DigitsValueOfDecimal(u.roleIds[i]);
      JsText.DigitsValueOfDecimal(roleId);
    }
    if roleId in u.roleIds {
      var i :| 0 <= i < |u.roleIds| && u.roleIds[i] == roleId;
    }
  }

  // ---------------------------------------------------------------------
  // getInitials

  /** `words.map((n) => n[0]).join("")`: an empty word has no first
      character and contributes nothing. */
  function FirstChars(words: seq<string>): (r: string)
    ensures |r| <= |words|
    decreases |words|
  {
    if |words| == 0 then ""
    else (if |words[0]| > 0 then [words[0][0]] else "") + FirstChars(words[1..])
  }

  /** `getInitials`: "U" for a missing or empty name, otherwise the first
      character of each space-separated word, upper-cased, at most two. */
  function Initials(name: Option<string>): (r: string)
    ensures |r| <= 2
    ensures name.None? || name == Some("") ==> r == "U"
  {
    if name.None? || name.value == "" then "U"
    else
      var s := JsText.ToUpper(FirstChars(JsText.Split(name.value, ' ')));
      if |s| <= 2 then s else s[..2]
  }

  /** For a name made of space-separated non-empty words, the initials are
      the upper-cased first letters of the first two words. */
  lemma InitialsOfWords(words: seq<string>)
    requires |words| >= 1
    requires forall i :: 0 <= i < |words| ==> |words[i]| > 0 && ' ' !in words[i]
    ensures var r := Initials(Some(JsText.Join(words, ' ')));
            && |r| == (if |words| >= 2 then 2 else 1)
            && r[0] == JsText.UpperChar(words[0][0])
            && (|words| >= 2 ==> r[1] == JsText.UpperChar(words[1][0]))
  {
    JoinNotEmpty(words, ' ');
    JsText.SplitJoin(words, ' ');
    FirstCharsOfWords(words);
  }

  /** Joining pieces whose first is not empty gives a non-empty string. */
  lemma JoinNotEmpty(words: seq<string>, sep: char)
    requires |words| >= 1 && |words[0]| > 0
    ensures JsText.Join(words, sep) != ""
  {
    if |words| > 1 {
      assert JsText.Join(words, sep) == words[0] + [sep] + JsText.Join(words[1..], sep);
    }
  }

  /** With no empty word, there is one first character per word. */
  lemma {:induction false} FirstCharsOfWords(words: seq<string>)
    requires forall i :: 0 <= i < |words| ==> |words[i]| > 0
    ensures |FirstChars(words)| == |words|
    ensures forall i :: 0 <= i < |words| ==> FirstChars(words)[i] == words[i][0]
    decreases |words|
  {
    if |words| > 0 {
      FirstCharsOfWords(words[1..]);
      assert FirstChars(words) == [words[0][0]] + FirstChars(words[1..]);
    }
  }

  /** A name of spaces only has no words, so its initials are empty rather
      than "U". */
  lemma BlankNameHasNoInitials()
    ensures Initials(Some(" ")) == ""
  {
    assert JsText.Split(" ", ' ') == ["", ""] by {
      assert JsText.Split(" "[1..], ' ') == [""];
    }
  }
}

=== FILE: wrappers.dfy ===
/** Failure-compatible wrappers shared by every module of the model.
    `Option` stands for a nullable or optional value (`null`/`undefined`),
    `Result` for a procedure that either returns a value or throws. */
module Wrappers {

  datatype Option<+T> = None | Some(value: T) {

    predicate IsFailure() {
      None?
    }

    function PropagateFailure<U>(): Option<U>
      requires None?
    {
      None
    }

    function Extract(): T
      requires Some?
    {
      value
    }

    /** The value, or `default` when absent (JavaScript's `x ?? default`). */
    function GetOr(default: T): T {
      match this
      case Some(v) => v
      case None => default
    }
  }

  datatype Result<+T, +E> = Success(value: T) | Failure(error: E) {

    predicate IsFailure() {
      Failure?
    }

    function PropagateFailure<U>(): Result<U, E>
      requires Failure?
    {
      Failure(error)
    }

    function Extract(): T
      requires Success?
    {
      value
    }
  }

  /** Prisma's update semantics for one column: a supplied value replaces the
      stored one, an omitted (`undefined`) value leaves it as it was. */
  function Patch<T>(stored: T, supplied: Option<T>): (r: T)
    ensures supplied.Some? ==> r == supplied.value
    ensures supplied.None? ==> r == stored
  {
    match supplied
    case Some(v) => v
    case None => stored
  }

  /** `Patch` for a nullable column whose new value is an optional input:
      an omitted input keeps the stored value, null or not. */
  function Override<T>(stored: Option<T>, supplied: Option<T>): (r: Option<T>)
    ensures supplied.Some? ==> r == supplied
    ensures supplied.None? ==> r == stored
  {
    if supplied.Some? then supplied else stored
  }
}
